=== FILE: README.md ===
# Solar dashboard analysis core, in Dafny

A model of the analysis behind a home-solar dashboard. The input is a smart meter's 5-minute interval
export: consumption on register 1, and solar export on register 2 with the solar flag set. The dashboard finds
when solar export began and splits the readings into consumption and export. It labels a
reading as *sunlight* when the panels were observably generating at that timestamp, and flags
readings inside a user-chosen *free window*, a daily period of free grid power. From these it computes:

- headline statistics;
- daily, hourly and monthly roll-ups and a 7-day trend;
- average generating hours per month;
- a battery-sizing simulation over a fixed catalogue of battery sizes.

A table of Australian postcodes resolves and searches locations.

kWh quantities are `real` (exact rational arithmetic). Dates are validated (year, month, day) triples with
Python's day-ordinal, and readings are immutable records in a `seq`. A pandas NaN is modelled as
`Option.None`.

Modules, one per file:

| module | what it models |
|---|---|
| `Wrappers` | `Option`, `Result` |
| `Seqs` | order-preserving filtering (boolean-mask selection), subsequences, `FilterMap` |
| `Ordering` | strict total orders, sorted distinct insertion (`sorted(set(...))`) |
| `Text` | ASCII `strip`, `lower`, `isdigit`, `zfill`, `in` on strings, `int()` |
| `Dates` | calendar dates, day ordinal, timestamps |
| `Meter` | readings, ingestion, the inclusive date filter |
| `FreeWindow` | "HH:MM" parsing and the half-open free-window flag |
| `Sums` | conditional sums, per-key sums, partition lemmas, `Mean` |
| `Summary` | `get_summary_stats` |
| `Rollups` | the daily / hourly / monthly / rolling series and actual generating hours |
| `DateRange` | `suggest_date_range`, as written and corrected |
| `Battery` | `calculate_battery_recommendation` |
| `Timezones` | the state-to-timezone table |
| `Uploads` | `allowed_file` |
| `Postcodes` | the postcode table: load, lookup, primary location, search, listings |

The postcode table stores each key only stripped (`solar_dashboard/postcodes.py:73`), while a lookup pads the query to four digits (`solar_dashboard/postcodes.py:113`). `Postcodes.ShortKeysUnreachable` shows that a stored key shorter than four characters is therefore never found.

## Model

| member | source | states |
|---|---|---|
| Meter.Ingest | solar_dashboard/app.py:130-178 | Fails exactly when no row is a solar export with a positive quantity. Otherwise the solar start is the earliest date of such a row and the data end is the latest date of any row. Consumption is exactly the register-1 rows from the solar start, and exports are exactly the flagged register-2 rows from the solar start, both in file order. A reading is sunlight iff some export at its timestamp exceeds 0.001 kWh. No free-window flag is set, and every reading lies within [solar start, data end]. |
| Meter.EarliestExportDate | solar_dashboard/app.py:131-137 | None iff no row is a positive solar export; otherwise the date of such a row, and no such row is earlier |
| Meter.LatestDate | solar_dashboard/app.py:138 | The date of some row, and no row is later |
| Meter.GeneratingTimes | solar_dashboard/app.py:153-155 | A timestamp is included iff some export at it exceeds the generation threshold |
| Meter.Annotate | solar_dashboard/app.py:157-167 | Keeps every reading in order; the sunlight flag is membership of the generating set; the free-window flag is cleared |
| Meter.BuildWithinBounds | solar_dashboard/app.py:141-146 | Every retained consumption and export reading is dated between the solar start and the data end |
| Meter.SeriesDisjoint | solar_dashboard/app.py:144-146 | Every consumption reading is on register 1 and every export is a flagged register-2 reading, so no reading is in both series |
| Meter.FilterByDateRange | solar_dashboard/app.py:181-197 | A reading is kept iff it is dated within [start, end], both ends included. Each kept reading occurs as often as in the input, and the order is kept. |
| Seqs.FilterCounts | solar_dashboard/app.py:181-197 | A boolean-mask selection keeps every occurrence of a selected element and none of the others |
| Meter.FullRangeKeepsAll | solar_dashboard/app.py:181-197 | Filtering ingested data to its own solar start and data end changes nothing |
| Meter.InvertedRangeIsEmpty | solar_dashboard/app.py:190-195 | An end before the start selects nothing from either series |
| FreeWindow.ParseClock | solar_dashboard/app.py:632-635 | A value exactly when the text has one ':' and both sides parse as integers; that value is hours times 60 plus minutes |
| FreeWindow.ClockRoundTrip | solar_dashboard/app.py:632-635 | Parsing a formatted "HH:MM" time of day gives back its minutes since midnight |
| FreeWindow.UnpaddedClock | solar_dashboard/app.py:632-635 | Parts need no zero padding: "7:5" is 425 minutes |
| FreeWindow.IsEnabled | solar_dashboard/app.py:626 | The window is enabled iff the argument is absent or spells "true" in any mix of letter case |
| FreeWindow.UpperCaseEnables | solar_dashboard/app.py:626 | "TRUE" and "True" enable the window |
| FreeWindow.OtherValuesDisable | solar_dashboard/app.py:626 | "false", "yes" and the empty string disable the window |
| FreeWindow.WindowBounds | solar_dashboard/app.py:630-648 | The bounds exist iff the window is enabled and both times parse |
| FreeWindow.ApplyFreeWindow | solar_dashboard/app.py:630-648 | Only the free-window flag changes. It is set iff the window is enabled, both times parse and start <= minute of day < end, so the start is included and the end is excluded. A parse failure or a disabled window clears it everywhere. |
| FreeWindow.EmptyWindowFlagsNothing | solar_dashboard/app.py:640-642 | A window whose start time of day is at or after its end time flags no reading |
| FreeWindow.DefaultStartIs11 | solar_dashboard/app.py:627 | The default start is 11:00 |
| FreeWindow.DefaultEndIs14 | solar_dashboard/app.py:628 | The default end is 14:00 |
| FreeWindow.ClockWindow | solar_dashboard/app.py:630-636 | Two well-formed times of day give an enabled window with exactly their minute values |
| Sums.SunlightNightSplit | solar_dashboard/app.py:284-286 | Sunlight sum plus night sum equals the total, for any measure |
| Sums.NarrowerSelectionIsSmaller | solar_dashboard/app.py:290-294 | Over non-negative readings, a narrower selection sums to no more than a wider one (e.g. paid sunlight vs sunlight) |
| Sums.PartitionByKey | solar_dashboard/app.py:664-666 | Grouping by a key whose groups cover every selected reading loses nothing: the group sums add up to the total |
| Sums.SumOfGroups | solar_dashboard/app.py:664-666 | The sum of a column of group sums is the sum across those keys |
| Sums.MonthFromDays | solar_dashboard/app.py:250-254 | Summing a month's readings day by day over distinct days of that month gives the month's sum |
| Sums.Mean | solar_dashboard/app.py:313-314 | The mean times the count gives back the total |
| Summary.SummaryStats | solar_dashboard/app.py:279-318 | Each consumption figure is the sum over its own readings: sunlight, night, free-window-only, paid sunlight and all. The export figures are the sums over sunlight exports and all exports. Sunlight plus night consumption is the total. The number of days is the number of distinct consumption dates, between 1 and the number of readings. Each percentage is that figure's share of the total. The daily averages are mean consumption and export per day. All percentages are 0 when the total is 0, and the sunlight and night percentages add to 100 otherwise. Over non-negative readings, paid sunlight <= sunlight, free window <= total, every percentage is in [0, 100] and sunlight export <= total export. |
| Summary.StatsOf | solar_dashboard/app.py:304-318 | The averages are means over the number of days; each percentage is the share of total consumption |
| Summary.SummaryFacts | solar_dashboard/app.py:284-317 | The partition, bound and percentage facts about the consumption and export sums |
| Summary.DaysCount | solar_dashboard/app.py:302 | The number of distinct dates is at least 1 for a non-empty series and at most its length |
| Summary.Percent | solar_dashboard/app.py:315-317 | 0 when the whole is not positive; otherwise the percentage times the whole is 100 times the part |
| Summary.PercentsAdd | solar_dashboard/app.py:315-316 | Two parts making up the whole have percentages summing to 100 |
| Summary.PercentBounds | solar_dashboard/app.py:315-317 | A part between 0 and the whole has a percentage between 0 and 100 |
| Rollups.Daily | solar_dashboard/app.py:664-673 | Indexed, oldest first, by exactly the dates with sunlight consumption, so a day with only night use is absent. Each entry holds that day's sunlight, night and export sums, with 0 for none. |
| Rollups.DailySunlightIsComplete | solar_dashboard/app.py:664 | The daily sunlight column adds up to all sunlight consumption |
| Rollups.GroupMean | solar_dashboard/app.py:679-685 | The mean times the number of readings in the group is the group's sum; 0 for an empty group |
| Rollups.Hourly | solar_dashboard/app.py:679-686 | 24 entries, entry h the mean quantity of the readings in hour h |
| Rollups.HourlyMeansRecoverTotal | solar_dashboard/app.py:679-686 | Weighting each hourly mean by its reading count recovers the total quantity |
| Rollups.Monthly | solar_dashboard/app.py:689-703 | Indexed, oldest first, by exactly the months in which either series has a reading; each entry holds that month's sums, 0 for none |
| Rollups.MonthlyIsComplete | solar_dashboard/app.py:692-703 | The monthly sunlight plus night columns add up to all consumption; the export column adds up to all export |
| Rollups.Rolling | solar_dashboard/app.py:706-708 | One value per full 7-sample window, the first 6 dropped; each value is the mean of its window |
| Rollups.RollingSlides | solar_dashboard/app.py:706 | Consecutive trend values differ by the entering sample minus the leaving one, over 7 |
| Rollups.RollingOfConstant | solar_dashboard/app.py:706 | The trend of a constant series is that constant |
| Rollups.Trends | solar_dashboard/app.py:705-715 | Each trend value is dated by the last day of its window; all three columns are rolled the same way |
| Rollups.DaysOfMonth | solar_dashboard/app.py:231-242 | Distinct dates, oldest first, all in the month. Each is the date of some reading, and every reading dated in the month has its date among them. |
| Rollups.HoursPerDay | solar_dashboard/app.py:251-254 | The daily generating hours add up to the generating intervals across those days times 5/60 |
| Rollups.DailyMean | solar_dashboard/app.py:262-268 | The mean times the number of days is the sum of the daily generating hours |
| Rollups.ActualHours | solar_dashboard/app.py:225-276 | One average per month, oldest first, for exactly the months in which either series has a reading |
| Rollups.MonthAverageCountsIntervals | solar_dashboard/app.py:250-268 | A month's average generating hours is its number of intervals above 0.001 kWh, times 5/60, over its number of days with data |
| Rollups.DailyMeanCountsIntervals | solar_dashboard/app.py:250-268 | Summed over distinct days covering the month's generating exports, the daily hours are the month's generating intervals times 5/60 |
| DateRange.ShiftYears | solar_dashboard/app.py:210 | A valid date in the same month, `k` years on, with the same day unless a 29 February falls back to the 28th |
| DateRange.SuggestAsWritten | solar_dashboard/app.py:200-222 | The code as written; with under 365 days of data it suggests the whole span |
| DateRange.AsWrittenFailsOnLeapDays | solar_dashboard/app.py:207-216 | The code as written raises exactly when a year or more of data needs to shift a 29 February: the data end, or the solar start when the year before the end reaches back past it |
| DateRange.LeapDayEndRaises | solar_dashboard/app.py:210 | Solar from 2023-01-01 with data to 2024-02-29 makes the code as written raise |
| DateRange.AsWrittenAgrees | solar_dashboard/app.py:200-222 | Wherever the code as written returns, it returns the corrected suggestion |
| DateRange.SuggestDateRange | solar_dashboard/app.py:200-222 | Valid dates; with under 365 days of data, the whole span |
| DateRange.SuggestionIsAFullYear | solar_dashboard/app.py:207-216 | With 365 days or more the suggestion lies within [solar start, data end], is ordered, and spans 365 or 366 days |
| DateRange.SuggestionPrefersRecentYear | solar_dashboard/app.py:207-216 | With 365 days or more the suggestion is the year ending at the data end, unless that year starts before solar export; then it starts at solar export |
| DateRange.FourHundredDays | solar_dashboard/app.py:207-210 | 400 days of data suggest the last year |
| DateRange.TwoHundredDays | solar_dashboard/app.py:217-220 | 200 days of data suggest all of it |
| Battery.NightDays | solar_dashboard/app.py:325-331 | Oldest first, exactly the dates with night consumption. Each holds that date's night consumption and its export, 0 when there is none. |
| Battery.Offset | solar_dashboard/app.py:409-412 | At most the night use, the export and the usable capacity, and equal to one of them |
| Battery.OffsetMonotone | solar_dashboard/app.py:411-412 | A larger battery never offsets less |
| Battery.OffsetSaturates | solar_dashboard/app.py:411-412 | A battery holding the whole export offsets the smaller of export and night use |
| Battery.MeanOf | solar_dashboard/app.py:334 | No mean (NaN) iff there are no values; otherwise the mean times the count is the total |
| Battery.CalculateSavings | solar_dashboard/app.py:400-439 | The total saved is the sum of the nightly offsets at 90% of the size, and the average is over all nights. Coverage is the saved share of night use, and each season's coverage uses that season's night use, or 1 with no night in the season. |
| Battery.CoverageIsAPercentage | solar_dashboard/app.py:424-431 | Over non-negative data, all three coverages lie in [0, 100] |
| Battery.LargerBatterySavesMore | solar_dashboard/app.py:400-425 | A larger size saves at least as much in total and covers at least as much |
| Battery.SavingsBelowPotentialStorage | solar_dashboard/app.py:345-346 | The savings never exceed the sum of min(export, night), and equal it once the battery holds every day's export |
| Battery.Analysis | solar_dashboard/app.py:441 | One row per catalogue size, in catalogue order, each that size's savings |
| Battery.CatalogIncreasing | solar_dashboard/app.py:398 | The catalogue is strictly increasing |
| Battery.AnalysisSavingsIncrease | solar_dashboard/app.py:441 | Down the analysis, total savings and coverage never fall |
| Battery.FirstAtLeast | solar_dashboard/app.py:451-453 | The first size at least the target, None iff none is |
| Battery.FindBatteryForUsage | solar_dashboard/app.py:448-454 | A catalogue size. Its usable 90% covers the target unless it is the largest size, and no smaller catalogue size covers the target. |
| Battery.FindBatteryMonotone | solar_dashboard/app.py:448-454 | A larger target never gets a smaller size |
| Battery.MarginalBenefit | solar_dashboard/app.py:462-470 | From and to sizes of the pair; the benefit times the size increase is the increase in average saving, 0 when the size does not grow |
| Battery.MarginalBenefits | solar_dashboard/app.py:460-470 | One entry per pair of neighbouring rows |
| Battery.MarginalBenefitsNonNegative | solar_dashboard/app.py:460-470 | For the catalogue: each from size is below its to size, and the benefit is defined iff there is a night and then non-negative |
| Battery.Recommend | solar_dashboard/app.py:456-458 | The minimum, sweet-spot and maximum sizes for the summer 90th, summer 99th and winter 90th percentiles |
| Battery.RecommendationsOrdered | solar_dashboard/app.py:456-457 | Ordered percentiles give a minimum no larger than the sweet spot |
| Battery.MaxNight | solar_dashboard/app.py:338 | None iff no nights; otherwise some night's use and no night's is larger |
| Battery.SeasonNightAverage | solar_dashboard/app.py:361-374 | The mean night use over the season's nights, or the all-year mean when the season has none |
| Battery.SeasonExportAverage | solar_dashboard/app.py:357-388 | The season has export dates iff some export reading falls in it. Then the result is the season's total export over the number of those dates; otherwise it is the all-year mean export. |
| Battery.SeasonExportDays | solar_dashboard/app.py:357-382 | Distinct dates, oldest first: exactly the in-season dates that have an export reading |
| Battery.SeasonExportIsDailyMean | solar_dashboard/app.py:381-388 | With an export in the season, the average is present and equals the season's total export divided by its number of export dates |
| Battery.SeasonExportTotal | solar_dashboard/app.py:382 | The daily export totals of the season's dates add up to the season's total export |
| Sums.DatesFromDays | solar_dashboard/app.py:382 | Summing day groups over distinct qualifying dates that cover every qualifying reading gives the total over those readings |
| Battery.MetricsOf | solar_dashboard/app.py:333-388 | The means over the nights, the maximum, and the seasonal averages |
| Battery.PotentialStorageBounds | solar_dashboard/app.py:334-346 | The average potential storage is at most the average night use and the average export; the average night use is at most the maximum |
| Battery.BatteryRecommendation | solar_dashboard/app.py:321-503 | The metrics, recommendations, catalogue analysis and marginal benefits of the same nights |
| Battery.ReportSizesIncrease | solar_dashboard/app.py:441 | In the report, sizes follow the catalogue upwards and total savings and coverage never fall |
| Battery.AnalysisIncreasing | solar_dashboard/app.py:441 | Across the catalogue, each larger size saves and covers at least as much |
| Battery.ReportMarginalsNonNegative | solar_dashboard/app.py:460-470 | In the report, each marginal step goes to a larger size, with a non-negative benefit present exactly when the average night use is |
| Battery.MarginalsNonNegative | solar_dashboard/app.py:460-470 | Every marginal benefit is non-negative, present exactly when there are nights, and goes to a larger size |
| Battery.ReportStorageBounded | solar_dashboard/app.py:334-346 | In the report, average potential storage is at most average night use and average export, and average night use is at most the maximum night |
| Battery.ReportRecommendationOrdered | solar_dashboard/app.py:453-457 | In the report, ordered summer percentiles give a minimum no larger than the sweet spot |
| Timezones.TimezoneFor | solar_dashboard/app.py:79 | The state's zone, or Melbourne for an unknown state |
| Timezones.EveryStateHasAZone | solar_dashboard/app.py:69-78 | The zone table has exactly the eight state and territory codes |
| Timezones.CanberraUsesSydneyTime | solar_dashboard/app.py:70-77 | ACT and NSW share the Sydney zone |
| Uploads.LastDot | solar_dashboard/app.py:42 | None iff there is no '.'; otherwise the position of the last one |
| Uploads.AllowedFile | solar_dashboard/app.py:40-42 | True only with a '.', and then iff the text after the last '.', lower-cased, is an allowed extension |
| Uploads.AllowedFileIsCsvSuffix | solar_dashboard/app.py:40-42 | Accepted iff the name ends in '.' followed by "csv" in any case |
| Uploads.UpperCaseAccepted | solar_dashboard/app.py:42 | "usage.CSV" is accepted |
| Uploads.OtherExtensionRejected | solar_dashboard/app.py:42 | "usage.csv.txt" is rejected |
| Uploads.BareNameRejected | solar_dashboard/app.py:42 | "csv" without a dot is rejected |
| Postcodes.DisplayName | solar_dashboard/postcodes.py:27-29 | Locality, ", ", state, " ", postcode, in that order and nothing else |
| Postcodes.Coordinates | solar_dashboard/postcodes.py:77-82 | Both 0 when either cell does not parse, otherwise the two values |
| Postcodes.LocationOf | solar_dashboard/postcodes.py:72-94 | A location iff the stripped postcode is non-empty and the coordinates are not both 0; its fields are the stripped texts and the coordinates |
| Postcodes.SkippedRows | solar_dashboard/postcodes.py:77-86 | One zero coordinate is kept; an unparseable or blank pair is skipped |
| Postcodes.KeptMembers | solar_dashboard/postcodes.py:72-94 | The kept locations are exactly those of rows that pass the filter |
| Postcodes.FirstAppearance | solar_dashboard/postcodes.py:96-97 | The postcodes of the locations, each once |
| Postcodes.AddLocationGroups | solar_dashboard/postcodes.py:96-98 | Adding a location extends the grouping of the locations before it |
| Postcodes.AddLocationValid | solar_dashboard/postcodes.py:96-98 | Adding a location keeps the table well formed |
| Postcodes.GroupByPostcodeGroups | solar_dashboard/postcodes.py:96-98 | Adding locations one by one groups them by postcode |
| Postcodes.Load | solar_dashboard/postcodes.py:59-100 | A well-formed table whose keys are the kept postcodes in order of first appearance, all stripped and non-empty. Under each key are exactly the kept locations with that postcode, in file order. |
| Postcodes.NormalisePostcode | solar_dashboard/postcodes.py:113 | At least four characters; a stripped code of four or more is unchanged |
| Postcodes.NormaliseIdempotent | solar_dashboard/postcodes.py:113 | Normalising twice is normalising once |
| Postcodes.Lookup | solar_dashboard/postcodes.py:102-114 | The list under the normalised postcode, or empty |
| Postcodes.LookupMatchesPostcode | solar_dashboard/postcodes.py:102-114 | Every location found carries the normalised query as its postcode |
| Postcodes.LookupFindsLongKeys | solar_dashboard/postcodes.py:113-114 | A stored key of four or more characters is found by looking it up |
| Postcodes.ShortKeysUnreachable | solar_dashboard/postcodes.py:73 | A stored key shorter than four characters is never returned by a lookup |
| Postcodes.LookupPadsShortCodes | solar_dashboard/postcodes.py:113-114 | A query of fewer than four digits looks up the code padded with leading zeros, e.g. "800" finds "0800" |
| Postcodes.PaddedDigits | solar_dashboard/postcodes.py:113 | Fewer than four digits normalise to themselves with leading zeros |
| Postcodes.PrimaryLocation | solar_dashboard/postcodes.py:116-127 | None iff the lookup is empty; otherwise its first location |
| Postcodes.PrimaryLocationFound | solar_dashboard/postcodes.py:116-127 | A primary location exists iff the normalised postcode is stored, and carries that postcode |
| Postcodes.Scan | solar_dashboard/postcodes.py:151-152 | Exactly the locations of the table, the first postcode's block first |
| Postcodes.ExactBlock | solar_dashboard/postcodes.py:144-148 | For an all-digit query, the list under its zero-filled postcode; otherwise empty |
| Postcodes.Take | solar_dashboard/postcodes.py:159 | A prefix, of Python's slice length for a non-negative or negative limit |
| Postcodes.CollectMatches | solar_dashboard/postcodes.py:150-157 | The exact block is extended only by matching locations not in it, each once, in order of first occurrence in the table, so a repeated row neither duplicates nor moves a location. The later results equal the reference `NewMatches` of a scanned prefix of the table, and so begin the reference over the whole table. It stops early only right after appending a match that brings the results to the limit, so at least one match follows the exact block. Otherwise it is below the limit, equals the reference over the whole table, and holds every matching location. |
| Postcodes.Search | solar_dashboard/postcodes.py:129-159 | The result is exactly `Capped` of the exact block and the reference `NewMatches` over the whole table. When the exact block alone reaches `limit` and some other location matches, that is the block plus the first such match; otherwise the block followed by the new matches, cut to `limit` with Python's slice meaning. So a block longer than `limit` with no further match is cut, never returned whole. Derived facts: the block comes first unless cut; every later result's lower-cased locality contains the query, none is repeated or in the block, and they come in order of first occurrence in the table; with fewer than `limit` results every matching location is present. |
| Postcodes.TakeKeeps | solar_dashboard/postcodes.py:159 | Truncating to the limit keeps the order, match, completeness and reference facts of the collected results |
| Postcodes.CappedResult | solar_dashboard/postcodes.py:154-159 | The loop's results, returned at once when it stopped at the limit and cut to `limit` when it ran to the end, are `Capped` of the exact block and the new matches |
| Postcodes.NewMatchesPrefix | solar_dashboard/postcodes.py:150-154 | Scanning further only appends: the matches of a prefix of the table begin the matches of the whole table |
| Postcodes.NewMatchesMembers | solar_dashboard/postcodes.py:150-153 | A location is among the reference matches of a scan exactly when it occurs in the scanned locations, its locality contains the query, and it is not in the exact block |
| Postcodes.NewMatchesOrdered | solar_dashboard/postcodes.py:150-154 | The reference matches never repeat a location and keep the order of the scanned locations |
| Postcodes.NewMatchesFirstOrder | solar_dashboard/postcodes.py:150-154 | The reference matches come in order of each location's first occurrence, even when the table holds the same location twice |
| Postcodes.RepeatedRowKeepsFirstPlace | solar_dashboard/postcodes.py:150-157 | A scan over `[a, b, a]`, with `a` repeated as two identical rows would give, yields `[a, b]`: the repeat neither duplicates `a` nor moves it after `b` |
| Postcodes.ScannedFacts | solar_dashboard/postcodes.py:150-155 | A scan up to some position gives distinct matches outside the exact block, in first-occurrence order, with every match before that position present |
| Postcodes.FirstIndexPrefix | solar_dashboard/postcodes.py:150-154 | A location met within a prefix of the table has the same first position in the whole table |
| Postcodes.AllPostcodes | solar_dashboard/postcodes.py:161-164 | Exactly the keys, in strictly increasing string order |
| Postcodes.AllPostcodesUnique | solar_dashboard/postcodes.py:164 | Any strictly increasing listing of the keys is the sorted listing |
| Postcodes.StringLessIsStrictTotal | solar_dashboard/postcodes.py:164 | Python's string order is a strict total order |
| Postcodes.States | solar_dashboard/postcodes.py:166-168 | Eight codes in strictly increasing order |
| Text.Strip | solar_dashboard/postcodes.py:73 | Neither end of the result is white space |
| Text.StripTrims | solar_dashboard/postcodes.py:73 | The result is a middle slice of the input with only white space removed on either side |
| Text.StripIdempotent | solar_dashboard/postcodes.py:113 | Stripping twice is stripping once |
| Text.ZFill | solar_dashboard/postcodes.py:113 | At least the width long. A string already that long is unchanged. A shorter unsigned one gets leading zeros; a shorter signed one keeps its sign first and gets the zeros after it. |
| Text.ZFillKeepsSign | solar_dashboard/postcodes.py:113 | "-1" padded to four is "-001" |
| Text.ZFillIdempotent | solar_dashboard/postcodes.py:113 | Zero-filling twice is zero-filling once |
| Text.Lower | solar_dashboard/postcodes.py:141 | Same length, each character lower-cased |
| Text.Contains | solar_dashboard/postcodes.py:153 | True iff the needle occurs at some position |
| Text.ParseInt | solar_dashboard/app.py:633 | A stripped run of digits parses to its value; nothing parses from blank text |
| Seqs.FilterMapMembers | solar_dashboard/postcodes.py:72-98 | An element is in the result iff some input maps to it |

## Left out

- Reading the meter CSV, parsing its timestamp strings and the result cache are left out. Rows arrive as typed records.
- Flask routes, the session, upload saving, `secure_filename`, `jsonify`, `get_location` and the command-line entry point are left out; they are I/O and request plumbing.
- Theoretical daylight hours and sunrise/sunset (the astral library) are left out. `Rollups.ActualHours` covers only the observed generating hours.
- Every `round(...)` and IEEE float summation is left out. Sums are exact over `real`, where the source's are only approximately equal.
- pandas `median` and `quantile` are left out: the seasonal percentiles enter `Battery.Recommend` as a `Percentiles` parameter, and the median figures of the metrics are not modelled.
- The postcode CSV file, `float()` parsing of coordinate text, the lazy singleton and the `FileNotFoundError` for a missing file are left out. A cell is blank, a number, or malformed. A missing text column reads as "", and a cell that is present but `None` (a short CSV row) is not modelled.
- `Text` is ASCII only: Python's Unicode white space, case mapping and digits are not modelled.
- `date.fromisoformat` of user-supplied range dates is left out: `Meter.FilterByDateRange` takes dates.
- The default location table of state capitals (`MAJOR_CITIES`) is left out; it is configuration data.
- `Summary.SummaryStats` requires at least one consumption reading. The source divides by a day count of 0 there and produces NaN, or raises, depending on the column type.
- `Rollups.MonthAverage` carries no contract of its own; its meaning is stated by `Rollups.MonthAverageCountsIntervals`.
- Text.ParseInt: the contract states only the plain-digit case and that blank text does not parse. The body also accepts a sign and single underscores between digits, as Python's `int()` does.
- FreeWindow.ParseClock: hours and minutes are not range-checked, because the source does not check them either.

## Findings

| source | as written | input that shows it | evidently intended | confidence | as-written member | corrected member |
|---|---|---|---|---|---|---|
| solar_dashboard/app.py:210, 214 | `date(year - 1, month, day)` and `date(year + 1, month, day)` raise `ValueError` when the date being shifted is 29 February, so the dashboard fails for a year or more of data ending, or with solar starting, on a leap day | solar start 2023-01-01, data end 2024-02-29 | the same year shift with 29 February falling back to 28 February, giving the suggestion 2023-02-28 to 2024-02-29 | not executed | DateRange.SuggestAsWritten (with DateRange.LeapDayEndRaises and DateRange.AsWrittenFailsOnLeapDays) | DateRange.SuggestDateRange (with DateRange.SuggestionIsAFullYear) |

=== FILE: battery.dfy ===
/**
 * The battery simulator: for each night with grid use, how much of that
 * night's consumption a battery charged from the day's exported solar could
 * have covered, over a catalogue of battery sizes, and the size recommended
 * for a target night usage.
 */
module Battery {
  import opened Wrappers
  import opened Dates
  import opened Meter
  import opened Sums
  import opened Ordering
  import opened Summary
  import opened Rollups

  /** Round-trip efficiency: the share of a battery's capacity that is usable. */
  const Efficiency: real := 0.9

  /** Battery sizes on the market, in kWh, smallest first. */
  const Catalog: seq<real> := [5.0, 8.0, 10.0, 13.5, 16.0, 20.0, 24.0, 27.0, 30.0, 32.0, 35.0, 40.0, 45.0, 48.0, 56.0, 64.0, 72.0, 80.0]

  /** Meteorological summer and winter in Australia. */
  predicate IsSummerMonth(month: int) {
    month == 12 || month == 1 || month == 2
  }

  predicate IsWinterMonth(month: int) {
    month == 6 || month == 7 || month == 8
  }

  /** One night with grid use: its consumption and the energy exported on that date. */
  datatype NightDay = NightDay(day: Date, night: real, exported: real)

  /**
   * The nights the simulator walks through: every date with a night-time
   * consumption reading, oldest first, with that date's night consumption and
   * its exports (0 on a date without exports).
   */
  function NightDays(consumption: seq<Annotated>, exports: seq<Annotated>): (r: seq<NightDay>)
    ensures Increasing(DaysOf(r), DateLess())
    ensures forall d :: d in DaysOf(r) <==> exists i :: 0 <= i < |consumption| && Selected(consumption[i], Night) && DayOf(consumption[i]) == d
    ensures forall i :: 0 <= i < |r| ==>
      && r[i].night == TotalFor(consumption, Night, Energy, DayOf, r[i].day)
      && r[i].exported == TotalFor(exports, AllReadings, Energy, DayOf, r[i].day)
  {
    var days := SortedKeys(consumption, Night, DayOf);
    var r := seq(|days|, i requires 0 <= i < |days| =>
      NightDay(days[i], TotalFor(consumption, Night, Energy, DayOf, days[i]), TotalFor(exports, AllReadings, Energy, DayOf, days[i])));
    assert DaysOf(r) == days;
    r
  }

  function DaysOf(nights: seq<NightDay>): (r: seq<Date>)
    ensures |r| == |nights| && forall i :: 0 <= i < |r| ==> r[i] == nights[i].day
  {
    seq(|nights|, i requires 0 <= i < |nights| => nights[i].day)
  }

  /** Nights with no negative readings: what a meter export produces. */
  ghost predicate Physical(nights: seq<NightDay>) {
    forall i :: 0 <= i < |nights| ==> nights[i].night >= 0.0 && nights[i].exported >= 0.0
  }

  /** The smaller of two quantities, as Python's `min`. */
  function Min(a: real, b: real): (r: real)
    ensures r <= a && r <= b && (r == a || r == b)
  {
    if b < a then b else a
  }

  /**
   * The night consumption a battery with `usable` kWh of capacity offsets:
   * what it can store of the day's export, up to the night's consumption.
   */
  function Offset(d: NightDay, usable: real): (r: real)
    ensures r <= d.night && r <= d.exported && r <= usable
    ensures r == d.night || r == d.exported || r == usable
  {
    Min(Min(d.exported, usable), d.night)
  }

  /** A larger battery never offsets less. */
  lemma OffsetMonotone(d: NightDay, small: real, large: real)
    requires small <= large
    ensures Offset(d, small) <= Offset(d, large)
  {
  }

  /** A battery that can hold the whole export offsets the smaller of export and night use. */
  lemma OffsetSaturates(d: NightDay, usable: real)
    requires usable >= d.exported
    ensures Offset(d, usable) == Min(d.exported, d.night)
  {
  }

  /** Which nights a seasonal sum ranges over. */
  datatype Season = AllYear | Summer | Winter

  predicate InSeason(d: NightDay, season: Season) {
    match season
    case AllYear => true
    case Summer => IsSummerMonth(d.day.month)
    case Winter => IsWinterMonth(d.day.month)
  }

  /** What a seasonal sum adds up. */
  datatype Column = NightUse | Exported | Storable | Saved(usable: real)

  function ValueOf(d: NightDay, column: Column): real {
    match column
    case NightUse => d.night
    case Exported => d.exported
    case Storable => Min(d.exported, d.night)
    case Saved(usable) => Offset(d, usable)
  }

  function SumOf(nights: seq<NightDay>, column: Column, season: Season): real {
    if |nights| == 0 then 0.0
    else (if InSeason(nights[0], season) then ValueOf(nights[0], column) else 0.0) + SumOf(nights[1..], column, season)
  }

  function CountOf(nights: seq<NightDay>, season: Season): (r: nat)
    ensures r <= |nights|
  {
    if |nights| == 0 then 0
    else (if InSeason(nights[0], season) then 1 else 0) + CountOf(nights[1..], season)
  }

  /** Summing a column that is pointwise no larger gives no more. */
  lemma {:induction false} SumOfMonotone(nights: seq<NightDay>, a: Column, b: Column, season: Season)
    requires forall i :: 0 <= i < |nights| ==> ValueOf(nights[i], a) <= ValueOf(nights[i], b)
    ensures SumOf(nights, a, season) <= SumOf(nights, b, season)
  {
    if |nights| > 0 {
      SumOfMonotone(nights[1..], a, b, season);
    }
  }

  /** The sum over no night of a season is 0. */
  lemma {:induction false} SumOfEmptySeason(nights: seq<NightDay>, column: Column, season: Season)
    requires CountOf(nights, season) == 0
    ensures SumOf(nights, column, season) == 0.0
  {
    if |nights| > 0 {
      SumOfEmptySeason(nights[1..], column, season);
    }
  }

  lemma {:induction false} SumOfNonNegative(nights: seq<NightDay>, column: Column, season: Season)
    requires forall i :: 0 <= i < |nights| ==> ValueOf(nights[i], column) >= 0.0
    ensures SumOf(nights, column, season) >= 0.0
  {
    if |nights| > 0 {
      SumOfNonNegative(nights[1..], column, season);
    }
  }

  /** The arithmetic mean; `None` for no values, where numpy gives NaN. */
  function MeanOf(total: real, count: nat): (r: Option<real>)
    ensures r.None? <==> count == 0
    ensures r.Some? ==> r.value * count as real == total
  {
    if count == 0 then None else Some(total / count as real)
  }

  /** The outcome of simulating one battery size over every night. */
  datatype Savings = Savings(totalSaved: real, averageSaved: Option<real>, coverage: real, summerCoverage: real, winterCoverage: real)

  /** The denominator of a seasonal coverage: the season's night use, or 1 with no night in the season. */
  function SeasonNightUse(nights: seq<NightDay>, season: Season): real {
    if CountOf(nights, season) > 0 then SumOf(nights, NightUse, season) else 1.0
  }

  /** `calculate_savings`: what a battery of `size` kWh would have offset. */
  function CalculateSavings(nights: seq<NightDay>, size: real): (r: Savings)
    ensures r.totalSaved == SumOf(nights, Saved(size * Efficiency), AllYear)
    ensures r.averageSaved == MeanOf(r.totalSaved, |nights|)
    ensures r.coverage == Percent(r.totalSaved, SumOf(nights, NightUse, AllYear))
    ensures r.summerCoverage == Percent(SumOf(nights, Saved(size * Efficiency), Summer), SeasonNightUse(nights, Summer))
    ensures r.winterCoverage == Percent(SumOf(nights, Saved(size * Efficiency), Winter), SeasonNightUse(nights, Winter))
  {
    var usable := size * Efficiency;
    var total := SumOf(nights, Saved(usable), AllYear);
    Savings(
      total,
      MeanOf(total, |nights|),
      Percent(total, SumOf(nights, NightUse, AllYear)),
      Percent(SumOf(nights, Saved(usable), Summer), SeasonNightUse(nights, Summer)),
      Percent(SumOf(nights, Saved(usable), Winter), SeasonNightUse(nights, Winter)))
  }

  lemma {:induction false} AllYearCountsEveryNight(nights: seq<NightDay>)
    ensures CountOf(nights, AllYear) == |nights|
  {
    if |nights| > 0 {
      AllYearCountsEveryNight(nights[1..]);
    }
  }

  /**
   * The coverages are percentages: a battery offsets at most the night use it
   * is measured against, all year and in each season.
   */
  lemma CoverageIsAPercentage(nights: seq<NightDay>, size: real)
    requires Physical(nights) && size >= 0.0
    ensures var r := CalculateSavings(nights, size);
      && 0.0 <= r.coverage <= 100.0 && 0.0 <= r.summerCoverage <= 100.0 && 0.0 <= r.winterCoverage <= 100.0
  {
    SavedWithinNightUse(nights, size * Efficiency, AllYear);
    SavedWithinNightUse(nights, size * Efficiency, Summer);
    SavedWithinNightUse(nights, size * Efficiency, Winter);
    var total := SumOf(nights, Saved(size * Efficiency), AllYear);
    PercentBounds(total, SumOf(nights, NightUse, AllYear));
    SeasonCoverageBounds(nights, size * Efficiency, Summer);
    SeasonCoverageBounds(nights, size * Efficiency, Winter);
  }

  lemma SavedWithinNightUse(nights: seq<NightDay>, usable: real, season: Season)
    requires Physical(nights) && usable >= 0.0
    ensures 0.0 <= SumOf(nights, Saved(usable), season) <= SumOf(nights, NightUse, season)
  {
    SumOfMonotone(nights, Saved(usable), NightUse, season);
    SumOfNonNegative(nights, Saved(usable), season);
  }

  lemma SeasonCoverageBounds(nights: seq<NightDay>, usable: real, season: Season)
    requires Physical(nights) && usable >= 0.0
    ensures 0.0 <= Percent(SumOf(nights, Saved(usable), season), SeasonNightUse(nights, season)) <= 100.0
  {
    SavedWithinNightUse(nights, usable, season);
    if CountOf(nights, season) == 0 {
      SumOfEmptySeason(nights, Saved(usable), season);
    }
    PercentBounds(SumOf(nights, Saved(usable), season), SeasonNightUse(nights, season));
  }

  /** A larger battery saves at least as much and covers at least as much of the night use. */
  lemma LargerBatterySavesMore(nights: seq<NightDay>, small: real, large: real)
    requires small <= large
    ensures CalculateSavings(nights, small).totalSaved <= CalculateSavings(nights, large).totalSaved
    ensures CalculateSavings(nights, small).coverage <= CalculateSavings(nights, large).coverage
  {
    var a := Saved(small * Efficiency);
    var b := Saved(large * Efficiency);
    forall i | 0 <= i < |nights|
      ensures ValueOf(nights[i], a) <= ValueOf(nights[i], b)
    {
      OffsetMonotone(nights[i], small * Efficiency, large * Efficiency);
    }
    SumOfMonotone(nights, a, b, AllYear);
    var night := SumOf(nights, NightUse, AllYear);
    if night > 0.0 {
      PercentMonotone(SumOf(nights, a, AllYear), SumOf(nights, b, AllYear), night);
    }
  }

  lemma PercentMonotone(x: real, y: real, whole: real)
    requires x <= y && whole > 0.0
    ensures Percent(x, whole) <= Percent(y, whole)
  {
    assert (Percent(y, whole) - Percent(x, whole)) * whole == 100.0 * (y - x);
  }

  /**
   * A battery never saves more than the day's export could have covered of
   * the night, and one that holds every day's export saves exactly that.
   */
  lemma SavingsBelowPotentialStorage(nights: seq<NightDay>, size: real)
    ensures CalculateSavings(nights, size).totalSaved <= SumOf(nights, Storable, AllYear)
    ensures (forall i :: 0 <= i < |nights| ==> nights[i].exported <= size * Efficiency) ==>
      CalculateSavings(nights, size).totalSaved == SumOf(nights, Storable, AllYear)
  {
    SumOfMonotone(nights, Saved(size * Efficiency), Storable, AllYear);
    if forall i :: 0 <= i < |nights| ==> nights[i].exported <= size * Efficiency {
      SumOfMonotone(nights, Storable, Saved(size * Efficiency), AllYear);
    }
  }

  /** One row of the size comparison. */
  datatype SizeResult = SizeResult(size: real, savings: Savings)

  /** `battery_analysis`: every catalogue size simulated. */
  function Analysis(nights: seq<NightDay>): (r: seq<SizeResult>)
    ensures |r| == |Catalog|
    ensures forall i :: 0 <= i < |r| ==> r[i].size == Catalog[i] && r[i].savings == CalculateSavings(nights, Catalog[i])
  {
    seq(|Catalog|, i requires 0 <= i < |Catalog| => SizeResult(Catalog[i], CalculateSavings(nights, Catalog[i])))
  }

  /** The catalogue is sorted, smallest size first, without repeats. */
  lemma CatalogIncreasing()
    ensures forall i :: 0 < i < |Catalog| ==> Catalog[i - 1] < Catalog[i]
    ensures forall i, j :: 0 <= i < j < |Catalog| ==> Catalog[i] < Catalog[j]
  {
    assert forall i :: 0 < i < |Catalog| ==> Catalog[i - 1] < Catalog[i];
    forall i, j | 0 <= i < j < |Catalog|
      ensures Catalog[i] < Catalog[j]
    {
      AdjacentToAll(Catalog, i, j);
    }
  }

  lemma {:induction false} AdjacentToAll(xs: seq<real>, i: nat, j: nat)
    requires forall k :: 0 < k < |xs| ==> xs[k - 1] < xs[k]
    requires i < j < |xs|
    ensures xs[i] < xs[j]
    decreases j - i
  {
    if i + 1 < j {
      AdjacentToAll(xs, i + 1, j);
    }
  }

  /** Down the catalogue, total savings never fall. */
  lemma AnalysisSavingsIncrease(nights: seq<NightDay>, i: nat)
    requires 0 < i < |Catalog|
    ensures Analysis(nights)[i - 1].savings.totalSaved <= Analysis(nights)[i].savings.totalSaved
    ensures Analysis(nights)[i - 1].savings.coverage <= Analysis(nights)[i].savings.coverage
  {
    CatalogIncreasing();
    LargerBatterySavesMore(nights, Catalog[i - 1], Catalog[i]);
  }

  /** The first size in `sizes` of at least `needed` kWh. */
  function FirstAtLeast(sizes: seq<real>, needed: real): (r: Option<real>)
    ensures r.None? <==> forall i :: 0 <= i < |sizes| ==> sizes[i] < needed
    ensures r.Some? ==> r.value in sizes && r.value >= needed
    ensures r.Some? ==> exists k :: 0 <= k < |sizes| && sizes[k] == r.value && forall i :: 0 <= i < k ==> sizes[i] < needed
  {
    if |sizes| == 0 then None
    else if sizes[0] >= needed then Some(sizes[0])
    else
      var rest := FirstAtLeast(sizes[1..], needed);
      if rest.Some? then
        var k :| 0 <= k < |sizes[1..]| && sizes[1..][k] == rest.value && forall i :: 0 <= i < k ==> sizes[1..][i] < needed;
        assert sizes[k + 1] == rest.value;
        rest
      else rest
  }

  /**
   * `find_battery_for_usage`: the smallest catalogue size whose usable
   * capacity covers `target` kWh, or the largest size when none does.
   */
  function FindBatteryForUsage(target: real): (r: real)
    ensures r in Catalog
    ensures r * Efficiency >= target || r == Catalog[|Catalog| - 1]
    ensures forall i :: 0 <= i < |Catalog| && Catalog[i] * Efficiency >= target ==> r <= Catalog[i]
  {
    CatalogIncreasing();
    var needed := target / Efficiency;
    match FirstAtLeast(Catalog, needed)
    case Some(size) =>
      var k :| 0 <= k < |Catalog| && Catalog[k] == size && forall i :: 0 <= i < k ==> Catalog[i] < needed;
      assert forall i :: 0 <= i < |Catalog| && Catalog[i] >= needed ==> k <= i;
      size
    case None => Catalog[|Catalog| - 1]
  }

  /** A larger target never gets a smaller recommendation. */
  lemma FindBatteryMonotone(low: real, high: real)
    requires low <= high
    ensures FindBatteryForUsage(low) <= FindBatteryForUsage(high)
  {
    CatalogIncreasing();
    var r := FindBatteryForUsage(high);
    var k :| 0 <= k < |Catalog| && Catalog[k] == r;
    if r * Efficiency < high {
      assert r == Catalog[|Catalog| - 1];
      assert forall i :: 0 <= i < |Catalog| ==> Catalog[i] <= Catalog[|Catalog| - 1];
    }
  }

  /** The increase in average daily savings per extra kWh between neighbouring sizes. */
  datatype Marginal = Marginal(fromSize: real, toSize: real, benefit: Option<real>)

  /** `savings_increase / size_increase`, or 0 when the size does not increase. */
  function MarginalBenefit(prev: SizeResult, curr: SizeResult): (r: Marginal)
    ensures r.fromSize == prev.size && r.toSize == curr.size
    ensures r.benefit.None? <==> prev.savings.averageSaved.None? || curr.savings.averageSaved.None?
    ensures r.benefit.Some? && curr.size > prev.size ==>
      r.benefit.value * (curr.size - prev.size) == curr.savings.averageSaved.value - prev.savings.averageSaved.value
    ensures r.benefit.Some? && curr.size <= prev.size ==> r.benefit.value == 0.0
  {
    var benefit :=
      if prev.savings.averageSaved.None? || curr.savings.averageSaved.None? then None
      else if curr.size - prev.size > 0.0 then
        Some((curr.savings.averageSaved.value - prev.savings.averageSaved.value) / (curr.size - prev.size))
      else Some(0.0);
    Marginal(prev.size, curr.size, benefit)
  }

  /** `marginal_benefits`: one entry per pair of neighbouring rows. */
  function MarginalBenefits(analysis: seq<SizeResult>): (r: seq<Marginal>)
    ensures |r| == if |analysis| == 0 then 0 else |analysis| - 1
    ensures forall i :: 0 <= i < |r| ==> r[i] == MarginalBenefit(analysis[i], analysis[i + 1])
  {
    if |analysis| <= 1 then []
    else seq(|analysis| - 1, i requires 0 <= i < |analysis| - 1 => MarginalBenefit(analysis[i], analysis[i + 1]))
  }

  /** Between neighbouring catalogue sizes the size grows and the average saving never falls. */
  lemma MarginalBenefitsNonNegative(nights: seq<NightDay>, i: nat)
    requires i < |Catalog| - 1
    ensures var m := MarginalBenefits(Analysis(nights))[i];
      && m.fromSize < m.toSize
      && (m.benefit.None? <==> |nights| == 0)
      && (m.benefit.Some? ==> m.benefit.value >= 0.0)
  {
    var a := Analysis(nights);
    CatalogIncreasing();
    AnalysisSavingsIncrease(nights, i + 1);
    NeighbourBenefit(a[i], a[i + 1], |nights|);
  }

  lemma NeighbourBenefit(prev: SizeResult, curr: SizeResult, count: nat)
    requires prev.size < curr.size && prev.savings.totalSaved <= curr.savings.totalSaved
    requires prev.savings.averageSaved == MeanOf(prev.savings.totalSaved, count)
    requires curr.savings.averageSaved == MeanOf(curr.savings.totalSaved, count)
    ensures MarginalBenefit(prev, curr).benefit.None? <==> count == 0
    ensures MarginalBenefit(prev, curr).benefit.Some? ==> MarginalBenefit(prev, curr).benefit.value >= 0.0
  {
    if count > 0 {
      MeansCompare(prev.savings.totalSaved, curr.savings.totalSaved, count);
      QuotientNonNegative(curr.savings.averageSaved.value - prev.savings.averageSaved.value, curr.size - prev.size);
    }
  }

  lemma MeansCompare(x: real, y: real, count: nat)
    requires x <= y && count > 0
    ensures MeanOf(x, count).value <= MeanOf(y, count).value
  {
    var c := count as real;
    assert MeanOf(y, count).value - MeanOf(x, count).value == (y - x) / c;
  }

  lemma MeanAtMost(x: real, count: nat, top: real)
    requires count > 0 && x <= count as real * top
    ensures MeanOf(x, count).value <= top
  {
    var c := count as real;
    var m := MeanOf(x, count).value;
    assert (top - m) * c >= 0.0;
  }

  lemma QuotientNonNegative(a: real, b: real)
    requires a >= 0.0 && b > 0.0
    ensures a / b >= 0.0
  {
  }

  /** The three recommended sizes: covering the summer 90th and 99th and the winter 90th percentile nights. */
  datatype Recommendations = Recommendations(minimum: real, sweetSpot: real, maximum: real)

  /** Percentiles of seasonal night use, computed by the caller. */
  datatype Percentiles = Percentiles(summerP90: real, summerP99: real, winterP90: real)

  function Recommend(p: Percentiles): (r: Recommendations)
    ensures r.minimum == FindBatteryForUsage(p.summerP90)
    ensures r.sweetSpot == FindBatteryForUsage(p.summerP99)
    ensures r.maximum == FindBatteryForUsage(p.winterP90)
  {
    Recommendations(FindBatteryForUsage(p.summerP90), FindBatteryForUsage(p.summerP99), FindBatteryForUsage(p.winterP90))
  }

  /** Ordered percentiles give ordered recommendations. */
  lemma RecommendationsOrdered(p: Percentiles)
    requires p.summerP90 <= p.summerP99
    ensures Recommend(p).minimum <= Recommend(p).sweetSpot
  {
    FindBatteryMonotone(p.summerP90, p.summerP99);
  }

  /** Usage figures shown beside the recommendation. */
  datatype Metrics = Metrics(
    averageNight: Option<real>,
    maxNight: Option<real>,
    averageExport: Option<real>,
    averagePotentialStorage: Option<real>,
    winterNightAverage: Option<real>,
    summerNightAverage: Option<real>,
    winterExportAverage: Option<real>,
    summerExportAverage: Option<real>)

  /** The largest night use; `None` for no nights, where pandas gives NaN. */
  function MaxNight(nights: seq<NightDay>): (r: Option<real>)
    ensures r.None? <==> |nights| == 0
    ensures r.Some? ==> forall i :: 0 <= i < |nights| ==> nights[i].night <= r.value
    ensures r.Some? ==> exists i :: 0 <= i < |nights| && nights[i].night == r.value
  {
    if |nights| == 0 then None
    else
      var rest := MaxNight(nights[1..]);
      if rest.None? || rest.value < nights[0].night then Some(nights[0].night)
      else
        var k :| 0 <= k < |nights[1..]| && nights[1..][k].night == rest.value;
        assert nights[k + 1].night == rest.value;
        rest
  }

  /** A seasonal mean of night use, falling back to the all-year mean when the season has no night. */
  function SeasonNightAverage(nights: seq<NightDay>, season: Season): (r: Option<real>)
    ensures CountOf(nights, season) == 0 ==> r == MeanOf(SumOf(nights, NightUse, AllYear), |nights|)
    ensures CountOf(nights, season) > 0 ==> r.Some? && r.value * CountOf(nights, season) as real == SumOf(nights, NightUse, season)
  {
    if CountOf(nights, season) > 0 then MeanOf(SumOf(nights, NightUse, season), CountOf(nights, season))
    else MeanOf(SumOf(nights, NightUse, AllYear), |nights|)
  }

  /** Whether an export date falls in a season. */
  function InSeasonMonth(season: Season): Date -> bool {
    (d: Date) => match season
      case AllYear => true
      case Summer => IsSummerMonth(d.month)
      case Winter => IsWinterMonth(d.month)
  }

  /** The distinct dates, oldest first, with an export reading in the season. */
  function SeasonExportDays(exports: seq<Annotated>, season: Season): (r: seq<Date>)
    ensures Seqs.NoRepeats(r) && Increasing(r, DateLess())
    ensures forall d :: d in r <==> InSeasonMonth(season)(d) && exists i :: 0 <= i < |exports| && DayOf(exports[i]) == d
  {
    var days := SortedKeys(exports, AllReadings, DayOf);
    IncreasingDatesDistinct(days);
    Seqs.FilterDistinct(days, InSeasonMonth(season));
    Seqs.FilterIncreasing(days, InSeasonMonth(season), DateLess());
    Seqs.Filter(days, InSeasonMonth(season))
  }

  /**
   * A seasonal mean of daily export over every date with an export in the
   * season, falling back to the mean export over the nights when there is none.
   */
  function SeasonExportAverage(exports: seq<Annotated>, nights: seq<NightDay>, season: Season): (r: Option<real>)
    ensures |SeasonExportDays(exports, season)| > 0 <==> exists i :: 0 <= i < |exports| && InSeasonMonth(season)(DayOf(exports[i]))
    ensures |SeasonExportDays(exports, season)| > 0 ==>
      r.Some? && r == MeanOf(TotalWhere(exports, AllReadings, Energy, InSeasonMonth(season)), |SeasonExportDays(exports, season)|)
    ensures |SeasonExportDays(exports, season)| == 0 ==> r == MeanOf(SumOf(nights, Exported, AllYear), |nights|)
  {
    var days := SeasonExportDays(exports, season);
    SeasonExportDaysExist(exports, season);
    if |days| > 0 then
      SeasonExportTotal(exports, season);
      MeanOf(SumReals(Groups(exports, AllReadings, Energy, DayOf, days)), |days|)
    else MeanOf(SumOf(nights, Exported, AllYear), |nights|)
  }

  /** With an export in the season, the average times the number of export dates is the season's export. */
  lemma SeasonExportIsDailyMean(exports: seq<Annotated>, nights: seq<NightDay>, season: Season)
    requires exists i :: 0 <= i < |exports| && InSeasonMonth(season)(DayOf(exports[i]))
    ensures var r := SeasonExportAverage(exports, nights, season);
      var n := |SeasonExportDays(exports, season)|;
      n > 0 && r.Some? && r.value == Mean(TotalWhere(exports, AllReadings, Energy, InSeasonMonth(season)), n)
  {
    SeasonExportDaysExist(exports, season);
    MeanOfIsMean(SeasonExportAverage(exports, nights, season),
      TotalWhere(exports, AllReadings, Energy, InSeasonMonth(season)), |SeasonExportDays(exports, season)|);
  }

  /** A mean over a positive count is present and is the arithmetic mean. */
  lemma MeanOfIsMean(m: Option<real>, total: real, n: nat)
    requires n > 0 && m == MeanOf(total, n)
    ensures m.Some? && m.value == Mean(total, n)
  {
  }

  /** The daily export totals of the season's dates add up to the season's export. */
  lemma SeasonExportTotal(exports: seq<Annotated>, season: Season)
    ensures SumReals(Groups(exports, AllReadings, Energy, DayOf, SeasonExportDays(exports, season)))
      == TotalWhere(exports, AllReadings, Energy, InSeasonMonth(season))
  {
    var days := SeasonExportDays(exports, season);
    SumOfGroups(exports, AllReadings, Energy, DayOf, days);
    DatesFromDays(exports, AllReadings, Energy, InSeasonMonth(season), days);
  }

  /** The season has an export date exactly when some export reading falls in it. */
  lemma SeasonExportDaysExist(exports: seq<Annotated>, season: Season)
    ensures |SeasonExportDays(exports, season)| > 0 <==> exists i :: 0 <= i < |exports| && InSeasonMonth(season)(DayOf(exports[i]))
  {
    var days := SeasonExportDays(exports, season);
    if |days| > 0 {
      assert days[0] in days;
    }
    if i :| 0 <= i < |exports| && InSeasonMonth(season)(DayOf(exports[i])) {
      assert DayOf(exports[i]) in days;
    }
  }

  function MetricsOf(exports: seq<Annotated>, nights: seq<NightDay>): (r: Metrics)
    ensures r.averageNight == MeanOf(SumOf(nights, NightUse, AllYear), |nights|)
    ensures r.maxNight == MaxNight(nights)
    ensures r.averageExport == MeanOf(SumOf(nights, Exported, AllYear), |nights|)
    ensures r.averagePotentialStorage == MeanOf(SumOf(nights, Storable, AllYear), |nights|)
    ensures r.winterNightAverage == SeasonNightAverage(nights, Winter)
    ensures r.summerNightAverage == SeasonNightAverage(nights, Summer)
    ensures r.winterExportAverage == SeasonExportAverage(exports, nights, Winter)
    ensures r.summerExportAverage == SeasonExportAverage(exports, nights, Summer)
  {
    Metrics(
      MeanOf(SumOf(nights, NightUse, AllYear), |nights|),
      MaxNight(nights),
      MeanOf(SumOf(nights, Exported, AllYear), |nights|),
      MeanOf(SumOf(nights, Storable, AllYear), |nights|),
      SeasonNightAverage(nights, Winter),
      SeasonNightAverage(nights, Summer),
      SeasonExportAverage(exports, nights, Winter),
      SeasonExportAverage(exports, nights, Summer))
  }

  /** The average potential storage is at most the average night use and the average export. */
  lemma PotentialStorageBounds(exports: seq<Annotated>, nights: seq<NightDay>)
    requires |nights| > 0
    ensures var m := MetricsOf(exports, nights);
      && m.averagePotentialStorage.value <= m.averageNight.value
      && m.averagePotentialStorage.value <= m.averageExport.value
      && m.averageNight.value <= m.maxNight.value
  {
    SumOfMonotone(nights, Storable, NightUse, AllYear);
    SumOfMonotone(nights, Storable, Exported, AllYear);
    MeansCompare(SumOf(nights, Storable, AllYear), SumOf(nights, NightUse, AllYear), |nights|);
    MeansCompare(SumOf(nights, Storable, AllYear), SumOf(nights, Exported, AllYear), |nights|);
    MeanBelowMax(nights, MaxNight(nights).value);
  }

  lemma MeanBelowMax(nights: seq<NightDay>, top: real)
    requires |nights| > 0
    requires forall i :: 0 <= i < |nights| ==> nights[i].night <= top
    ensures MeanOf(SumOf(nights, NightUse, AllYear), |nights|).value <= top
  {
    SumBelowCountTimesMax(nights, top);
    MeanAtMost(SumOf(nights, NightUse, AllYear), |nights|, top);
  }

  lemma {:induction false} SumBelowCountTimesMax(nights: seq<NightDay>, top: real)
    requires forall i :: 0 <= i < |nights| ==> nights[i].night <= top
    ensures SumOf(nights, NightUse, AllYear) <= |nights| as real * top
  {
    if |nights| > 0 {
      SumBelowCountTimesMax(nights[1..], top);
    }
  }

  /** What the battery panel shows. */
  datatype Report = Report(
    metrics: Metrics,
    recommendations: Recommendations,
    analysis: seq<SizeResult>,
    marginal: seq<Marginal>,
    efficiency: real)

  /** `calculate_battery_recommendation`, with the seasonal percentiles supplied by the caller. */
  function BatteryRecommendation(consumption: seq<Annotated>, exports: seq<Annotated>, p: Percentiles): (r: Report)
    ensures var nights := NightDays(consumption, exports);
      && r.metrics == MetricsOf(exports, nights)
      && r.recommendations == Recommend(p)
      && r.analysis == Analysis(nights)
      && r.marginal == MarginalBenefits(Analysis(nights))
      && r.efficiency == Efficiency
  {
    var nights := NightDays(consumption, exports);
    Report(MetricsOf(exports, nights), Recommend(p), Analysis(nights), MarginalBenefits(Analysis(nights)), Efficiency)
  }
  /** Each larger size in `a` saves at least as much and covers at least as much. */
  predicate SavingsIncrease(a: seq<SizeResult>) {
    forall i :: 0 < i < |a| ==>
      && a[i - 1].size < a[i].size
      && a[i - 1].savings.totalSaved <= a[i].savings.totalSaved
      && a[i - 1].savings.coverage <= a[i].savings.coverage
  }

  /** In the report, each larger catalogue size saves at least as much and covers at least as much. */
  lemma ReportSizesIncrease(consumption: seq<Annotated>, exports: seq<Annotated>, p: Percentiles)
    ensures var r := BatteryRecommendation(consumption, exports, p);
      |r.analysis| == |Catalog| && SavingsIncrease(r.analysis)
  {
    AnalysisIncreasing(NightDays(consumption, exports));
  }

  /** Across the catalogue, each larger size saves at least as much and covers at least as much. */
  lemma AnalysisIncreasing(nights: seq<NightDay>)
    ensures SavingsIncrease(Analysis(nights))
  {
    var a := Analysis(nights);
    CatalogIncreasing();
    forall i | 0 < i < |a|
      ensures a[i - 1].savings.totalSaved <= a[i].savings.totalSaved
      ensures a[i - 1].savings.coverage <= a[i].savings.coverage
    {
      AnalysisSavingsIncrease(nights, i);
    }
  }

  /**
   * Each marginal step goes to a larger size, and its benefit is non-negative
   * and present exactly when `present` holds.
   */
  predicate BenefitsNonNegative(m: seq<Marginal>, present: bool) {
    forall i :: 0 <= i < |m| ==>
      && m[i].fromSize < m[i].toSize
      && (m[i].benefit.Some? <==> present)
      && (m[i].benefit.Some? ==> m[i].benefit.value >= 0.0)
  }

  /** In the report, the marginal benefits are non-negative and present exactly when the average night use is. */
  lemma ReportMarginalsNonNegative(consumption: seq<Annotated>, exports: seq<Annotated>, p: Percentiles)
    ensures var r := BatteryRecommendation(consumption, exports, p);
      |r.marginal| == |Catalog| - 1 && BenefitsNonNegative(r.marginal, r.metrics.averageNight.Some?)
  {
    MarginalsNonNegative(NightDays(consumption, exports));
  }

  /** Between neighbouring catalogue sizes the benefit is non-negative and present exactly when there are nights. */
  lemma MarginalsNonNegative(nights: seq<NightDay>)
    ensures BenefitsNonNegative(MarginalBenefits(Analysis(nights)), |nights| > 0)
  {
    var m := MarginalBenefits(Analysis(nights));
    forall i | 0 <= i < |m|
      ensures m[i].fromSize < m[i].toSize
      ensures m[i].benefit.Some? <==> |nights| > 0
      ensures m[i].benefit.Some? ==> m[i].benefit.value >= 0.0
    {
      MarginalBenefitsNonNegative(nights, i);
    }
  }

  /** In the report, the average storable energy is at most the average night use and export. */
  lemma ReportStorageBounded(consumption: seq<Annotated>, exports: seq<Annotated>, p: Percentiles)
    ensures var r := BatteryRecommendation(consumption, exports, p);
      r.metrics.averageNight.Some? ==>
        && r.metrics.averagePotentialStorage.value <= r.metrics.averageNight.value
        && r.metrics.averagePotentialStorage.value <= r.metrics.averageExport.value
        && r.metrics.averageNight.value <= r.metrics.maxNight.value
  {
    var nights := NightDays(consumption, exports);
    if |nights| > 0 {
      PotentialStorageBounds(exports, nights);
    }
  }

  /** In the report, ordered summer percentiles give a minimum no larger than the sweet spot. */
  lemma ReportRecommendationOrdered(consumption: seq<Annotated>, exports: seq<Annotated>, p: Percentiles)
    requires p.summerP90 <= p.summerP99
    ensures var r := BatteryRecommendation(consumption, exports, p);
      r.recommendations.minimum <= r.recommendations.sweetSpot
  {
    RecommendationsOrdered(p);
  }
}

=== FILE: daterange.dfy ===
/**
 * The analysis window the dashboard proposes when no dates are given: the
 * most recent full year of data, or all of it when there is less than a year.
 */
module DateRange {
  import opened Wrappers
  import opened Dates

  /** The span, in days, from which a year of data counts as available. */
  const YearSpan: int := 365

  /**
   * `date(d.year + k, d.month, d.day)`: `None` where Python raises `ValueError`
   * (29 February in a common year, or a year outside 1..9999).
   */
  function ShiftYearsExact(d: Date, k: int): (r: Option<Date>)
    ensures r.Some? <==> Valid(Date(d.year + k, d.month, d.day))
    ensures r.Some? ==> r.value == Date(d.year + k, d.month, d.day)
  {
    var shifted := Date(d.year + k, d.month, d.day);
    if Valid(shifted) then Some(shifted) else None
  }

  /** The same date `k` years on, 29 February falling back to the 28th in a common year. */
  function ShiftYears(d: Date, k: int): (r: Date)
    requires Valid(d) && MinYear <= d.year + k <= MaxYear
    ensures Valid(r)
    ensures r.year == d.year + k && r.month == d.month
    ensures r.day == d.day || (IsLeapDay(d) && !IsLeap(d.year + k) && r.day == 28)
  {
    var limit := DaysInMonth(d.year + k, d.month);
    Date(d.year + k, d.month, if d.day <= limit then d.day else limit)
  }

  /**
   * `suggest_date_range` as written: `None` stands for the `ValueError` that
   * `date(...)` raises when a shifted 29 February does not exist.
   */
  function SuggestAsWritten(solarStart: Date, dataEnd: Date): (r: Option<(Date, Date)>)
    requires Valid(solarStart) && Valid(dataEnd)
    ensures DaysBetween(solarStart, dataEnd) < YearSpan ==> r == Some((solarStart, dataEnd))
  {
    if DaysBetween(solarStart, dataEnd) >= YearSpan then
      match ShiftYearsExact(dataEnd, -1)
      case None => None
      case Some(back) =>
        if Before(back, solarStart) then
          match ShiftYearsExact(solarStart, 1)
          case None => None
          case Some(forward) =>
            if Before(dataEnd, forward) then Some((solarStart, dataEnd)) else Some((solarStart, forward))
        else Some((back, dataEnd))
    else Some((solarStart, dataEnd))
  }

  /** Two dates in the same month of consecutive years lie a year apart, give or take their days. */
  lemma YearApart(a: Date, b: Date)
    requires Valid(a) && Valid(b) && b.year == a.year + 1 && b.month == a.month
    ensures DaysBetween(a, b) == 365 + (if a.month <= 2 then (if IsLeap(a.year) then 1 else 0) else (if IsLeap(b.year) then 1 else 0)) + b.day - a.day
  {
    YearLength(a.year);
  }

  /**
   * At least a year between two valid dates leaves room for both year shifts:
   * the end is not in year 1 and the start is not in year 9999.
   */
  lemma LongSpanYears(solarStart: Date, dataEnd: Date)
    requires Valid(solarStart) && Valid(dataEnd)
    requires DaysBetween(solarStart, dataEnd) >= YearSpan
    ensures solarStart.year < dataEnd.year || (solarStart.year == dataEnd.year && IsLeap(dataEnd.year))
    ensures MinYear < dataEnd.year && solarStart.year < MaxYear
  {
    if solarStart.year > dataEnd.year {
      OrdinalYearGap(dataEnd, solarStart);
    } else if solarStart.year == dataEnd.year {
      SameYearSpan(solarStart, dataEnd);
    }
  }

  /**
   * The evidently intended `suggest_date_range`: the same choices, with the
   * shifted 29 February clamped to the 28th instead of raising.
   */
  function SuggestDateRange(solarStart: Date, dataEnd: Date): (r: (Date, Date))
    requires Valid(solarStart) && Valid(dataEnd)
    ensures Valid(r.0) && Valid(r.1)
    ensures DaysBetween(solarStart, dataEnd) < YearSpan ==> r == (solarStart, dataEnd)
  {
    if DaysBetween(solarStart, dataEnd) >= YearSpan then
      LongSpanYears(solarStart, dataEnd);
      var back := ShiftYears(dataEnd, -1);
      if Before(back, solarStart) then
        var forward := ShiftYears(solarStart, 1);
        if Before(dataEnd, forward) then (solarStart, dataEnd) else (solarStart, forward)
      else (back, dataEnd)
    else (solarStart, dataEnd)
  }

  /**
   * With a year or more of data the suggestion is a full year, 365 or 366
   * days, that lies within the data and starts no earlier than solar export.
   */
  lemma SuggestionIsAFullYear(solarStart: Date, dataEnd: Date)
    requires Valid(solarStart) && Valid(dataEnd)
    requires DaysBetween(solarStart, dataEnd) >= YearSpan
    ensures var r := SuggestDateRange(solarStart, dataEnd);
      && NotAfter(solarStart, r.0) && NotAfter(r.0, r.1) && NotAfter(r.1, dataEnd)
      && YearSpan <= DaysBetween(r.0, r.1) <= YearSpan + 1
  {
    LongSpanYears(solarStart, dataEnd);
    var back := ShiftYears(dataEnd, -1);
    if Before(back, solarStart) {
      OrdinalOrder(dataEnd, solarStart);
      ForwardYear(solarStart, dataEnd);
    } else {
      YearBefore(dataEnd);
      OrdinalOrder(dataEnd, back);
    }
  }

  /**
   * With a year or more of data the suggestion is the most recent year, unless
   * that year would reach back before solar export; then it starts at solar export.
   */
  lemma SuggestionPrefersRecentYear(solarStart: Date, dataEnd: Date)
    requires Valid(solarStart) && Valid(dataEnd) && MinYear < dataEnd.year
    requires DaysBetween(solarStart, dataEnd) >= YearSpan
    ensures var r := SuggestDateRange(solarStart, dataEnd);
      var back := ShiftYears(dataEnd, -1);
      && (!Before(back, solarStart) ==> r == (back, dataEnd))
      && (Before(back, solarStart) ==> r.0 == solarStart)
  {
    LongSpanYears(solarStart, dataEnd);
  }

  /** The year before a date, shifted back by one year, is 365 or 366 days long. */
  lemma YearBefore(d: Date)
    requires Valid(d) && MinYear < d.year
    ensures var b := ShiftYears(d, -1);
      Before(b, d) && YearSpan <= DaysBetween(b, d) <= YearSpan + 1
  {
    var b := ShiftYears(d, -1);
    YearApart(b, d);
    OrdinalOrder(b, d);
  }

  /** The year after a date, shifted on by one year, is 365 or 366 days long. */
  lemma YearAfter(d: Date)
    requires Valid(d) && d.year < MaxYear
    ensures var f := ShiftYears(d, 1);
      Before(d, f) && YearSpan <= DaysBetween(d, f) <= YearSpan + 1
  {
    var f := ShiftYears(d, 1);
    YearApart(d, f);
    OrdinalOrder(d, f);
  }

  /** The branch where the year before the end reaches back past the solar start. */
  lemma ForwardYear(solarStart: Date, dataEnd: Date)
    requires Valid(solarStart) && Valid(dataEnd) && NotAfter(solarStart, dataEnd)
    requires MinYear < dataEnd.year && solarStart.year < MaxYear
    requires Before(ShiftYears(dataEnd, -1), solarStart)
    ensures var f := ShiftYears(solarStart, 1);
      && (Before(dataEnd, f) ==> DaysBetween(solarStart, dataEnd) <= YearSpan + 1)
      && (!Before(dataEnd, f) ==> NotAfter(solarStart, f))
  {
    var f := ShiftYears(solarStart, 1);
    YearAfter(solarStart);
    OrdinalOrder(dataEnd, f);
    OrdinalOrder(dataEnd, solarStart);
  }

  /** Wherever the code as written returns, it returns the corrected suggestion. */
  lemma AsWrittenAgrees(solarStart: Date, dataEnd: Date)
    requires Valid(solarStart) && Valid(dataEnd)
    ensures SuggestAsWritten(solarStart, dataEnd).Some? ==>
      SuggestAsWritten(solarStart, dataEnd).value == SuggestDateRange(solarStart, dataEnd)
  {
    if DaysBetween(solarStart, dataEnd) >= YearSpan {
      LongSpanYears(solarStart, dataEnd);
    }
  }

  /**
   * The code as written fails exactly when a year or more of data meets a
   * 29 February it has to shift: at the end of the data, or at the solar
   * start when the year before the end reaches back past it.
   */
  lemma AsWrittenFailsOnLeapDays(solarStart: Date, dataEnd: Date)
    requires Valid(solarStart) && Valid(dataEnd)
    ensures SuggestAsWritten(solarStart, dataEnd).None? <==>
      && DaysBetween(solarStart, dataEnd) >= YearSpan
      && (IsLeapDay(dataEnd)
          || (IsLeapDay(solarStart) && Before(Date(dataEnd.year - 1, dataEnd.month, dataEnd.day), solarStart)))
  {
    if DaysBetween(solarStart, dataEnd) >= YearSpan {
      LongSpanYears(solarStart, dataEnd);
      ShiftExistsUnlessLeapDay(dataEnd, -1);
      ShiftExistsUnlessLeapDay(solarStart, 1);
    }
  }

  /** A leap year's neighbours are common years. */
  lemma LeapNeighbours(y: int)
    requires IsLeap(y)
    ensures !IsLeap(y - 1) && !IsLeap(y + 1)
  {
  }

  /** Shifting a date by one year within 1..9999 raises exactly on 29 February. */
  lemma ShiftExistsUnlessLeapDay(d: Date, k: int)
    requires Valid(d) && (k == 1 || k == -1) && MinYear <= d.year + k <= MaxYear
    ensures ShiftYearsExact(d, k).Some? <==> !IsLeapDay(d)
  {
    if IsLeapDay(d) {
      LeapNeighbours(d.year);
    }
  }

  /** Data ending on 29 February 2024 after solar from 1 January 2023 makes the code as written raise. */
  lemma LeapDayEndRaises()
    ensures SuggestAsWritten(Date(2023, 1, 1), Date(2024, 2, 29)) == None
    ensures SuggestDateRange(Date(2023, 1, 1), Date(2024, 2, 29)) == (Date(2023, 2, 28), Date(2024, 2, 29))
  {
  }

  /** 400 days of data: the suggestion is the last year, 5 February to 5 February. */
  lemma FourHundredDays()
    ensures DaysBetween(Date(2023, 1, 1), Date(2024, 2, 5)) == 400
    ensures SuggestDateRange(Date(2023, 1, 1), Date(2024, 2, 5)) == (Date(2023, 2, 5), Date(2024, 2, 5))
  {
  }

  /** 200 days of data: the suggestion is all of it. */
  lemma TwoHundredDays()
    ensures DaysBetween(Date(2023, 6, 1), Date(2023, 12, 18)) == 200
    ensures SuggestDateRange(Date(2023, 6, 1), Date(2023, 12, 18)) == (Date(2023, 6, 1), Date(2023, 12, 18))
  {
  }
}

=== FILE: dates.dfy ===
/**
 * Calendar dates and meter timestamps, following Python's `datetime.date`:
 * the proleptic Gregorian calendar over years 1..9999 and the day ordinal
 * that date subtraction is defined by.
 */
module Dates {

  /** A calendar date; only `Valid` ones are constructible in Python. */
  datatype Date = Date(year: int, month: int, day: int)

  /** `datetime.MINYEAR` and `datetime.MAXYEAR`. */
  const MinYear: int := 1
  const MaxYear: int := 9999

  predicate IsLeap(y: int) {
    y % 4 == 0 && (y % 100 != 0 || y % 400 == 0)
  }

  function DaysInMonth(y: int, m: int): (n: int)
    requires 1 <= m <= 12
    ensures 28 <= n <= 31
    ensures n == 29 <==> m == 2 && IsLeap(y)
  {
    if m == 2 then (if IsLeap(y) then 29 else 28)
    else if m == 4 || m == 6 || m == 9 || m == 11 then 30
    else 31
  }

  function DaysInYear(y: int): int {
    if IsLeap(y) then 366 else 365
  }

  /** The date `date(year, month, day)` accepts without raising `ValueError`. */
  predicate Valid(d: Date) {
    && MinYear <= d.year <= MaxYear
    && 1 <= d.month <= 12
    && 1 <= d.day <= DaysInMonth(d.year, d.month)
  }

  /** Strict chronological order: lexicographic on (year, month, day). */
  predicate Before(a: Date, b: Date) {
    a.year < b.year || (a.year == b.year && (a.month < b.month || (a.month == b.month && a.day < b.day)))
  }

  /** `a <= b` on dates. */
  predicate NotAfter(a: Date, b: Date) {
    !Before(b, a)
  }

  lemma BeforeIsStrictTotal()
    ensures forall x :: !Before(x, x)
    ensures forall x, y, z :: Before(x, y) && Before(y, z) ==> Before(x, z)
    ensures forall x: Date, y: Date :: x != y ==> Before(x, y) || Before(y, x)
  {
  }

  /** The date's month, identified by its first day (a pandas monthly period). */
  function MonthStart(d: Date): (m: Date)
    ensures Valid(d) ==> Valid(m)
    ensures m.day == 1
  {
    Date(d.year, d.month, 1)
  }

  predicate IsLeapDay(d: Date) {
    d.month == 2 && d.day == 29
  }

  /** Days in the years before `y`. */
  function DaysBeforeYear(y: int): int
    requires y >= 1
  {
    var p := y - 1;
    365 * p + p / 4 - p / 100 + p / 400
  }

  /** Days in the months of year `y` before month `m`. */
  function DaysBeforeMonth(y: int, m: int): int
    requires 1 <= m <= 12
  {
    var common :=
      if m == 1 then 0 else if m == 2 then 31 else if m == 3 then 59
      else if m == 4 then 90 else if m == 5 then 120 else if m == 6 then 151
      else if m == 7 then 181 else if m == 8 then 212 else if m == 9 then 243
      else if m == 10 then 273 else if m == 11 then 304 else 334;
    if m > 2 && IsLeap(y) then common + 1 else common
  }

  /** `date.toordinal()`: 0001-01-01 is day 1. */
  function Ordinal(d: Date): int
    requires Valid(d)
  {
    DaysBeforeYear(d.year) + DaysBeforeMonth(d.year, d.month) + d.day
  }

  /** `(b - a).days`. */
  function DaysBetween(a: Date, b: Date): int
    requires Valid(a) && Valid(b)
  {
    Ordinal(b) - Ordinal(a)
  }

  lemma YearLength(y: int)
    requires y >= 1
    ensures DaysBeforeYear(y + 1) == DaysBeforeYear(y) + DaysInYear(y)
  {
    var p := y - 1;
    assert (p + 1) / 4 == p / 4 + (if y % 4 == 0 then 1 else 0);
    assert (p + 1) / 100 == p / 100 + (if y % 100 == 0 then 1 else 0);
    assert (p + 1) / 400 == p / 400 + (if y % 400 == 0 then 1 else 0);
  }

  /** A date's day within its year lies in 1..DaysInYear. */
  lemma DayOfYearBounds(d: Date)
    requires Valid(d)
    ensures 1 <= DaysBeforeMonth(d.year, d.month) + d.day <= DaysInYear(d.year)
  {
  }

  lemma {:induction false} YearsMonotone(x: int, y: int)
    requires 1 <= x <= y
    ensures DaysBeforeYear(x) + 365 * (y - x) <= DaysBeforeYear(y)
    decreases y - x
  {
    if x < y {
      YearsMonotone(x, y - 1);
      YearLength(y - 1);
    }
  }

  /** The ordinal is an order embedding: chronological order is numeric order of ordinals. */
  lemma OrdinalOrder(a: Date, b: Date)
    requires Valid(a) && Valid(b)
    ensures Before(a, b) <==> Ordinal(a) < Ordinal(b)
    ensures a == b <==> Ordinal(a) == Ordinal(b)
  {
    if a.year < b.year {
      OrdinalYearGap(a, b);
    } else if b.year < a.year {
      OrdinalYearGap(b, a);
    }
  }

  lemma OrdinalYearGap(a: Date, b: Date)
    requires Valid(a) && Valid(b) && a.year < b.year
    ensures Ordinal(a) < Ordinal(b)
  {
    DayOfYearBounds(a);
    DayOfYearBounds(b);
    YearLength(a.year);
    YearsMonotone(a.year + 1, b.year);
  }

  /** Two dates of the same year are less than a year's length apart. */
  lemma SameYearSpan(a: Date, b: Date)
    requires Valid(a) && Valid(b) && a.year == b.year
    ensures DaysBetween(a, b) < DaysInYear(a.year)
  {
    DayOfYearBounds(a);
    DayOfYearBounds(b);
  }

  /** A timestamp as the meter writes it (ReadDate plus ReadTime), without time zone. */
  datatype Timestamp = Timestamp(date: Date, hour: int, minute: int, second: int)

  predicate ValidTimestamp(t: Timestamp) {
    Valid(t.date) && 0 <= t.hour < 24 && 0 <= t.minute < 60 && 0 <= t.second < 60
  }

  /** `hour * 60 + minute`: the minutes since midnight the free window is checked against. */
  function MinuteOfDay(t: Timestamp): int {
    t.hour * 60 + t.minute
  }
}

=== FILE: freewindow.dfy ===
/**
 * The free-electricity window: a daily "HH:MM"–"HH:MM" interval, start included
 * and end excluded, in which grid power costs nothing (app.py, `get_data`).
 */
module FreeWindow {
  import opened Wrappers
  import opened Text
  import opened Dates
  import opened Meter

  /** Query-parameter defaults for the window. */
  const DefaultStart: string := "11:00"
  const DefaultEnd: string := "14:00"

  function CountChar(s: string, c: char): nat {
    if |s| == 0 then 0 else (if s[0] == c then 1 else 0) + CountChar(s[1..], c)
  }

  /** Index of the first `c` in `s`, or `|s|` when there is none. */
  function IndexOf(s: string, c: char): (i: nat)
    ensures i <= |s|
    ensures i < |s| ==> s[i] == c
    ensures forall k :: 0 <= k < i ==> s[k] != c
    ensures i == |s| <==> CountChar(s, c) == 0
  {
    if |s| == 0 then 0 else if s[0] == c then 0 else 1 + IndexOf(s[1..], c)
  }

  /**
   * `h, m = map(int, s.split(':'))` then `h * 60 + m`: minutes since midnight, or
   * `None` where Python raises `ValueError` (not exactly one ':' or a part that
   * is not an integer literal). Hours and minutes are not range-checked.
   */
  function ParseClock(s: string): (r: Option<int>)
    ensures CountChar(s, ':') != 1 ==> r.None?
    ensures CountChar(s, ':') == 1 && ParseInt(s[..IndexOf(s, ':')]).Some? && ParseInt(s[IndexOf(s, ':') + 1..]).Some? ==> r.Some?
    ensures r.Some? ==>
      var i := IndexOf(s, ':');
      && i < |s| && s[i] == ':'
      && ParseInt(s[..i]).Some? && ParseInt(s[i + 1..]).Some?
      && r.value == ParseInt(s[..i]).value * 60 + ParseInt(s[i + 1..]).value
  {
    if CountChar(s, ':') != 1 then None
    else
      var i := IndexOf(s, ':');
      var hours, minutes := ParseInt(s[..i]), ParseInt(s[i + 1..]);
      if hours.Some? && minutes.Some? then Some(hours.value * 60 + minutes.value) else None
  }

  function Digit(n: int): char
    requires 0 <= n < 10
  {
    ('0' as int + n) as char
  }

  /** The two-digit, zero-padded form of `n`. */
  function TwoDigits(n: int): string
    requires 0 <= n < 100
  {
    [Digit(n / 10), Digit(n % 10)]
  }

  /** The "HH:MM" form of a time of day. */
  function Clock(hour: int, minute: int): string
    requires 0 <= hour < 24 && 0 <= minute < 60
  {
    TwoDigits(hour) + ":" + TwoDigits(minute)
  }

  lemma TwoDigitsValue(n: int)
    requires 0 <= n < 100
    ensures IsDigits(TwoDigits(n)) && Strip(TwoDigits(n)) == TwoDigits(n)
    ensures DigitsValue(TwoDigits(n)) == n
  {
    var s := TwoDigits(n);
    StripUnchanged(s);
    assert s[..1] == [Digit(n / 10)];
    assert DigitsValue(s[..1]) == n / 10 by {
      assert s[..1][..0] == [];
    }
  }

  lemma {:induction false} CountCharConcat(a: string, b: string, c: char)
    ensures CountChar(a + b, c) == CountChar(a, c) + CountChar(b, c)
  {
    if |a| > 0 {
      assert (a + b)[1..] == a[1..] + b;
      CountCharConcat(a[1..], b, c);
    } else {
      assert a + b == b;
    }
  }

  lemma NoColonInDigits(n: int)
    requires 0 <= n < 100
    ensures CountChar(TwoDigits(n), ':') == 0
  {
    var s := TwoDigits(n);
    assert s[0] != ':' && s[1] != ':';
    var tail := s[1..];
    assert tail[0] == s[1] && tail[1..] == [];
    assert CountChar(tail[1..], ':') == 0;
    assert CountChar(tail, ':') == 0;
  }

  /** Parsing a formatted time of day gives back its minutes since midnight. */
  lemma ClockRoundTrip(hour: int, minute: int)
    requires 0 <= hour < 24 && 0 <= minute < 60
    ensures ParseClock(Clock(hour, minute)) == Some(hour * 60 + minute)
  {
    var s := Clock(hour, minute);
    CountCharConcat(TwoDigits(hour) + ":", TwoDigits(minute), ':');
    CountCharConcat(TwoDigits(hour), ":", ':');
    NoColonInDigits(hour);
    NoColonInDigits(minute);
    assert IndexOf(s, ':') == 2;
    assert s[..2] == TwoDigits(hour);
    assert s[3..] == TwoDigits(minute);
    TwoDigitsValue(hour);
    TwoDigitsValue(minute);
  }

  /** Single-digit parts are accepted too: `7:5` is 7 hours and 5 minutes. */
  lemma UnpaddedClock()
    ensures ParseClock("7:5") == Some(425)
  {
    var s := "7:5";
    assert CountChar(s[2..], ':') == 0;
    assert CountChar(s, ':') == 1;
    assert IndexOf(s, ':') == 1;
    assert s[..1] == "7" && s[2..] == "5";
    ParseOneDigit('7');
    ParseOneDigit('5');
  }

  /** A single digit parses to its value. */
  lemma ParseOneDigit(c: char)
    requires IsDigit(c)
    ensures ParseInt([c]) == Some(DigitValue(c))
  {
    StripUnchanged([c]);
    OneDigitValue(c);
  }

  /** A one-character digit string has that digit's value. */
  lemma OneDigitValue(c: char)
    requires IsDigit(c)
    ensures IsDigits([c]) && DigitsValue([c]) == DigitValue(c)
  {
    assert [c][..0] == [];
  }

  /** `request.args.get('free_window_enabled', 'true').lower() == 'true'`. */
  function IsEnabled(arg: Option<string>): (r: bool)
    ensures arg.None? ==> r
    ensures arg.Some? ==> (r <==> |arg.value| == 4 && forall i :: 0 <= i < 4 ==> arg.value[i] == "true"[i] || arg.value[i] == "TRUE"[i])
  {
    Lower(arg.GetOr("true")) == "true"
  }

  /** The flag is case-insensitive: `TRUE` and `True` enable the window. */
  lemma UpperCaseEnables()
    ensures IsEnabled(Some("TRUE")) && IsEnabled(Some("True"))
  {
  }

  /** Any other value, `false` or `yes` among them, disables the window. */
  lemma OtherValuesDisable()
    ensures !IsEnabled(Some("false")) && !IsEnabled(Some("yes")) && !IsEnabled(Some(""))
  {
  }

  /**
   * The window in minutes since midnight, or `None` when it is disabled or
   * either bound fails to parse: then no reading is in the window.
   */
  function WindowBounds(enabled: bool, startText: string, endText: string): (r: Option<(int, int)>)
    ensures r.Some? <==> enabled && ParseClock(startText).Some? && ParseClock(endText).Some?
    ensures r.Some? ==> r.value == (ParseClock(startText).value, ParseClock(endText).value)
  {
    if !enabled then None
    else
      match (ParseClock(startText), ParseClock(endText))
      case (Some(s), Some(e)) => Some((s, e))
      case _ => None
  }

  predicate InWindow(t: Timestamp, bounds: Option<(int, int)>) {
    bounds.Some? && bounds.value.0 <= MinuteOfDay(t) < bounds.value.1
  }

  /** Recomputes the free-window flag of every reading; nothing else changes. */
  function ApplyFreeWindow(rs: seq<Annotated>, enabled: bool, startText: string, endText: string)
    : (r: seq<Annotated>)
    ensures |r| == |rs|
    ensures forall i :: 0 <= i < |rs| ==> r[i].reading == rs[i].reading && r[i].isSunlight == rs[i].isSunlight
    ensures forall i :: 0 <= i < |rs| ==>
      (r[i].isFreeWindow <==>
        && enabled && ParseClock(startText).Some? && ParseClock(endText).Some?
        && ParseClock(startText).value <= MinuteOfDay(rs[i].reading.at) < ParseClock(endText).value)
  {
    var bounds := WindowBounds(enabled, startText, endText);
    seq(|rs|, i requires 0 <= i < |rs| => rs[i].(isFreeWindow := InWindow(rs[i].reading.at, bounds)))
  }

  /** A window whose start is not before its end flags no reading. */
  lemma EmptyWindowFlagsNothing(rs: seq<Annotated>, h1: int, m1: int, h2: int, m2: int)
    requires 0 <= h1 < 24 && 0 <= m1 < 60 && 0 <= h2 < 24 && 0 <= m2 < 60
    requires h1 * 60 + m1 >= h2 * 60 + m2
    ensures forall i :: 0 <= i < |rs| ==> !ApplyFreeWindow(rs, true, Clock(h1, m1), Clock(h2, m2))[i].isFreeWindow
  {
    ClockRoundTrip(h1, m1);
    ClockRoundTrip(h2, m2);
  }

  /** The default window runs from 11:00 to 14:00, as formatted times of day. */
  lemma DefaultStartIs11()
    ensures Clock(11, 0) == DefaultStart
  {
    assert Digit(0) == '0' && Digit(1) == '1';
  }

  lemma DefaultEndIs14()
    ensures Clock(14, 0) == DefaultEnd
  {
    assert Digit(0) == '0' && Digit(1) == '1' && Digit(4) == '4';
  }

  /** A window given as two formatted times of day is enabled with exactly those bounds. */
  lemma ClockWindow(h1: int, m1: int, h2: int, m2: int)
    requires 0 <= h1 < 24 && 0 <= m1 < 60 && 0 <= h2 < 24 && 0 <= m2 < 60
    ensures WindowBounds(true, Clock(h1, m1), Clock(h2, m2)) == Some((h1 * 60 + m1, h2 * 60 + m2))
  {
    ClockRoundTrip(h1, m1);
    ClockRoundTrip(h2, m2);
  }
}

=== FILE: meter.dfy ===
/**
 * Meter records and their ingestion: finding the solar start date, dropping
 * pre-solar history, splitting consumption from solar export and labelling
 * each reading as sunlight by observed generation (app.py `load_and_process_data`
 * and `filter_data_by_date_range`).
 */
module Meter {
  import opened Wrappers
  import opened Dates
  import opened Seqs

  /** Register codes of the meter export. */
  const ConsumptionRegister: int := 1
  const ExportRegister: int := 2

  /** An interval exporting more than this many kWh counts as generating. */
  const GenerationThreshold: real := 0.001

  /** One row of the meter file, already typed. */
  datatype Reading = Reading(at: Timestamp, register: int, solarFlag: bool, quantity: real)

  /** A reading with the two derived flags. */
  datatype Annotated = Annotated(reading: Reading, isSunlight: bool, isFreeWindow: bool)

  /** The processed data for one file: both series and their date bounds. */
  datatype Dataset = Dataset(consumption: seq<Annotated>, exports: seq<Annotated>, solarStart: Date, dataEnd: Date)

  /** Raised when the file has no solar export at all. */
  datatype IngestError = NoSolarExports

  function DateOf(r: Reading): Date {
    r.at.date
  }

  predicate IsConsumption(r: Reading) {
    r.register == ConsumptionRegister
  }

  predicate IsSolarExport(r: Reading) {
    r.register == ExportRegister && r.solarFlag
  }

  predicate IsNonZeroExport(r: Reading) {
    IsSolarExport(r) && r.quantity > 0.0
  }

  predicate IsGenerating(r: Reading) {
    r.quantity > GenerationThreshold
  }

  /** Rows of the consumption register dated on or after `start`. */
  function ConsumptionFrom(start: Date): Reading -> bool {
    (r: Reading) => IsConsumption(r) && NotAfter(start, DateOf(r))
  }

  /** Solar export rows dated on or after `start`. */
  function ExportsFrom(start: Date): Reading -> bool {
    (r: Reading) => IsSolarExport(r) && NotAfter(start, DateOf(r))
  }

  function OnOrAfter(start: Date): Reading -> bool {
    (r: Reading) => NotAfter(start, DateOf(r))
  }

  function IsConsumptionRow(): Reading -> bool {
    (r: Reading) => IsConsumption(r)
  }

  function IsSolarExportRow(): Reading -> bool {
    (r: Reading) => IsSolarExport(r)
  }

  function Readings(rs: seq<Annotated>): (r: seq<Reading>)
    ensures |r| == |rs|
    ensures forall i :: 0 <= i < |rs| ==> r[i] == rs[i].reading
  {
    seq(|rs|, i requires 0 <= i < |rs| => rs[i].reading)
  }

  /** The earliest date of a solar export row with a positive quantity, if any. */
  function EarliestExportDate(rows: seq<Reading>): (r: Option<Date>)
    ensures r.None? <==> forall i :: 0 <= i < |rows| ==> !IsNonZeroExport(rows[i])
    ensures r.Some? ==> exists i :: 0 <= i < |rows| && IsNonZeroExport(rows[i]) && DateOf(rows[i]) == r.value
    ensures r.Some? ==> forall i :: 0 <= i < |rows| && IsNonZeroExport(rows[i]) ==> NotAfter(r.value, DateOf(rows[i]))
  {
    if |rows| == 0 then None
    else
      var rest := EarliestExportDate(rows[1..]);
      assert forall i :: 1 <= i < |rows| ==> rows[i] == rows[1..][i - 1];
      if !IsNonZeroExport(rows[0]) then
        rest
      else if rest.Some? && Before(rest.value, DateOf(rows[0])) then
        rest
      else
        Some(DateOf(rows[0]))
  }

  /** The latest date of any row. */
  function LatestDate(rows: seq<Reading>): (r: Date)
    requires |rows| > 0
    ensures exists i :: 0 <= i < |rows| && DateOf(rows[i]) == r
    ensures forall i :: 0 <= i < |rows| ==> NotAfter(DateOf(rows[i]), r)
  {
    if |rows| == 1 then DateOf(rows[0])
    else
      var rest := LatestDate(rows[1..]);
      assert forall i :: 1 <= i < |rows| ==> rows[i] == rows[1..][i - 1];
      if Before(rest, DateOf(rows[0])) then DateOf(rows[0]) else rest
  }

  /** The timestamps at which some export row exceeds the generation threshold. */
  function GeneratingTimes(exports: seq<Reading>): (ts: set<Timestamp>)
    ensures forall t :: t in ts <==> exists j :: 0 <= j < |exports| && IsGenerating(exports[j]) && exports[j].at == t
  {
    set j | 0 <= j < |exports| && IsGenerating(exports[j]) :: exports[j].at
  }

  function Annotate(rs: seq<Reading>, generating: set<Timestamp>): (r: seq<Annotated>)
    ensures Readings(r) == rs
    ensures forall i :: 0 <= i < |r| ==> (r[i].isSunlight <==> rs[i].at in generating) && !r[i].isFreeWindow
  {
    seq(|rs|, i requires 0 <= i < |rs| => Annotated(rs[i], rs[i].at in generating, false))
  }

  /** Each reading is sunlight exactly when some export in `exports` generated at its timestamp. */
  ghost predicate SunlightObserved(rs: seq<Annotated>, exports: seq<Annotated>) {
    forall i :: 0 <= i < |rs| ==>
      (rs[i].isSunlight <==>
        exists j :: 0 <= j < |exports| && IsGenerating(exports[j].reading) && exports[j].reading.at == rs[i].reading.at)
  }

  /** Every reading of the dataset is dated within [solarStart, dataEnd]. */
  ghost predicate WithinBounds(ds: Dataset) {
    && (forall i :: 0 <= i < |ds.consumption| ==>
          NotAfter(ds.solarStart, DateOf(ds.consumption[i].reading)) && NotAfter(DateOf(ds.consumption[i].reading), ds.dataEnd))
    && (forall i :: 0 <= i < |ds.exports| ==>
          NotAfter(ds.solarStart, DateOf(ds.exports[i].reading)) && NotAfter(DateOf(ds.exports[i].reading), ds.dataEnd))
  }

  /**
   * Builds the dataset from typed meter rows, or fails when no row is a solar
   * export with a positive quantity.
   */
  function Ingest(rows: seq<Reading>): (r: Result<Dataset, IngestError>)
    ensures r.Failure? <==> forall i :: 0 <= i < |rows| ==> !IsNonZeroExport(rows[i])
    ensures r.Success? ==>
      var ds := r.value;
      && (exists i :: 0 <= i < |rows| && IsNonZeroExport(rows[i]) && DateOf(rows[i]) == ds.solarStart)
      && (forall i :: 0 <= i < |rows| && IsNonZeroExport(rows[i]) ==> NotAfter(ds.solarStart, DateOf(rows[i])))
      && (exists i :: 0 <= i < |rows| && DateOf(rows[i]) == ds.dataEnd)
      && (forall i :: 0 <= i < |rows| ==> NotAfter(DateOf(rows[i]), ds.dataEnd))
      && Readings(ds.consumption) == Filter(rows, ConsumptionFrom(ds.solarStart))
      && Readings(ds.exports) == Filter(rows, ExportsFrom(ds.solarStart))
      && SunlightObserved(ds.consumption, ds.exports)
      && SunlightObserved(ds.exports, ds.exports)
      && (forall i :: 0 <= i < |ds.consumption| ==> !ds.consumption[i].isFreeWindow)
      && (forall i :: 0 <= i < |ds.exports| ==> !ds.exports[i].isFreeWindow)
      && WithinBounds(ds)
  {
    match EarliestExportDate(rows)
    case None => Failure(NoSolarExports)
    case Some(start) =>
      var ds := Build(rows, start);
      BuildWithinBounds(rows, start);
      Success(ds)
  }

  /** The dataset of `rows` once the solar start date is known. */
  function Build(rows: seq<Reading>, start: Date): (ds: Dataset)
    requires |rows| > 0
    ensures ds.solarStart == start && ds.dataEnd == LatestDate(rows)
    ensures Readings(ds.consumption) == Filter(rows, ConsumptionFrom(start))
    ensures Readings(ds.exports) == Filter(rows, ExportsFrom(start))
    ensures SunlightObserved(ds.consumption, ds.exports) && SunlightObserved(ds.exports, ds.exports)
    ensures forall i :: 0 <= i < |ds.consumption| ==> !ds.consumption[i].isFreeWindow
    ensures forall i :: 0 <= i < |ds.exports| ==> !ds.exports[i].isFreeWindow
  {
    var kept := Filter(rows, OnOrAfter(start));
    var consumption := Filter(kept, IsConsumptionRow());
    var exports := Filter(kept, IsSolarExportRow());
    FilterTwice(rows, OnOrAfter(start), IsConsumptionRow(), ConsumptionFrom(start));
    FilterTwice(rows, OnOrAfter(start), IsSolarExportRow(), ExportsFrom(start));
    var generating := GeneratingTimes(exports);
    var ds := Dataset(Annotate(consumption, generating), Annotate(exports, generating), start, LatestDate(rows));
    assert forall j :: 0 <= j < |exports| ==> exports[j] == ds.exports[j].reading;
    ds
  }

  lemma BuildWithinBounds(rows: seq<Reading>, start: Date)
    requires |rows| > 0
    ensures WithinBounds(Build(rows, start))
  {
    var ds := Build(rows, start);
    forall i | 0 <= i < |ds.consumption|
      ensures NotAfter(start, DateOf(ds.consumption[i].reading)) && NotAfter(DateOf(ds.consumption[i].reading), ds.dataEnd)
    {
      assert ds.consumption[i].reading == Readings(ds.consumption)[i];
      assert ds.consumption[i].reading in Filter(rows, ConsumptionFrom(start));
    }
    forall i | 0 <= i < |ds.exports|
      ensures NotAfter(start, DateOf(ds.exports[i].reading)) && NotAfter(DateOf(ds.exports[i].reading), ds.dataEnd)
    {
      assert ds.exports[i].reading == Readings(ds.exports)[i];
      assert ds.exports[i].reading in Filter(rows, ExportsFrom(start));
    }
  }

  /** No reading lands in both series: consumption is register 1, export is register 2. */
  lemma SeriesDisjoint(rows: seq<Reading>)
    requires Ingest(rows).Success?
    ensures var ds := Ingest(rows).value;
      forall i, j :: 0 <= i < |ds.consumption| && 0 <= j < |ds.exports| ==>
        ds.consumption[i].reading.register == ConsumptionRegister
        && ds.exports[j].reading.register == ExportRegister && ds.exports[j].reading.solarFlag
  {
    var ds := Ingest(rows).value;
    forall i | 0 <= i < |ds.consumption|
      ensures ds.consumption[i].reading.register == ConsumptionRegister
    {
      assert ds.consumption[i].reading == Readings(ds.consumption)[i];
      assert ds.consumption[i].reading in Filter(rows, ConsumptionFrom(ds.solarStart));
    }
    forall j | 0 <= j < |ds.exports|
      ensures ds.exports[j].reading.register == ExportRegister && ds.exports[j].reading.solarFlag
    {
      assert ds.exports[j].reading == Readings(ds.exports)[j];
      assert ds.exports[j].reading in Filter(rows, ExportsFrom(ds.solarStart));
    }
  }

  /** Readings dated within [start, end], both ends included. */
  function InRange(start: Date, end: Date): Annotated -> bool {
    (a: Annotated) => NotAfter(start, DateOf(a.reading)) && NotAfter(DateOf(a.reading), end)
  }

  /** Restricts both series to the analysis period [start, end]. */
  function FilterByDateRange(consumption: seq<Annotated>, exports: seq<Annotated>, start: Date, end: Date)
    : (r: (seq<Annotated>, seq<Annotated>))
    ensures forall a :: a in r.0 <==> a in consumption && NotAfter(start, DateOf(a.reading)) && NotAfter(DateOf(a.reading), end)
    ensures forall a :: a in r.1 <==> a in exports && NotAfter(start, DateOf(a.reading)) && NotAfter(DateOf(a.reading), end)
    ensures IsSubseq(r.0, consumption) && IsSubseq(r.1, exports)
    ensures forall a :: multiset(r.0)[a] == if InRange(start, end)(a) then multiset(consumption)[a] else 0
    ensures forall a :: multiset(r.1)[a] == if InRange(start, end)(a) then multiset(exports)[a] else 0
  {
    FilterCounts(consumption, InRange(start, end));
    FilterCounts(exports, InRange(start, end));
    (Filter(consumption, InRange(start, end)), Filter(exports, InRange(start, end)))
  }

  /** Filtering an ingested dataset to its own bounds keeps every reading. */
  lemma FullRangeKeepsAll(ds: Dataset)
    requires WithinBounds(ds)
    ensures FilterByDateRange(ds.consumption, ds.exports, ds.solarStart, ds.dataEnd) == (ds.consumption, ds.exports)
  {
    FilterKeepsAll(ds.consumption, InRange(ds.solarStart, ds.dataEnd));
    FilterKeepsAll(ds.exports, InRange(ds.solarStart, ds.dataEnd));
  }

  /** A range whose end precedes its start selects nothing. */
  lemma InvertedRangeIsEmpty(consumption: seq<Annotated>, exports: seq<Annotated>, start: Date, end: Date)
    requires Before(end, start)
    ensures FilterByDateRange(consumption, exports, start, end) == ([], [])
  {
    FilterKeepsNone(consumption, InRange(start, end));
    FilterKeepsNone(exports, InRange(start, end));
  }
}

=== FILE: ordering.dfy ===
/**
 * Sorted, duplicate-free sequences under a strict total order: the shape of a
 * pandas group-by index and of Python's `sorted(set(...))`.
 */
module Ordering {

  /** `lt` is a strict total order: irreflexive, transitive and connected. */
  ghost predicate StrictTotal<T(!new)>(lt: (T, T) -> bool) {
    && (forall x :: !lt(x, x))
    && (forall x, y, z :: lt(x, y) && lt(y, z) ==> lt(x, z))
    && (forall x, y :: x != y ==> lt(x, y) || lt(y, x))
  }

  /** Every element is strictly below every later one. */
  ghost predicate Increasing<T>(xs: seq<T>, lt: (T, T) -> bool) {
    forall i, j :: 0 <= i < j < |xs| ==> lt(xs[i], xs[j])
  }

  /** Under an irreflexive order an increasing sequence has no repeated element. */
  lemma IncreasingIsDistinct<T(!new)>(xs: seq<T>, lt: (T, T) -> bool)
    requires StrictTotal(lt) && Increasing(xs, lt)
    ensures forall i, j :: 0 <= i < j < |xs| ==> xs[i] != xs[j]
  {
  }

  /** Inserts `x` into the sorted, duplicate-free `xs`, unless it is already there. */
  function Insert<T(!new,==)>(xs: seq<T>, x: T, lt: (T, T) -> bool): (r: seq<T>)
    requires StrictTotal(lt) && Increasing(xs, lt)
    ensures Increasing(r, lt)
    ensures forall z :: z in r <==> z in xs || z == x
    ensures |r| == if x in xs then |xs| else |xs| + 1
  {
    if |xs| == 0 then [x]
    else if x == xs[0] then xs
    else if lt(x, xs[0]) then [x] + xs
    else
      var rest := Insert(xs[1..], x, lt);
      assert forall z :: z in rest ==> lt(xs[0], z);
      [xs[0]] + rest
  }

  /** The distinct elements of `xs` in increasing order. */
  function SortedDistinct<T(!new,==)>(xs: seq<T>, lt: (T, T) -> bool): (r: seq<T>)
    requires StrictTotal(lt)
    ensures Increasing(r, lt)
    ensures forall z :: z in r <==> z in xs
    ensures |r| <= |xs|
  {
    if |xs| == 0 then []
    else
      var prefix := SortedDistinct(xs[..|xs| - 1], lt);
      assert forall z :: z in xs <==> z in xs[..|xs| - 1] || z == xs[|xs| - 1];
      Insert(prefix, xs[|xs| - 1], lt)
  }

  /** Two increasing sequences with the same elements are equal. */
  lemma {:induction false} IncreasingUnique<T(!new)>(a: seq<T>, b: seq<T>, lt: (T, T) -> bool)
    requires StrictTotal(lt) && Increasing(a, lt) && Increasing(b, lt)
    requires forall z :: z in a <==> z in b
    ensures a == b
    decreases |a| + |b|, |b|
  {
    if |a| > 0 {
      assert a[0] in b;
      assert b[0] in a;
      forall z
        ensures z in a[1..] <==> z in b[1..]
      {
        if z in a[1..] {
          assert z in b && z != b[0];
        }
        if z in b[1..] {
          assert z in a && z != a[0];
        }
      }
      IncreasingUnique(a[1..], b[1..], lt);
      assert a == [a[0]] + a[1..];
      assert b == [b[0]] + b[1..];
    } else if |b| > 0 {
      IncreasingUnique(b, a, lt);
    }
  }
}

=== FILE: postcodes.dfy ===
/**
 * The Australian postcode table: rows of the postcode file grouped by
 * postcode, looked up by a normalised four-digit code and searched by
 * postcode or locality name.
 */
module Postcodes {
  import opened Wrappers
  import opened Text
  import opened Seqs
  import opened Ordering

  /** A locality with its postcode, state and coordinates. */
  datatype Location = Location(postcode: string, locality: string, state: string, latitude: real, longitude: real)

  /** `display_name`: "locality, state postcode". */
  function DisplayName(loc: Location): (r: string)
    ensures |r| == |loc.locality| + |loc.state| + |loc.postcode| + 3
    ensures r[..|loc.locality|] == loc.locality
    ensures r[|loc.locality|..|loc.locality| + 2] == ", "
    ensures r[|loc.locality| + 2..|loc.locality| + 2 + |loc.state|] == loc.state
    ensures r[|r| - |loc.postcode| - 1] == ' '
    ensures r[|r| - |loc.postcode|..] == loc.postcode
  {
    loc.locality + ", " + loc.state + " " + loc.postcode
  }

  /** A coordinate cell as the CSV reader hands it over: empty or missing, a number, or text `float` rejects. */
  datatype Cell = Blank | Number(value: real) | Malformed

  /** `float(cell or 0)`, for a cell that parses. */
  function CellValue(c: Cell): real
    requires !c.Malformed?
  {
    if c.Number? then c.value else 0.0
  }

  /** A row of the postcode file; a missing text column reads as "". */
  datatype Row = Row(postcode: string, locality: string, state: string, lat: Cell, lon: Cell)

  /** The row's coordinates: both 0 when either cell does not parse. */
  function Coordinates(row: Row): (r: (real, real))
    ensures row.lat.Malformed? || row.lon.Malformed? ==> r == (0.0, 0.0)
    ensures !row.lat.Malformed? && !row.lon.Malformed? ==> r == (CellValue(row.lat), CellValue(row.lon))
  {
    if row.lat.Malformed? || row.lon.Malformed? then (0.0, 0.0) else (CellValue(row.lat), CellValue(row.lon))
  }

  /**
   * The location a row contributes: `None` when its stripped postcode is
   * empty or both its coordinates are 0.
   */
  function LocationOf(row: Row): (r: Option<Location>)
    ensures r.Some? <==> |Strip(row.postcode)| > 0 && Coordinates(row) != (0.0, 0.0)
    ensures r.Some? ==> r.value == Location(Strip(row.postcode), Strip(row.locality), Strip(row.state), Coordinates(row).0, Coordinates(row).1)
  {
    var postcode := Strip(row.postcode);
    var (lat, lon) := Coordinates(row);
    if |postcode| == 0 || (lat == 0.0 && lon == 0.0) then None
    else Some(Location(postcode, Strip(row.locality), Strip(row.state), lat, lon))
  }

  /** A row with one zero coordinate is kept; one with an unparsable coordinate is not. */
  lemma SkippedRows(row: Row)
    requires |Strip(row.postcode)| > 0
    ensures row.lat == Number(0.0) && row.lon.Number? && row.lon.value != 0.0 ==> LocationOf(row).Some?
    ensures row.lat.Malformed? || row.lon.Malformed? ==> LocationOf(row).None?
    ensures row.lat.Blank? && row.lon.Blank? ==> LocationOf(row).None?
  {
  }

  /** The locations of the kept rows, in file order. */
  function Kept(rows: seq<Row>): (r: seq<Location>)
    ensures |r| <= |rows|
  {
    FilterMap(rows, LocationOf)
  }

  /** The kept locations are exactly those of rows that pass the filter. */
  lemma KeptMembers(rows: seq<Row>)
    ensures forall l :: l in Kept(rows) <==> exists i :: 0 <= i < |rows| && LocationOf(rows[i]) == Some(l)
  {
    FilterMapMembers(rows, LocationOf);
  }

  /** The distinct postcodes of `locs`, in order of first appearance. */
  function FirstAppearance(locs: seq<Location>): (r: seq<string>)
    ensures NoRepeats(r)
    ensures forall k :: k in r <==> exists i :: 0 <= i < |locs| && locs[i].postcode == k
  {
    if |locs| == 0 then []
    else
      var init := locs[..|locs| - 1];
      var prefix := FirstAppearance(init);
      var k := locs[|locs| - 1].postcode;
      assert forall i :: 0 <= i < |init| ==> init[i] == locs[i];
      if k in prefix then prefix else prefix + [k]
  }

  /** A postcode table: postcodes in insertion order, and the locations under each. */
  datatype Table = Table(keys: seq<string>, entries: map<string, seq<Location>>)

  /** Keys are listed once each, every listed key has a non-empty list, and each location sits under its own postcode. */
  ghost predicate Valid(t: Table) {
    && NoRepeats(t.keys)
    && (forall k :: k in t.entries <==> k in t.keys)
    && (forall k :: k in t.entries ==> |t.entries[k]| > 0)
    && (forall k, l :: k in t.entries && l in t.entries[k] ==> l.postcode == k)
  }

  function WithPostcode(k: string): Location -> bool {
    (l: Location) => l.postcode == k
  }

  /** Adds one kept location to the table: appended under its postcode, which is listed if new. */
  function AddLocation(t: Table, l: Location): Table {
    if l.postcode in t.entries then Table(t.keys, t.entries[l.postcode := t.entries[l.postcode] + [l]])
    else Table(t.keys + [l.postcode], t.entries[l.postcode := [l]])
  }

  /** Every key is a non-empty stripped postcode. */
  ghost predicate StrippedKeys(t: Table) {
    forall k :: k in t.entries ==> |k| > 0 && Strip(k) == k
  }

  lemma AddLocationStripped(t: Table, l: Location)
    requires StrippedKeys(t) && |l.postcode| > 0 && Strip(l.postcode) == l.postcode
    ensures StrippedKeys(AddLocation(t, l))
  {
  }

  /** The table groups `locs` by postcode. */
  ghost predicate Groups(t: Table, locs: seq<Location>) {
    && Valid(t)
    && t.keys == FirstAppearance(locs)
    && (forall k :: k in t.entries ==> t.entries[k] == Filter(locs, WithPostcode(k)))
  }

  /** Adding a location to the grouping of `locs` gives the grouping of `locs + [l]`. */
  lemma AddLocationGroups(t: Table, locs: seq<Location>, l: Location)
    requires Groups(t, locs)
    ensures Groups(AddLocation(t, l), locs + [l])
  {
    AddLocationKeys(t, locs, l);
    AddLocationEntries(t, locs, l);
    AddLocationValid(t, l);
  }

  lemma AddLocationKeys(t: Table, locs: seq<Location>, l: Location)
    requires Valid(t) && t.keys == FirstAppearance(locs)
    ensures AddLocation(t, l).keys == FirstAppearance(locs + [l])
  {
    assert (locs + [l])[..|locs|] == locs;
  }

  lemma AddLocationEntries(t: Table, locs: seq<Location>, l: Location)
    requires Groups(t, locs)
    ensures forall k :: k in AddLocation(t, l).entries ==> AddLocation(t, l).entries[k] == Filter(locs + [l], WithPostcode(k))
  {
    var t' := AddLocation(t, l);
    forall k | k in t'.entries
      ensures t'.entries[k] == Filter(locs + [l], WithPostcode(k))
    {
      FilterConcat(locs, [l], WithPostcode(k));
      if k == l.postcode && k !in t.entries {
        NewPostcodeUnseen(locs, k);
      }
    }
  }

  lemma AddLocationValid(t: Table, l: Location)
    requires Valid(t)
    ensures Valid(AddLocation(t, l))
  {
    var t' := AddLocation(t, l);
    if l.postcode !in t.entries {
      assert l.postcode !in t.keys;
      forall i, j | 0 <= i < j < |t'.keys|
        ensures t'.keys[i] != t'.keys[j]
      {
        if j == |t.keys| {
          assert t.keys[i] in t.keys;
        }
      }
    }
  }

  /** The table built by adding `locs` one by one to an empty one. */
  function GroupByPostcode(locs: seq<Location>): Table {
    if |locs| == 0 then Table([], map[])
    else AddLocation(GroupByPostcode(locs[..|locs| - 1]), locs[|locs| - 1])
  }

  /** Adding the locations one by one groups them by postcode. */
  lemma {:induction false} GroupByPostcodeGroups(locs: seq<Location>)
    ensures Groups(GroupByPostcode(locs), locs)
  {
    if |locs| > 0 {
      var init := locs[..|locs| - 1];
      GroupByPostcodeGroups(init);
      AddLocationGroups(GroupByPostcode(init), init, locs[|locs| - 1]);
      assert init + [locs[|locs| - 1]] == locs;
    }
  }

  /**
   * `_ensure_loaded`: groups the kept rows by their stripped postcode; each
   * postcode's list keeps file order, and postcodes are listed as first seen.
   */
  method Load(rows: seq<Row>) returns (t: Table)
    ensures Valid(t)
    ensures t.keys == FirstAppearance(Kept(rows))
    ensures forall k :: k in t.entries ==> t.entries[k] == Filter(Kept(rows), WithPostcode(k))
    ensures StrippedKeys(t)
  {
    t := Table([], map[]);
    var i := 0;
    while i < |rows|
      invariant 0 <= i <= |rows|
      invariant t == GroupByPostcode(Kept(rows[..i]))
      invariant StrippedKeys(t)
    {
      LoadStep(rows, i, t);
      t := AddRow(t, rows[i]);
      i := i + 1;
    }
    assert rows[..|rows|] == rows;
    GroupByPostcodeGroups(Kept(rows));
  }

  /** One row of the loading loop: its location, if it has one, added to the table. */
  function AddRow(t: Table, row: Row): Table {
    match LocationOf(row)
    case Some(l) => AddLocation(t, l)
    case None => t
  }

  /** Adding row `i` to the table of the rows before it gives the table of the rows up to it. */
  lemma LoadStep(rows: seq<Row>, i: nat, t: Table)
    requires i < |rows| && t == GroupByPostcode(Kept(rows[..i])) && StrippedKeys(t)
    ensures AddRow(t, rows[i]) == GroupByPostcode(Kept(rows[..i + 1]))
    ensures StrippedKeys(AddRow(t, rows[i]))
  {
    KeptStep(rows, i);
    var loc := LocationOf(rows[i]);
    if loc.Some? {
      StripIdempotent(rows[i].postcode);
      AddLocationStripped(t, loc.value);
    }
  }

  /** One more row adds its location, if it has one, to the grouping of the rows before it. */
  lemma KeptStep(rows: seq<Row>, i: nat)
    requires i < |rows|
    ensures var loc := LocationOf(rows[i]);
      GroupByPostcode(Kept(rows[..i + 1]))
        == if loc.Some? then AddLocation(GroupByPostcode(Kept(rows[..i])), loc.value) else GroupByPostcode(Kept(rows[..i]))
  {
    var before := Kept(rows[..i]);
    assert rows[..i + 1][..i] == rows[..i];
    var loc := LocationOf(rows[i]);
    if loc.Some? {
      var after := before + [loc.value];
      assert Kept(rows[..i + 1]) == after;
      assert after[..|after| - 1] == before;
    } else {
      assert Kept(rows[..i + 1]) == before;
    }
  }

  /** No location carries a postcode that first appearance has not listed. */
  lemma NewPostcodeUnseen(locs: seq<Location>, k: string)
    requires k !in FirstAppearance(locs)
    ensures Filter(locs, WithPostcode(k)) == []
  {
  }

  /** `str(p).strip().zfill(4)`: the key a query is looked up under. */
  function NormalisePostcode(p: string): (r: string)
    ensures |r| >= 4
    ensures |Strip(p)| >= 4 ==> r == Strip(p)
  {
    ZFill(Strip(p), 4)
  }

  /** Normalising twice is normalising once. */
  lemma NormaliseIdempotent(p: string)
    ensures NormalisePostcode(NormalisePostcode(p)) == NormalisePostcode(p)
  {
    var s := Strip(p);
    var z := ZFill(s, 4);
    ZFillNoSpaceEnds(s, 4);
    StripUnchanged(z);
    ZFillIdempotent(s, 4);
  }

  /** `lookup`: the locations stored under the normalised postcode, or none. */
  function Lookup(t: Table, p: string): (r: seq<Location>)
    ensures NormalisePostcode(p) in t.entries ==> r == t.entries[NormalisePostcode(p)]
    ensures NormalisePostcode(p) !in t.entries ==> r == []
  {
    var key := NormalisePostcode(p);
    if key in t.entries then t.entries[key] else []
  }

  /** Every location a lookup returns has the normalised query as its postcode. */
  lemma LookupMatchesPostcode(t: Table, p: string)
    requires Valid(t)
    ensures forall l :: l in Lookup(t, p) ==> l.postcode == NormalisePostcode(p)
  {
  }

  /** A stored key of four or more characters is found by looking it up. */
  lemma LookupFindsLongKeys(t: Table, k: string)
    requires k in t.entries && |k| >= 4 && Strip(k) == k
    ensures Lookup(t, k) == t.entries[k]
  {
  }

  /**
   * Stored keys are stripped but not zero-filled, so a key shorter than four
   * characters is never returned: every lookup pads the query to four.
   */
  lemma ShortKeysUnreachable(t: Table, k: string, p: string)
    requires Valid(t) && k in t.entries && |k| < 4
    ensures Lookup(t, p) != t.entries[k]
  {
    var l := t.entries[k][0];
    assert l in t.entries[k];
    assert l.postcode == k;
    var key := NormalisePostcode(p);
    if key in t.entries {
      assert key != k;
      assert l in t.entries[key] ==> l.postcode == key;
    }
  }

  /** A stripped all-digit query of fewer than four digits finds the key padded with leading zeros. */
  lemma LookupPadsShortCodes(t: Table, p: string)
    requires IsDigits(p) && |p| < 4
    ensures Lookup(t, p) == Lookup(t, Zeros(4 - |p|) + p)
  {
    PaddedDigits(p);
    var padded := Zeros(4 - |p|) + p;
    assert padded[0] == '0' && padded[3] == p[|p| - 1] && IsDigit(p[|p| - 1]);
    FourCharsNormal(padded);
  }

  /** A short all-digit query normalises to itself padded with leading zeros. */
  lemma PaddedDigits(p: string)
    requires IsDigits(p) && |p| < 4
    ensures NormalisePostcode(p) == Zeros(4 - |p|) + p
  {
    assert IsDigit(p[0]) && IsDigit(p[|p| - 1]);
    StripUnchanged(p);
  }

  /** Four characters with no white space at either end are their own normal form. */
  lemma FourCharsNormal(q: string)
    requires |q| == 4 && !IsSpace(q[0]) && !IsSpace(q[3])
    ensures NormalisePostcode(q) == q
  {
    StripUnchanged(q);
  }

  /** `get_primary_location`: the first location under the postcode, if any. */
  function PrimaryLocation(t: Table, p: string): (r: Option<Location>)
    ensures r.None? <==> Lookup(t, p) == []
    ensures r.Some? ==> r.value == Lookup(t, p)[0]
  {
    var found := Lookup(t, p);
    if |found| > 0 then Some(found[0]) else None
  }

  /** Under a well-formed table the primary location exists exactly for stored postcodes, and carries the query's postcode. */
  lemma PrimaryLocationFound(t: Table, p: string)
    requires Valid(t)
    ensures PrimaryLocation(t, p).Some? <==> NormalisePostcode(p) in t.entries
    ensures PrimaryLocation(t, p).Some? ==> PrimaryLocation(t, p).value.postcode == NormalisePostcode(p)
  {
    if NormalisePostcode(p) in t.entries {
      assert Lookup(t, p)[0] in Lookup(t, p);
    }
  }

  /** Every location of the table, postcode by postcode in key order. */
  function Scan(keys: seq<string>, entries: map<string, seq<Location>>): (r: seq<Location>)
    requires forall k :: k in keys ==> k in entries
    ensures forall l :: l in r <==> exists k :: k in keys && l in entries[k]
    ensures |keys| > 0 ==> entries[keys[0]] <= r
  {
    if |keys| == 0 then []
    else
      var rest := Scan(keys[1..], entries);
      assert forall k :: k in keys <==> k == keys[0] || k in keys[1..];
      entries[keys[0]] + rest
  }

  /** The locality test of `search`: the query occurs in the lower-cased locality. */
  predicate Matches(l: Location, query: string) {
    Contains(Lower(l.locality), query)
  }

  /** The exact-postcode block of `search`: the locations under the zero-filled query when it is all digits. */
  function ExactBlock(t: Table, query: string): (r: seq<Location>)
    ensures IsDigits(query) && ZFill(query, 4) in t.entries ==> r == t.entries[ZFill(query, 4)]
    ensures !(IsDigits(query) && ZFill(query, 4) in t.entries) ==> r == []
  {
    if IsDigits(query) && ZFill(query, 4) in t.entries then t.entries[ZFill(query, 4)] else []
  }

  /** `results[:limit]`, with Python's meaning for a negative limit: drop that many from the end. */
  function Take(s: seq<Location>, limit: int): (r: seq<Location>)
    ensures r <= s
    ensures limit >= 0 ==> |r| == if limit < |s| then limit else |s|
    ensures limit < 0 ==> |r| == if |s| + limit > 0 then |s| + limit else 0
  {
    if limit >= 0 then (if limit < |s| then s[..limit] else s)
    else if |s| + limit > 0 then s[..|s| + limit] else []
  }

  /**
   * The reference for the loop of `search`: the locations of `s` that match `q`
   * and are not in `exact`, each once, in order of first occurrence in `s`.
   */
  function NewMatches(s: seq<Location>, q: string, exact: seq<Location>): seq<Location>
    decreases |s|
  {
    if |s| == 0 then []
    else
      var prev := NewMatches(s[..|s| - 1], q, exact);
      var l := s[|s| - 1];
      if Matches(l, q) && l !in exact && l !in prev then prev + [l] else prev
  }

  /** A location is among the new matches exactly when it occurs in `s`, matches and is not in `exact`. */
  lemma {:induction false} NewMatchesMembers(s: seq<Location>, q: string, exact: seq<Location>, l: Location)
    ensures l in NewMatches(s, q, exact) <==> l in s && Matches(l, q) && l !in exact
    decreases |s|
  {
    if |s| > 0 {
      NewMatchesMembers(s[..|s| - 1], q, exact, l);
      assert s == s[..|s| - 1] + [s[|s| - 1]];
    }
  }

  /** Scanning further only appends: the new matches of a prefix of `s` begin the new matches of `s`. */
  lemma {:induction false} NewMatchesPrefix(s: seq<Location>, j: nat, q: string, exact: seq<Location>)
    requires j <= |s|
    ensures NewMatches(s[..j], q, exact) <= NewMatches(s, q, exact)
    decreases |s|
  {
    if j == |s| {
      assert s[..j] == s;
    } else {
      var init := s[..|s| - 1];
      assert s[..j] == init[..j];
      NewMatchesPrefix(init, j, q, exact);
    }
  }

  /** Every new match is taken from `s`. */
  lemma NewMatchesFromSource(s: seq<Location>, q: string, exact: seq<Location>)
    ensures forall x :: 0 <= x < |NewMatches(s, q, exact)| ==> NewMatches(s, q, exact)[x] in s
  {
    var r := NewMatches(s, q, exact);
    forall x | 0 <= x < |r|
      ensures r[x] in s
    {
      NewMatchesMembers(s, q, exact, r[x]);
    }
  }

  /** The new matches never repeat a location and keep the order of `s`. */
  lemma {:induction false} NewMatchesOrdered(s: seq<Location>, q: string, exact: seq<Location>)
    ensures NoRepeats(NewMatches(s, q, exact)) && IsSubseq(NewMatches(s, q, exact), s)
    decreases |s|
  {
    if |s| > 0 {
      var init := s[..|s| - 1];
      var l := s[|s| - 1];
      var prev := NewMatches(init, q, exact);
      NewMatchesOrdered(init, q, exact);
      assert s == init + [l];
      if Matches(l, q) && l !in exact && l !in prev {
        SubseqSnoc(prev, init, l);
      } else {
        SubseqExtend(prev, init, l);
      }
    }
  }

  /** The position of the first occurrence of `l` in `s`, or `|s|` when it does not occur. */
  function FirstIndex(s: seq<Location>, l: Location): (i: nat)
    ensures i <= |s|
    ensures i < |s| ==> s[i] == l
    ensures forall k :: 0 <= k < i ==> s[k] != l
    ensures i == |s| <==> l !in s
  {
    if |s| == 0 then 0 else if s[0] == l then 0 else 1 + FirstIndex(s[1..], l)
  }

  /** A location occurring within the first `n` entries has the same first position in the whole. */
  lemma FirstIndexPrefix(s: seq<Location>, n: nat, l: Location)
    requires n <= |s| && l in s[..n]
    ensures FirstIndex(s, l) == FirstIndex(s[..n], l)
  {
    var i := FirstIndex(s[..n], l);
    assert s[i] == l;
  }

  /** The last location of `s`, absent before it, first occurs last. */
  lemma FirstIndexOfNew(s: seq<Location>, l: Location)
    requires |s| > 0 && s[|s| - 1] == l && l !in s[..|s| - 1]
    ensures FirstIndex(s, l) == |s| - 1
  {
    forall k | 0 <= k < |s| - 1
      ensures s[k] != l
    {
      assert s[k] == s[..|s| - 1][k];
    }
  }

  /** The locations of `r` appear in the order of their first occurrence in `s`. */
  predicate InFirstOccurrenceOrder(r: seq<Location>, s: seq<Location>) {
    forall x, y :: 0 <= x < y < |r| ==> FirstIndex(s, r[x]) < FirstIndex(s, r[y])
  }

  /** An order by first occurrence within a prefix of `s` is an order by first occurrence in `s`. */
  lemma OrderInWhole(r: seq<Location>, s: seq<Location>, n: nat)
    requires n <= |s| && InFirstOccurrenceOrder(r, s[..n])
    requires forall x :: 0 <= x < |r| ==> r[x] in s[..n]
    ensures InFirstOccurrenceOrder(r, s)
    ensures forall x :: 0 <= x < |r| ==> FirstIndex(s, r[x]) < n
  {
    forall x | 0 <= x < |r|
      ensures FirstIndex(s, r[x]) == FirstIndex(s[..n], r[x]) < n
    {
      FirstIndexPrefix(s, n, r[x]);
    }
  }

  /** Appending a location whose first occurrence comes after all of `r`'s keeps the order. */
  lemma OrderSnoc(r: seq<Location>, l: Location, s: seq<Location>)
    requires InFirstOccurrenceOrder(r, s)
    requires forall x :: 0 <= x < |r| ==> FirstIndex(s, r[x]) < FirstIndex(s, l)
    ensures InFirstOccurrenceOrder(r + [l], s)
  {
    var r' := r + [l];
    forall x, y | 0 <= x < y < |r'|
      ensures FirstIndex(s, r'[x]) < FirstIndex(s, r'[y])
    {
      assert r'[x] == r[x];
      if y < |r| {
        assert r'[y] == r[y];
      }
    }
  }

  /** The new matches come in the order of their first occurrence in `s`, whatever `s` repeats. */
  lemma {:induction false} NewMatchesFirstOrder(s: seq<Location>, q: string, exact: seq<Location>)
    ensures InFirstOccurrenceOrder(NewMatches(s, q, exact), s)
    decreases |s|
  {
    if |s| > 0 {
      var n := |s| - 1;
      var init := s[..n];
      var l := s[n];
      var prev := NewMatches(init, q, exact);
      NewMatchesFirstOrder(init, q, exact);
      NewMatchesFromSource(init, q, exact);
      OrderInWhole(prev, s, n);
      if Matches(l, q) && l !in exact && l !in prev {
        assert NewMatches(s, q, exact) == prev + [l];
        NewMatchesMembers(init, q, exact, l);
        FirstIndexOfNew(s, l);
        OrderSnoc(prev, l, s);
      } else {
        assert NewMatches(s, q, exact) == prev;
      }
    }
  }

  /**
   * A repeated table row does not move a location: with `a` before `b` in the
   * table and `a` again after `b`, the matches stay `[a, b]`.
   */
  lemma RepeatedRowKeepsFirstPlace(a: Location, b: Location, q: string)
    requires a != b && Matches(a, q) && Matches(b, q)
    ensures NewMatches([a, b, a], q, []) == [a, b]
  {
    assert [a][..0] == [];
    assert NewMatches([a], q, []) == [a];
    assert [a, b][..1] == [a];
    assert NewMatches([a, b], q, []) == [a, b];
    assert [a, b, a][..2] == [a, b];
  }

  /** One more location of `all` extends the scan the way the loop of `search` extends its results. */
  lemma ScanStep(all: seq<Location>, j: nat, q: string, exact: seq<Location>, results: seq<Location>)
    requires j < |all| && exact <= results && ScannedUpTo(results, exact, all, q, j)
    ensures var next := if Matches(all[j], q) && all[j] !in results then results + [all[j]] else results;
      exact <= next && ScannedUpTo(next, exact, all, q, j + 1)
  {
    assert all[..j + 1][..j] == all[..j];
    assert results == exact + results[|exact|..];
    assert (results + [all[j]])[|exact|..] == results[|exact|..] + [all[j]];
  }

  /**
   * The locations after the exact block are the new matches among the first
   * `j` locations of `all`: `all` was scanned up to `j` and nothing else was taken.
   */
  predicate ScannedUpTo(r: seq<Location>, exact: seq<Location>, all: seq<Location>, q: string, j: nat)
    requires |exact| <= |r| && j <= |all|
  {
    r[|exact|..] == NewMatches(all[..j], q, exact)
  }

  /** Some prefix of `all` was scanned completely to produce the locations after the exact block. */
  predicate FirstMatches(r: seq<Location>, exact: seq<Location>, all: seq<Location>, q: string)
    requires |exact| <= |r|
  {
    exists j :: 0 <= j <= |all| && ScannedUpTo(r, exact, all, q, j)
  }

  /**
   * What `search` returns, given the exact block and the new matches of the
   * whole table: when the block alone reaches `limit`, the first new match
   * still gets appended before the limit test returns; otherwise the block and
   * the new matches are cut to `limit`.
   */
  function Capped(exact: seq<Location>, news: seq<Location>, limit: int): seq<Location> {
    if limit <= |exact| && |news| > 0 then exact + [news[0]] else Take(exact + news, limit)
  }

  /**
   * `search`: the exact-postcode block first, then each further location whose
   * locality contains the query, once each, in order of first occurrence in the
   * table; stops as soon as `limit` results are reached and otherwise
   * truncates to `limit`.
   */
  method Search(t: Table, query: string, limit: int) returns (r: seq<Location>)
    requires Valid(t)
    ensures var q := Lower(Strip(query));
      var exact := ExactBlock(t, q);
      var all := Scan(t.keys, t.entries);
      && (exact <= r || r <= exact)
      && (|r| >= |exact| ==> NoRepeats(r[|exact|..]) && IsSubseq(r[|exact|..], all))
      && (|r| >= |exact| ==> InFirstOccurrenceOrder(r[|exact|..], all))
      && (forall i :: |exact| <= i < |r| ==> Matches(r[i], q) && r[i] !in exact)
      && |r| <= (if limit > |exact| then limit else |exact| + 1)
      && (|r| < limit ==> exact <= r && forall l :: l in all && Matches(l, q) ==> l in r)
      && (|r| >= |exact| ==> FirstMatches(r, exact, all, q))
    ensures var q := Lower(Strip(query));
      var exact := ExactBlock(t, q);
      r == Capped(exact, NewMatches(Scan(t.keys, t.entries), q, exact), limit)
  {
    var q := Lower(Strip(query));
    var exact := ExactBlock(t, q);
    var all := Scan(t.keys, t.entries);
    var results, full := CollectMatches(all, q, exact, limit);
    if full {
      r := results;
    } else {
      r := Take(results, limit);
      TakeKeeps(results, exact, all, q, limit);
    }
    CappedResult(results, full, exact, NewMatches(all, q, exact), limit);
  }

  /** The results of the loop, cut to `limit` when it ran to the end, are what `search` returns. */
  lemma CappedResult(results: seq<Location>, full: bool, exact: seq<Location>, news: seq<Location>, limit: int)
    requires exact <= results && results[|exact|..] <= news
    requires full ==> |exact| < |results| && limit <= |results| <= (if limit > |exact| then limit else |exact| + 1)
    requires !full ==> results[|exact|..] == news && (|results| > |exact| ==> |results| < limit)
    ensures (if full then results else Take(results, limit)) == Capped(exact, news, limit)
  {
    assert results == exact + results[|exact|..];
    if full {
      if limit <= |exact| {
        assert results == exact + [news[0]];
      } else {
        assert results == (exact + news)[..limit];
      }
    }
  }

  /**
   * The loop of `search`: appends each location of `all` that matches `q` and
   * is not yet present, stopping (`full`) once `limit` results are reached.
   */
  method CollectMatches(all: seq<Location>, q: string, exact: seq<Location>, limit: int)
    returns (results: seq<Location>, full: bool)
    ensures exact <= results
    ensures NoRepeats(results[|exact|..]) && IsSubseq(results[|exact|..], all)
    ensures InFirstOccurrenceOrder(results[|exact|..], all)
    ensures forall i :: |exact| <= i < |results| ==> Matches(results[i], q) && results[i] !in exact
    ensures full ==> |exact| < |results| && limit <= |results| <= (if limit > |exact| then limit else |exact| + 1)
    ensures !full ==> (|results| > |exact| ==> |results| < limit)
    ensures !full ==> forall l :: l in all && Matches(l, q) ==> l in results
    ensures !full ==> results[|exact|..] == NewMatches(all, q, exact)
    ensures results[|exact|..] <= NewMatches(all, q, exact)
    ensures FirstMatches(results, exact, all, q)
  {
    results := exact;
    full := false;
    var j := 0;
    while j < |all| && !full
      invariant 0 <= j <= |all|
      invariant exact <= results && ScannedUpTo(results, exact, all, q, j)
      invariant !full ==> (|results| > |exact| ==> |results| < limit)
      invariant full ==> |exact| < |results| && limit <= |results| <= (if limit > |exact| then limit else |exact| + 1)
    {
      var loc := all[j];
      ScanStep(all, j, q, exact, results);
      if Matches(loc, q) && loc !in results {
        results := results + [loc];
        full := |results| >= limit;
      }
      j := j + 1;
    }
    if !full {
      assert all[..j] == all;
    }
    ScannedFacts(results, exact, all, q, j);
    NewMatchesPrefix(all, j, q, exact);
    assert ScannedUpTo(results, exact, all, q, j);
  }

  /**
   * What a scan up to `j` gives: the later locations are distinct matches
   * outside `exact`, in the order of `all`, and every match among the first
   * `j` locations is present.
   */
  lemma ScannedFacts(r: seq<Location>, exact: seq<Location>, all: seq<Location>, q: string, j: nat)
    requires exact <= r && j <= |all| && ScannedUpTo(r, exact, all, q, j)
    ensures NoRepeats(r[|exact|..]) && IsSubseq(r[|exact|..], all)
    ensures forall i :: |exact| <= i < |r| ==> Matches(r[i], q) && r[i] !in exact
    ensures forall l :: l in all[..j] && Matches(l, q) ==> l in r
    ensures InFirstOccurrenceOrder(r[|exact|..], all)
  {
    var later := r[|exact|..];
    NewMatchesOrdered(all[..j], q, exact);
    NewMatchesFirstOrder(all[..j], q, exact);
    forall x | 0 <= x < |later|
      ensures later[x] in all[..j]
    {
      NewMatchesMembers(all[..j], q, exact, later[x]);
    }
    OrderInWhole(later, all, j);
    SubseqOfPrefix(later, all, j);
    forall i | |exact| <= i < |r|
      ensures Matches(r[i], q) && r[i] !in exact
    {
      assert r[i] == later[i - |exact|];
      NewMatchesMembers(all[..j], q, exact, r[i]);
    }
    forall l | l in all[..j] && Matches(l, q)
      ensures l in r
    {
      NewMatchesMembers(all[..j], q, exact, l);
      if l !in exact {
        assert l in later;
      }
    }
  }

  /** `results[:limit]` keeps the properties of the collected results. */
  lemma TakeKeeps(results: seq<Location>, exact: seq<Location>, all: seq<Location>, q: string, limit: int)
    requires exact <= results
    requires |results| > |exact| ==> |results| < limit
    requires results[|exact|..] == NewMatches(all, q, exact)
    ensures var r := Take(results, limit);
      && (exact <= r || r <= exact)
      && (|r| >= |exact| ==> NoRepeats(r[|exact|..]) && IsSubseq(r[|exact|..], all))
      && (|r| >= |exact| ==> InFirstOccurrenceOrder(r[|exact|..], all))
      && (forall i :: |exact| <= i < |r| ==> Matches(r[i], q) && r[i] !in exact)
      && |r| <= (if limit > |exact| then limit else |exact| + 1)
      && (|r| < limit ==> exact <= r && forall l :: l in all && Matches(l, q) ==> l in r)
      && (|r| >= |exact| ==> FirstMatches(r, exact, all, q))
  {
    var r := Take(results, limit);
    assert all[..|all|] == all;
    ScannedFacts(results, exact, all, q, |all|);
    if |r| >= |exact| {
      assert r == results;
      assert ScannedUpTo(r, exact, all, q, |all|);
    }
  }

  /** The keys, sorted. */
  function AllPostcodes(t: Table): (r: seq<string>)
    ensures Increasing(r, StringLess())
    ensures forall k :: k in r <==> k in t.keys
  {
    StringLessIsStrictTotal();
    SortedDistinct(t.keys, StringLess())
  }

  /** Sorting is the only increasing arrangement of the keys. */
  lemma AllPostcodesUnique(t: Table, s: seq<string>)
    requires Increasing(s, StringLess()) && forall k :: k in s <==> k in t.keys
    ensures s == AllPostcodes(t)
  {
    StringLessIsStrictTotal();
    IncreasingUnique(s, AllPostcodes(t), StringLess());
  }

  /** Python's string order: lexicographic by code point, a proper prefix first. */
  predicate LexLess(a: string, b: string)
    decreases |a|
  {
    if |a| == 0 then |b| > 0
    else |b| > 0 && (a[0] < b[0] || (a[0] == b[0] && LexLess(a[1..], b[1..])))
  }

  function StringLess(): (string, string) -> bool {
    (a: string, b: string) => LexLess(a, b)
  }

  lemma {:induction false} LexIrreflexive(a: string)
    ensures !LexLess(a, a)
  {
    if |a| > 0 {
      LexIrreflexive(a[1..]);
    }
  }

  lemma {:induction false} LexTransitive(a: string, b: string, c: string)
    requires LexLess(a, b) && LexLess(b, c)
    ensures LexLess(a, c)
    decreases |a|
  {
    if |a| > 0 && a[0] == b[0] && b[0] == c[0] {
      LexTransitive(a[1..], b[1..], c[1..]);
    }
  }

  lemma {:induction false} LexConnected(a: string, b: string)
    requires a != b
    ensures LexLess(a, b) || LexLess(b, a)
    decreases |a|
  {
    if |a| > 0 && |b| > 0 && a[0] == b[0] {
      assert a == [a[0]] + a[1..] && b == [b[0]] + b[1..];
      LexConnected(a[1..], b[1..]);
    }
  }

  lemma StringLessIsStrictTotal()
    ensures StrictTotal(StringLess())
  {
    forall x: string
      ensures !StringLess()(x, x)
    {
      LexIrreflexive(x);
    }
    forall x: string, y: string, z: string | StringLess()(x, y) && StringLess()(y, z)
      ensures StringLess()(x, z)
    {
      LexTransitive(x, y, z);
    }
    forall x: string, y: string | x != y
      ensures StringLess()(x, y) || StringLess()(y, x)
    {
      LexConnected(x, y);
    }
  }

  /** `get_states`: the eight state and territory codes, sorted. */
  function States(): (r: seq<string>)
    ensures |r| == 8
    ensures Increasing(r, StringLess())
  {
    var r := ["ACT", "NSW", "NT", "QLD", "SA", "TAS", "VIC", "WA"];
    assert forall i :: 0 < i < |r| ==> LexLess(r[i - 1], r[i]);
    StringLessIsStrictTotal();
    AdjacentIncreasing(r);
    r
  }

  lemma {:induction false} AdjacentIncreasing(r: seq<string>)
    requires StrictTotal(StringLess())
    requires forall i :: 0 < i < |r| ==> LexLess(r[i - 1], r[i])
    ensures Increasing(r, StringLess())
  {
    forall i, j | 0 <= i < j < |r|
      ensures StringLess()(r[i], r[j])
    {
      AdjacentChain(r, i, j);
    }
  }

  lemma {:induction false} AdjacentChain(r: seq<string>, i: nat, j: nat)
    requires forall k :: 0 < k < |r| ==> LexLess(r[k - 1], r[k])
    requires i < j < |r|
    ensures LexLess(r[i], r[j])
    decreases j - i
  {
    if i + 1 < j {
      AdjacentChain(r, i + 1, j);
      LexTransitive(r[i], r[i + 1], r[j]);
    }
  }
}

=== FILE: rollups.dfy ===
/**
 * The chart series of the dashboard (app.py `get_data` and
 * `calculate_daylight_hours`): daily, hourly and monthly rollups, the 7-sample
 * trailing trend and the observed generating hours per month.
 */
module Rollups {
  import opened Dates
  import opened Meter
  import opened Sums
  import opened Ordering

  /** Chronological order on dates, as a value for sorting. */
  function DateLess(): (Date, Date) -> bool {
    (a: Date, b: Date) => Before(a, b)
  }

  lemma DateLessIsStrictTotal()
    ensures StrictTotal(DateLess())
  {
    BeforeIsStrictTotal();
  }

  /** The distinct keys of the selected readings, oldest first: a group-by index. */
  function SortedKeys(s: seq<Annotated>, sel: Sel, key: Annotated -> Date): (r: seq<Date>)
    ensures Increasing(r, DateLess())
    ensures forall d :: d in r <==> exists i :: 0 <= i < |s| && Selected(s[i], sel) && key(s[i]) == d
  {
    DateLessIsStrictTotal();
    SortedDistinct(KeysOf(s, sel, key), DateLess())
  }

  lemma IncreasingDatesDistinct(ds: seq<Date>)
    requires Increasing(ds, DateLess())
    ensures forall i, j :: 0 <= i < j < |ds| ==> ds[i] != ds[j]
  {
    DateLessIsStrictTotal();
    IncreasingIsDistinct(ds, DateLess());
  }

  /** Parallel arrays keyed by date, as the charts receive them. */
  datatype Series = Series(dates: seq<Date>, sunlight: seq<real>, night: seq<real>, exports: seq<real>)

  ghost predicate WellFormed(r: Series) {
    |r.sunlight| == |r.dates| && |r.night| == |r.dates| && |r.exports| == |r.dates|
  }

  /**
   * Daily sums. The index is the days with sunlight consumption; night use and
   * export are looked up on those days with 0 for a missing day, so a day with
   * only night use does not appear.
   */
  function Daily(consumption: seq<Annotated>, exports: seq<Annotated>): (r: Series)
    ensures WellFormed(r)
    ensures Increasing(r.dates, DateLess())
    ensures forall d :: d in r.dates <==> exists i :: 0 <= i < |consumption| && consumption[i].isSunlight && DayOf(consumption[i]) == d
    ensures forall i :: 0 <= i < |r.dates| ==>
      && r.sunlight[i] == TotalFor(consumption, Sunlight, Energy, DayOf, r.dates[i])
      && r.night[i] == TotalFor(consumption, Night, Energy, DayOf, r.dates[i])
      && r.exports[i] == TotalFor(exports, AllReadings, Energy, DayOf, r.dates[i])
  {
    var days := SortedKeys(consumption, Sunlight, DayOf);
    Series(
      days,
      Groups(consumption, Sunlight, Energy, DayOf, days),
      Groups(consumption, Night, Energy, DayOf, days),
      Groups(exports, AllReadings, Energy, DayOf, days))
  }

  /** The daily sunlight column adds up to the whole sunlight consumption. */
  lemma DailySunlightIsComplete(consumption: seq<Annotated>, exports: seq<Annotated>)
    ensures SumReals(Daily(consumption, exports).sunlight) == Total(consumption, Sunlight, Energy)
  {
    var days := Daily(consumption, exports).dates;
    IncreasingDatesDistinct(days);
    SumOfGroups(consumption, Sunlight, Energy, DayOf, days);
    PartitionByKey(consumption, Sunlight, Energy, DayOf, days);
  }

  /** The mean quantity of the readings with `key` equal to `k`, or 0 when there are none. */
  function GroupMean<K(==)>(s: seq<Annotated>, key: Annotated -> K, k: K): (r: real)
    ensures r * TotalFor(s, AllReadings, Intervals, key, k) == TotalFor(s, AllReadings, Energy, key, k)
    ensures TotalFor(s, AllReadings, Intervals, key, k) == 0.0 ==> r == 0.0
  {
    var n := TotalFor(s, AllReadings, Intervals, key, k);
    if n == 0.0 then
      EmptyGroupIsZero(s, AllReadings, key, k);
      0.0
    else
      TotalFor(s, AllReadings, Energy, key, k) / n
  }

  /** The hours of the day, 0 to 23. */
  function HoursOfDay(): (r: seq<int>)
    ensures |r| == 24 && forall h :: 0 <= h < 24 ==> r[h] == h
  {
    seq(24, h => h)
  }

  /** Mean quantity per hour of the day, over 24 buckets with 0 for an hour with no reading. */
  function Hourly(s: seq<Annotated>): (r: seq<real>)
    ensures |r| == 24
    ensures forall h :: 0 <= h < 24 ==> r[h] == GroupMean(s, HourOf, h)
  {
    seq(24, h => GroupMean(s, HourOf, h))
  }

  function WeightedSum(xs: seq<real>, ws: seq<real>): real
    requires |xs| == |ws|
  {
    if |xs| == 0 then 0.0 else xs[0] * ws[0] + WeightedSum(xs[1..], ws[1..])
  }

  lemma {:induction false} WeightedSumOfProducts(xs: seq<real>, ws: seq<real>, ps: seq<real>)
    requires |xs| == |ws| == |ps|
    requires forall i :: 0 <= i < |xs| ==> xs[i] * ws[i] == ps[i]
    ensures WeightedSum(xs, ws) == SumReals(ps)
  {
    if |xs| > 0 {
      WeightedSumOfProducts(xs[1..], ws[1..], ps[1..]);
    }
  }

  /** Readings whose hour lies in 0..23, as every valid timestamp's does. */
  ghost predicate HoursInRange(s: seq<Annotated>) {
    forall i :: 0 <= i < |s| ==> 0 <= s[i].reading.at.hour < 24
  }

  /**
   * Weighting each hourly mean by its number of readings gives back the total:
   * the 24 buckets cover every reading exactly once.
   */
  lemma HourlyMeansRecoverTotal(s: seq<Annotated>)
    requires HoursInRange(s)
    ensures WeightedSum(Hourly(s), Groups(s, AllReadings, Intervals, HourOf, HoursOfDay())) == Total(s, AllReadings, Energy)
  {
    var hours := HoursOfDay();
    var counts := Groups(s, AllReadings, Intervals, HourOf, hours);
    var sums := Groups(s, AllReadings, Energy, HourOf, hours);
    WeightedSumOfProducts(Hourly(s), counts, sums);
    SumOfGroups(s, AllReadings, Energy, HourOf, hours);
    forall i | 0 <= i < |s|
      ensures HourOf(s[i]) in hours
    {
      assert hours[HourOf(s[i])] == HourOf(s[i]);
    }
    PartitionByKey(s, AllReadings, Energy, HourOf, hours);
  }

  /** Some reading falls in month `m`. */
  ghost predicate HasMonth(s: seq<Annotated>, m: Date) {
    exists i :: 0 <= i < |s| && Selected(s[i], AllReadings) && MonthOf(s[i]) == m
  }

  lemma HasMonthConcat(a: seq<Annotated>, b: seq<Annotated>, m: Date)
    ensures HasMonth(a + b, m) <==> HasMonth(a, m) || HasMonth(b, m)
  {
    if HasMonth(b, m) {
      var i :| 0 <= i < |b| && Selected(b[i], AllReadings) && MonthOf(b[i]) == m;
      assert (a + b)[|a| + i] == b[i];
    }
    if HasMonth(a, m) {
      var i :| 0 <= i < |a| && Selected(a[i], AllReadings) && MonthOf(a[i]) == m;
      assert (a + b)[i] == a[i];
    }
    if HasMonth(a + b, m) {
      var i :| 0 <= i < |a + b| && Selected((a + b)[i], AllReadings) && MonthOf((a + b)[i]) == m;
      if i >= |a| {
        assert (a + b)[i] == b[i - |a|];
      } else {
        assert (a + b)[i] == a[i];
      }
    }
  }

  /** Monthly sums over every month in which either series has a reading, oldest first. */
  function Monthly(consumption: seq<Annotated>, exports: seq<Annotated>): (r: Series)
    ensures WellFormed(r)
    ensures Increasing(r.dates, DateLess())
    ensures forall m :: m in r.dates <==> HasMonth(consumption, m) || HasMonth(exports, m)
    ensures forall i :: 0 <= i < |r.dates| ==>
      && r.sunlight[i] == TotalFor(consumption, Sunlight, Energy, MonthOf, r.dates[i])
      && r.night[i] == TotalFor(consumption, Night, Energy, MonthOf, r.dates[i])
      && r.exports[i] == TotalFor(exports, AllReadings, Energy, MonthOf, r.dates[i])
  {
    var months := SortedKeys(consumption + exports, AllReadings, MonthOf);
    forall m
      ensures m in months <==> HasMonth(consumption, m) || HasMonth(exports, m)
    {
      HasMonthConcat(consumption, exports, m);
    }
    Series(
      months,
      Groups(consumption, Sunlight, Energy, MonthOf, months),
      Groups(consumption, Night, Energy, MonthOf, months),
      Groups(exports, AllReadings, Energy, MonthOf, months))
  }

  /** The monthly columns lose nothing: sunlight plus night is all consumption, and export is all export. */
  lemma MonthlyIsComplete(consumption: seq<Annotated>, exports: seq<Annotated>)
    ensures var r := Monthly(consumption, exports);
      && SumReals(r.sunlight) + SumReals(r.night) == Total(consumption, AllReadings, Energy)
      && SumReals(r.exports) == Total(exports, AllReadings, Energy)
  {
    var months := Monthly(consumption, exports).dates;
    IncreasingDatesDistinct(months);
    SumOfGroups(consumption, Sunlight, Energy, MonthOf, months);
    SumOfGroups(consumption, Night, Energy, MonthOf, months);
    SumOfGroups(exports, AllReadings, Energy, MonthOf, months);
    PartitionByKey(consumption, Sunlight, Energy, MonthOf, months);
    PartitionByKey(consumption, Night, Energy, MonthOf, months);
    PartitionByKey(exports, AllReadings, Energy, MonthOf, months);
    SunlightNightSplit(consumption, Energy);
  }

  /** The number of daily samples in a trend window. */
  const TrendWindow: nat := 7

  /**
   * `series.rolling(7).mean().dropna()`: the mean of each run of 7 consecutive
   * samples, the first 6 incomplete windows dropped.
   */
  function Rolling(xs: seq<real>): (r: seq<real>)
    ensures |r| == if |xs| >= TrendWindow then |xs| - (TrendWindow - 1) else 0
    ensures forall i :: 0 <= i < |r| ==> r[i] == SumReals(xs[i..i + TrendWindow]) / TrendWindow as real
  {
    if |xs| < TrendWindow then []
    else seq(|xs| - (TrendWindow - 1), i requires 0 <= i < |xs| - (TrendWindow - 1) => SumReals(xs[i..i + TrendWindow]) / TrendWindow as real)
  }

  lemma {:induction false} SumRealsAppend(xs: seq<real>, x: real)
    ensures SumReals(xs + [x]) == SumReals(xs) + x
  {
    if |xs| > 0 {
      assert (xs + [x])[1..] == xs[1..] + [x];
      SumRealsAppend(xs[1..], x);
    }
  }

  /** Each trend value follows from the previous one by swapping one sample in and one out. */
  lemma RollingSlides(xs: seq<real>, i: nat)
    requires i + TrendWindow < |xs|
    ensures Rolling(xs)[i + 1] == Rolling(xs)[i] + (xs[i + TrendWindow] - xs[i]) / TrendWindow as real
  {
    var w := xs[i..i + TrendWindow];
    var next := xs[i + 1..i + 1 + TrendWindow];
    assert xs[i..i + 1 + TrendWindow] == w + [xs[i + TrendWindow]];
    assert xs[i..i + 1 + TrendWindow] == [xs[i]] + next;
    SumRealsAppend(w, xs[i + TrendWindow]);
  }

  lemma {:induction false} SumOfConstant(xs: seq<real>, c: real)
    requires forall i :: 0 <= i < |xs| ==> xs[i] == c
    ensures SumReals(xs) == |xs| as real * c
  {
    if |xs| > 0 {
      SumOfConstant(xs[1..], c);
    }
  }

  /** The trend of a constant series is that constant. */
  lemma RollingOfConstant(xs: seq<real>, c: real)
    requires forall i :: 0 <= i < |xs| ==> xs[i] == c
    ensures forall i :: 0 <= i < |Rolling(xs)| ==> Rolling(xs)[i] == c
  {
    forall i | 0 <= i < |Rolling(xs)|
      ensures Rolling(xs)[i] == c
    {
      SumOfConstant(xs[i..i + TrendWindow], c);
    }
  }

  /** The 7-sample trend of each daily column, dated by the last day of its window. */
  function Trends(daily: Series): (r: Series)
    requires WellFormed(daily)
    ensures WellFormed(r)
    ensures |r.dates| == if |daily.dates| >= TrendWindow then |daily.dates| - (TrendWindow - 1) else 0
    ensures forall i :: 0 <= i < |r.dates| ==> r.dates[i] == daily.dates[i + TrendWindow - 1]
    ensures r.sunlight == Rolling(daily.sunlight) && r.night == Rolling(daily.night) && r.exports == Rolling(daily.exports)
  {
    var dates := if |daily.dates| >= TrendWindow then daily.dates[TrendWindow - 1..] else [];
    Series(dates, Rolling(daily.sunlight), Rolling(daily.night), Rolling(daily.exports))
  }

  /** Hours in one 5-minute meter interval. */
  const IntervalHours: real := 5.0 / 60.0

  /** The dates, oldest first, with a reading of either series in `month`. */
  function DaysOfMonth(all: seq<Annotated>, month: Date): (r: seq<Date>)
    ensures Seqs.NoRepeats(r) && Increasing(r, DateLess())
    ensures forall i :: 0 <= i < |r| ==> MonthStart(r[i]) == month
    ensures forall i :: 0 <= i < |r| ==> exists j :: 0 <= j < |all| && DayOf(all[j]) == r[i]
    ensures forall i :: 0 <= i < |all| && MonthOf(all[i]) == month ==> DayOf(all[i]) in r
  {
    var days := SortedKeys(all, AllReadings, DayOf);
    IncreasingDatesDistinct(days);
    Seqs.FilterDistinct(days, InMonth(month));
    Seqs.FilterIncreasing(days, InMonth(month), DateLess());
    MonthDaysFromReadings(all, month, days);
    MonthDaysCover(all, month, days);
    Seqs.Filter(days, InMonth(month))
  }

  /** Each selected date lies in the month and is the date of some reading. */
  lemma MonthDaysFromReadings(all: seq<Annotated>, month: Date, days: seq<Date>)
    requires days == SortedKeys(all, AllReadings, DayOf)
    ensures var r := Seqs.Filter(days, InMonth(month));
      && (forall i :: 0 <= i < |r| ==> MonthStart(r[i]) == month)
      && (forall i :: 0 <= i < |r| ==> exists j :: 0 <= j < |all| && DayOf(all[j]) == r[i])
  {
    var r := Seqs.Filter(days, InMonth(month));
    forall i | 0 <= i < |r|
      ensures MonthStart(r[i]) == month
      ensures exists j :: 0 <= j < |all| && DayOf(all[j]) == r[i]
    {
      assert r[i] in r;
      assert r[i] in days;
    }
  }

  /** Every reading of the month has its date selected. */
  lemma MonthDaysCover(all: seq<Annotated>, month: Date, days: seq<Date>)
    requires days == SortedKeys(all, AllReadings, DayOf)
    ensures var r := Seqs.Filter(days, InMonth(month));
      forall i :: 0 <= i < |all| && MonthOf(all[i]) == month ==> DayOf(all[i]) in r
  {
    forall i | 0 <= i < |all| && MonthOf(all[i]) == month
      ensures DayOf(all[i]) in Seqs.Filter(days, InMonth(month))
    {
      assert Selected(all[i], AllReadings);
      assert DayOf(all[i]) in days;
      assert InMonth(month)(DayOf(all[i]));
    }
  }

  function InMonth(month: Date): Date -> bool {
    (d: Date) => MonthStart(d) == month
  }

  /** Observed generating hours on each day: generating intervals times 5 minutes. */
  function HoursPerDay(exports: seq<Annotated>, days: seq<Date>): (r: seq<real>)
    ensures |r| == |days|
    ensures SumReals(r) == TotalAcross(exports, Generating, Intervals, DayOf, days) * IntervalHours
  {
    if |days| == 0 then []
    else [TotalFor(exports, Generating, Intervals, DayOf, days[0]) * IntervalHours] + HoursPerDay(exports, days[1..])
  }

  /** Month labels with the average observed generating hours per day of each. */
  datatype MonthlyHours = MonthlyHours(months: seq<Date>, actual: seq<real>)

  /** A month with a reading has at least one day with data. */
  lemma DaysOfMonthNonEmpty(all: seq<Annotated>, month: Date)
    requires HasMonth(all, month)
    ensures |DaysOfMonth(all, month)| > 0
  {
    var i :| 0 <= i < |all| && Selected(all[i], AllReadings) && MonthOf(all[i]) == month;
    assert DayOf(all[i]) in DaysOfMonth(all, month);
  }

  /** The mean of the daily generating hours over `days`. */
  function DailyMean(exports: seq<Annotated>, days: seq<Date>): (r: real)
    requires |days| > 0
    ensures r * |days| as real == SumReals(HoursPerDay(exports, days))
  {
    Mean(SumReals(HoursPerDay(exports, days)), |days|)
  }

  /** The mean of the daily generating hours over the days of `month` that have data. */
  function MonthAverage(all: seq<Annotated>, exports: seq<Annotated>, month: Date): (r: real)
    requires HasMonth(all, month)
  {
    DaysOfMonthNonEmpty(all, month);
    DailyMean(exports, DaysOfMonth(all, month))
  }

  /**
   * Observed generating hours per month: for each month with data, the average
   * over its days of the number of 5-minute intervals exporting more than the
   * generation threshold, in hours.
   */
  function ActualHours(consumption: seq<Annotated>, exports: seq<Annotated>): (r: MonthlyHours)
    ensures |r.actual| == |r.months|
    ensures Increasing(r.months, DateLess())
    ensures forall m :: m in r.months <==> HasMonth(consumption + exports, m)
    ensures forall m :: m in r.months <==> HasMonth(consumption, m) || HasMonth(exports, m)
    ensures forall i :: 0 <= i < |r.months| ==> r.actual[i] == MonthAverage(consumption + exports, exports, r.months[i])
  {
    var all := consumption + exports;
    var months := SortedKeys(all, AllReadings, MonthOf);
    assert forall m :: m in months <==> HasMonth(all, m);
    forall m
      ensures m in months <==> HasMonth(consumption, m) || HasMonth(exports, m)
    {
      HasMonthConcat(consumption, exports, m);
    }
    MonthlyHours(months, seq(|months|, i requires 0 <= i < |months| => MonthAverage(all, exports, months[i])))
  }

  /**
   * A month's average generating hours is the month's count of generating
   * intervals, in hours, shared out over its days with data.
   */
  lemma MonthAverageCountsIntervals(consumption: seq<Annotated>, exports: seq<Annotated>, month: Date)
    requires HasMonth(consumption + exports, month)
    ensures |DaysOfMonth(consumption + exports, month)| > 0
    ensures MonthAverage(consumption + exports, exports, month)
      == Mean(TotalFor(exports, Generating, Intervals, MonthOf, month) * IntervalHours, |DaysOfMonth(consumption + exports, month)|)
  {
    DaysOfMonthNonEmpty(consumption + exports, month);
    MonthHoursAreIntervals(consumption, exports, month);
  }

  lemma MonthHoursAreIntervals(consumption: seq<Annotated>, exports: seq<Annotated>, month: Date)
    ensures SumReals(HoursPerDay(exports, DaysOfMonth(consumption + exports, month)))
      == TotalFor(exports, Generating, Intervals, MonthOf, month) * IntervalHours
  {
    var days := DaysOfMonth(consumption + exports, month);
    ExportDaysCovered(consumption, exports, month);
    MonthFromDays(exports, Generating, Intervals, month, days);
  }

  /**
   * Over distinct days of one month that include every day the month exported
   * on, the mean daily generating hours times the number of days is the
   * month's count of generating intervals, in hours.
   */
  lemma DailyMeanCountsIntervals(exports: seq<Annotated>, month: Date, days: seq<Date>)
    requires |days| > 0 && Seqs.NoRepeats(days)
    requires forall i :: 0 <= i < |days| ==> MonthStart(days[i]) == month
    requires forall j :: 0 <= j < |exports| && Selected(exports[j], Generating) && MonthOf(exports[j]) == month ==>
      DayOf(exports[j]) in days
    ensures DailyMean(exports, days) * |days| as real == TotalFor(exports, Generating, Intervals, MonthOf, month) * IntervalHours
  {
    MonthFromDays(exports, Generating, Intervals, month, days);
  }

  lemma ExportDaysCovered(consumption: seq<Annotated>, exports: seq<Annotated>, month: Date)
    ensures forall j :: 0 <= j < |exports| && Selected(exports[j], Generating) && MonthOf(exports[j]) == month ==>
        DayOf(exports[j]) in DaysOfMonth(consumption + exports, month)
  {
    var all := consumption + exports;
    forall j | 0 <= j < |exports| && Selected(exports[j], Generating) && MonthOf(exports[j]) == month
      ensures DayOf(exports[j]) in DaysOfMonth(all, month)
    {
      assert all[|consumption| + j] == exports[j];
    }
  }
}

=== FILE: seqs.dfy ===
/** Order-preserving filtering of sequences, as done by boolean-mask selection on a table. */
module Seqs {
  import opened Wrappers
  import opened Ordering

  /** The elements of `s` satisfying `p`, in their original order. */
  function Filter<T(!new)>(s: seq<T>, p: T -> bool): (r: seq<T>)
    ensures |r| <= |s|
    ensures forall x :: x in r <==> x in s && p(x)
    ensures IsSubseq(r, s)
  {
    if |s| == 0 then []
    else if p(s[0]) then [s[0]] + Filter(s[1..], p)
    else Filter(s[1..], p)
  }

  /** `s` can be obtained from `t` by deleting elements, without reordering. */
  predicate IsSubseq<T(==)>(s: seq<T>, t: seq<T>)
    decreases |t|
  {
    |s| == 0 ||
    (|t| > 0 && ((s[0] == t[0] && IsSubseq(s[1..], t[1..])) || IsSubseq(s, t[1..])))
  }

  /** Filtering distributes over concatenation. */
  lemma {:induction false} FilterConcat<T(!new)>(a: seq<T>, b: seq<T>, p: T -> bool)
    ensures Filter(a + b, p) == Filter(a, p) + Filter(b, p)
  {
    if |a| > 0 {
      assert (a + b)[1..] == a[1..] + b;
      FilterConcat(a[1..], b, p);
    } else {
      assert a + b == b;
    }
  }

  /** Filtering twice is filtering once by the conjunction of both conditions. */
  lemma {:induction false} FilterTwice<T(!new)>(s: seq<T>, p: T -> bool, q: T -> bool, pq: T -> bool)
    requires forall x :: pq(x) == (p(x) && q(x))
    ensures Filter(Filter(s, p), q) == Filter(s, pq)
  {
    if |s| > 0 {
      FilterTwice(s[1..], p, q, pq);
    }
  }

  /** A filter that every element passes keeps the whole sequence. */
  lemma {:induction false} FilterKeepsAll<T(!new)>(s: seq<T>, p: T -> bool)
    requires forall i :: 0 <= i < |s| ==> p(s[i])
    ensures Filter(s, p) == s
  {
    if |s| > 0 {
      FilterKeepsAll(s[1..], p);
    }
  }

  /** A filter that no element passes keeps nothing. */
  lemma FilterKeepsNone<T(!new)>(s: seq<T>, p: T -> bool)
    requires forall i :: 0 <= i < |s| ==> !p(s[i])
    ensures Filter(s, p) == []
  {
  }

  /** No element of `s` occurs twice. */
  predicate NoRepeats<T(==)>(s: seq<T>) {
    forall i, j :: 0 <= i < j < |s| ==> s[i] != s[j]
  }

  /** Filtering a sequence without repeats leaves one without repeats. */
  lemma {:induction false} FilterDistinct<T(!new)>(s: seq<T>, p: T -> bool)
    requires NoRepeats(s)
    ensures NoRepeats(Filter(s, p))
  {
    if |s| > 0 {
      assert NoRepeats(s[1..]) by {
        forall i, j | 0 <= i < j < |s[1..]|
          ensures s[1..][i] != s[1..][j]
        {
          assert s[1..][i] == s[i + 1] && s[1..][j] == s[j + 1];
        }
      }
      FilterDistinct(s[1..], p);
      var rest := Filter(s[1..], p);
      assert s[0] !in s[1..];
      if p(s[0]) {
        var r := [s[0]] + rest;
        forall i, j | 0 <= i < j < |r|
          ensures r[i] != r[j]
        {
          assert r[j] == rest[j - 1] && rest[j - 1] in rest;
          if i > 0 {
            assert r[i] == rest[i - 1];
          }
        }
      }
    }
  }

  /** Filtering keeps every occurrence of a kept element and none of the others. */
  lemma {:induction false} FilterCounts<T(!new)>(s: seq<T>, p: T -> bool)
    ensures forall x :: multiset(Filter(s, p))[x] == if p(x) then multiset(s)[x] else 0
  {
    if |s| > 0 {
      FilterCounts(s[1..], p);
      assert s == [s[0]] + s[1..];
      assert multiset(s) == multiset{s[0]} + multiset(s[1..]);
      if p(s[0]) {
        assert multiset(Filter(s, p)) == multiset{s[0]} + multiset(Filter(s[1..], p));
      }
    }
  }

  /** Filtering an increasing sequence leaves an increasing one. */
  lemma {:induction false} FilterIncreasing<T(!new)>(s: seq<T>, p: T -> bool, lt: (T, T) -> bool)
    requires Increasing(s, lt)
    ensures Increasing(Filter(s, p), lt)
  {
    if |s| > 0 {
      assert Increasing(s[1..], lt) by {
        forall i, j | 0 <= i < j < |s[1..]|
          ensures lt(s[1..][i], s[1..][j])
        {
          assert s[1..][i] == s[i + 1] && s[1..][j] == s[j + 1];
        }
      }
      FilterIncreasing(s[1..], p, lt);
      var rest := Filter(s[1..], p);
      if p(s[0]) {
        var r := [s[0]] + rest;
        forall i, j | 0 <= i < j < |r|
          ensures lt(r[i], r[j])
        {
          assert r[j] == rest[j - 1] && rest[j - 1] in rest;
          if i == 0 {
            var k :| 0 <= k < |s[1..]| && s[1..][k] == r[j];
            assert s[k + 1] == r[j];
          } else {
            assert r[i] == rest[i - 1];
          }
        }
      }
    }
  }

  /** Appending to the longer sequence keeps a subsequence one. */
  lemma {:induction false} SubseqExtend<T>(a: seq<T>, b: seq<T>, x: T)
    requires IsSubseq(a, b)
    ensures IsSubseq(a, b + [x])
    decreases |b|
  {
    if |a| > 0 {
      assert (b + [x])[1..] == b[1..] + [x];
      if a[0] == b[0] && IsSubseq(a[1..], b[1..]) {
        SubseqExtend(a[1..], b[1..], x);
      } else {
        SubseqExtend(a, b[1..], x);
      }
    }
  }

  /** Appending the same element to both keeps a subsequence one. */
  lemma {:induction false} SubseqSnoc<T>(a: seq<T>, b: seq<T>, x: T)
    requires IsSubseq(a, b)
    ensures IsSubseq(a + [x], b + [x])
    decreases |b|
  {
    if |b| > 0 {
      assert (b + [x])[1..] == b[1..] + [x];
    }
    if |a| == 0 {
      if |b| > 0 {
        SubseqSnoc(a, b[1..], x);
      } else {
        assert (a + [x])[1..] == [];
      }
    } else {
      assert (a + [x])[1..] == a[1..] + [x];
      if a[0] == b[0] && IsSubseq(a[1..], b[1..]) {
        SubseqSnoc(a[1..], b[1..], x);
      } else {
        SubseqSnoc(a, b[1..], x);
      }
    }
  }

  /** A prefix of a subsequence is a subsequence. */
  lemma {:induction false} SubseqPrefix<T>(a: seq<T>, b: seq<T>, n: nat)
    requires IsSubseq(a, b) && n <= |a|
    ensures IsSubseq(a[..n], b)
    decreases |b|
  {
    if n > 0 {
      if a[0] == b[0] && IsSubseq(a[1..], b[1..]) {
        SubseqPrefix(a[1..], b[1..], n - 1);
        assert a[..n][1..] == a[1..][..n - 1];
      } else {
        SubseqPrefix(a, b[1..], n);
      }
    }
  }

  /** A subsequence of a prefix is a subsequence of the whole. */
  lemma {:induction false} SubseqOfPrefix<T>(a: seq<T>, b: seq<T>, n: nat)
    requires n <= |b| && IsSubseq(a, b[..n])
    ensures IsSubseq(a, b)
    decreases |b| - n
  {
    if n < |b| {
      assert b[..n + 1] == b[..n] + [b[n]];
      SubseqExtend(a, b[..n], b[n]);
      SubseqOfPrefix(a, b, n + 1);
    } else {
      assert b[..n] == b;
    }
  }

  /** The values `f` yields on the elements of `s`, in order, skipping those it maps to `None`. */
  function FilterMap<A, B>(s: seq<A>, f: A -> Option<B>): (r: seq<B>)
    ensures |r| <= |s|
  {
    if |s| == 0 then []
    else
      var last := f(s[|s| - 1]);
      FilterMap(s[..|s| - 1], f) + (if last.Some? then [last.value] else [])
  }

  /** An element is kept exactly when `f` yields it for some element of `s`. */
  lemma {:induction false} FilterMapMembers<A, B>(s: seq<A>, f: A -> Option<B>)
    ensures forall b :: b in FilterMap(s, f) <==> exists i :: 0 <= i < |s| && f(s[i]) == Some(b)
  {
    if |s| > 0 {
      var n := |s| - 1;
      var init := s[..n];
      FilterMapMembers(init, f);
      assert forall i :: 0 <= i < n ==> init[i] == s[i];
      forall b
        ensures b in FilterMap(s, f) <==> exists i :: 0 <= i < |s| && f(s[i]) == Some(b)
      {
        if exists i :: 0 <= i < |s| && f(s[i]) == Some(b) {
          var i :| 0 <= i < |s| && f(s[i]) == Some(b);
          assert i < n ==> init[i] == s[i];
        }
      }
    }
  }
}

=== FILE: summary.dfy ===
/** The headline numbers of the dashboard (app.py `get_summary_stats`). */
module Summary {
  import opened Dates
  import opened Meter
  import opened Sums

  datatype Stats = Stats(
    sunlightConsumption: real,
    nightConsumption: real,
    totalConsumption: real,
    freeWindowConsumption: real,
    paidSunlightConsumption: real,
    sunlightExports: real,
    totalExports: real,
    numDays: nat,
    avgDailyConsumption: real,
    avgDailyExport: real,
    sunlightPct: real,
    nightPct: real,
    freeWindowPct: real)

  /** The distinct dates of the readings. */
  function Days(s: seq<Annotated>): set<Date> {
    set i | 0 <= i < |s| :: DayOf(s[i])
  }

  lemma {:induction false} DaysCount(s: seq<Annotated>)
    ensures |Days(s)| <= |s|
    ensures |s| > 0 ==> |Days(s)| >= 1
  {
    if |s| > 0 {
      DaysCount(s[1..]);
      assert Days(s) == {DayOf(s[0])} + Days(s[1..]) by {
        forall d | d in Days(s)
          ensures d in {DayOf(s[0])} + Days(s[1..])
        {
          var i :| 0 <= i < |s| && DayOf(s[i]) == d;
          if i > 0 {
            assert DayOf(s[1..][i - 1]) == d;
          }
        }
        forall d | d in Days(s[1..])
          ensures d in Days(s)
        {
          var i :| 0 <= i < |s[1..]| && DayOf(s[1..][i]) == d;
          assert DayOf(s[i + 1]) == d;
        }
      }
      assert DayOf(s[0]) in Days(s);
    }
  }

  /** `100 * part / whole`, or 0 when the whole is not positive. */
  function Percent(part: real, whole: real): (r: real)
    ensures whole <= 0.0 ==> r == 0.0
    ensures whole > 0.0 ==> r * whole == 100.0 * part
  {
    if whole > 0.0 then 100.0 * part / whole else 0.0
  }

  lemma PercentsAdd(a: real, b: real, whole: real)
    requires whole > 0.0 && a + b == whole
    ensures Percent(a, whole) + Percent(b, whole) == 100.0
  {
    assert (Percent(a, whole) + Percent(b, whole)) * whole == 100.0 * whole;
  }

  lemma PercentBounds(part: real, whole: real)
    requires 0.0 <= part <= whole
    ensures 0.0 <= Percent(part, whole) <= 100.0
  {
    if whole > 0.0 {
      assert Percent(part, whole) * whole <= 100.0 * whole;
    }
  }

  lemma SummaryFacts(consumption: seq<Annotated>, exports: seq<Annotated>)
    ensures var sunlight := Total(consumption, Sunlight, Energy);
      var night := Total(consumption, Night, Energy);
      var total := Total(consumption, AllReadings, Energy);
      var free := Total(consumption, FreeWindowOnly, Energy);
      && sunlight + night == total
      && (total > 0.0 ==> Percent(sunlight, total) + Percent(night, total) == 100.0)
      && (NonNegative(consumption) ==>
        && 0.0 <= Total(consumption, PaidSunlight, Energy) <= sunlight
        && 0.0 <= free <= total
        && 0.0 <= Percent(sunlight, total) <= 100.0
        && 0.0 <= Percent(night, total) <= 100.0
        && 0.0 <= Percent(free, total) <= 100.0)
      && (NonNegative(exports) ==> 0.0 <= Total(exports, Sunlight, Energy) <= Total(exports, AllReadings, Energy))
  {
    var sunlight := Total(consumption, Sunlight, Energy);
    var night := Total(consumption, Night, Energy);
    var total := Total(consumption, AllReadings, Energy);
    var free := Total(consumption, FreeWindowOnly, Energy);
    SunlightNightSplit(consumption, Energy);
    if total > 0.0 {
      PercentsAdd(sunlight, night, total);
    }
    if NonNegative(consumption) {
      NarrowerSelectionIsSmaller(consumption, PaidSunlight, Sunlight, Energy);
      NarrowerSelectionIsSmaller(consumption, FreeWindowOnly, AllReadings, Energy);
      NarrowerSelectionIsSmaller(consumption, Sunlight, AllReadings, Energy);
      NarrowerSelectionIsSmaller(consumption, Night, AllReadings, Energy);
      PercentBounds(sunlight, total);
      PercentBounds(night, total);
      PercentBounds(free, total);
    }
    if NonNegative(exports) {
      NarrowerSelectionIsSmaller(exports, Sunlight, AllReadings, Energy);
    }
  }

  /** Assembles the statistics record from the sums and the number of days. */
  function StatsOf(sunlight: real, night: real, total: real, free: real, paid: real,
                   sunlightExports: real, totalExports: real, numDays: nat): (r: Stats)
    requires numDays > 0
    ensures r.numDays > 0
    ensures r.avgDailyConsumption == Mean(r.totalConsumption, r.numDays)
    ensures r.avgDailyExport == Mean(r.totalExports, r.numDays)
    ensures r.sunlightPct == Percent(sunlight, total) && r.nightPct == Percent(night, total)
    ensures r.freeWindowPct == Percent(free, total)
    ensures r.sunlightConsumption == sunlight && r.nightConsumption == night && r.totalConsumption == total
    ensures r.freeWindowConsumption == free && r.paidSunlightConsumption == paid
    ensures r.sunlightExports == sunlightExports && r.totalExports == totalExports && r.numDays == numDays
  {
    Stats(
      sunlight, night, total, free, paid, sunlightExports, totalExports, numDays,
      Mean(total, numDays), Mean(totalExports, numDays),
      Percent(sunlight, total), Percent(night, total), Percent(free, total))
  }

  /**
   * Summary statistics of the consumption and export readings of the analysis
   * period. The per-day averages divide by the number of distinct consumption
   * dates, which must not be zero.
   */
  function SummaryStats(consumption: seq<Annotated>, exports: seq<Annotated>): (r: Stats)
    requires |consumption| > 0
    ensures r.sunlightConsumption + r.nightConsumption == r.totalConsumption
    ensures r.totalConsumption == Total(consumption, AllReadings, Energy)
    ensures r.totalExports == Total(exports, AllReadings, Energy)
    ensures r.sunlightConsumption == Total(consumption, Sunlight, Energy)
    ensures r.nightConsumption == Total(consumption, Night, Energy)
    ensures r.freeWindowConsumption == Total(consumption, FreeWindowOnly, Energy)
    ensures r.paidSunlightConsumption == Total(consumption, PaidSunlight, Energy)
    ensures r.sunlightExports == Total(exports, Sunlight, Energy)
    ensures r.numDays == |Days(consumption)| && 1 <= r.numDays <= |consumption|
    ensures r.sunlightPct == Percent(r.sunlightConsumption, r.totalConsumption)
    ensures r.nightPct == Percent(r.nightConsumption, r.totalConsumption)
    ensures r.freeWindowPct == Percent(r.freeWindowConsumption, r.totalConsumption)
    ensures r.avgDailyConsumption == Mean(r.totalConsumption, r.numDays)
    ensures r.avgDailyExport == Mean(r.totalExports, r.numDays)
    ensures r.totalConsumption <= 0.0 ==> r.sunlightPct == 0.0 && r.nightPct == 0.0 && r.freeWindowPct == 0.0
    ensures r.totalConsumption > 0.0 ==> r.sunlightPct + r.nightPct == 100.0
    ensures NonNegative(consumption) ==>
      && 0.0 <= r.paidSunlightConsumption <= r.sunlightConsumption
      && 0.0 <= r.freeWindowConsumption <= r.totalConsumption
      && 0.0 <= r.sunlightPct <= 100.0 && 0.0 <= r.nightPct <= 100.0 && 0.0 <= r.freeWindowPct <= 100.0
    ensures NonNegative(exports) ==> 0.0 <= r.sunlightExports <= r.totalExports
  {
    var sunlight := Total(consumption, Sunlight, Energy);
    var night := Total(consumption, Night, Energy);
    var total := Total(consumption, AllReadings, Energy);
    var free := Total(consumption, FreeWindowOnly, Energy);
    var paid := Total(consumption, PaidSunlight, Energy);
    var sunlightExports := Total(exports, Sunlight, Energy);
    var totalExports := Total(exports, AllReadings, Energy);
    DaysCount(consumption);
    var numDays := |Days(consumption)|;
    SummaryFacts(consumption, exports);
    StatsOf(sunlight, night, total, free, paid, sunlightExports, totalExports, numDays)
  }
}

=== FILE: sums.dfy ===
/**
 * Conditional sums over annotated readings: the `series[mask].sum()` and
 * `groupby(key).sum()` / `.size()` of the source, and the fact that summing the
 * groups of a partition gives the sum of the whole.
 */
module Sums {
  import opened Dates
  import opened Meter

  /** Which readings a sum runs over (the boolean masks of the source). */
  datatype Sel = AllReadings | Sunlight | Night | FreeWindowOnly | PaidSunlight | Generating

  predicate Selected(a: Annotated, sel: Sel) {
    match sel
    case AllReadings => true
    case Sunlight => a.isSunlight
    case Night => !a.isSunlight
    case FreeWindowOnly => a.isFreeWindow
    case PaidSunlight => a.isSunlight && !a.isFreeWindow
    case Generating => IsGenerating(a.reading)
  }

  /** What is summed: energy in kWh, or the number of readings. */
  datatype Measure = Energy | Intervals

  function Value(a: Annotated, m: Measure): real {
    match m
    case Energy => a.reading.quantity
    case Intervals => 1.0
  }

  /** Every reading's quantity is non-negative, as meter quantities are. */
  ghost predicate NonNegative(s: seq<Annotated>) {
    forall i :: 0 <= i < |s| ==> s[i].reading.quantity >= 0.0
  }

  function Total(s: seq<Annotated>, sel: Sel, m: Measure): real {
    if |s| == 0 then 0.0
    else (if Selected(s[0], sel) then Value(s[0], m) else 0.0) + Total(s[1..], sel, m)
  }

  /** The sum over the selected readings whose `key` is `k`: one group of a group-by. */
  function TotalFor<K(==)>(s: seq<Annotated>, sel: Sel, m: Measure, key: Annotated -> K, k: K): real {
    if |s| == 0 then 0.0
    else (if Selected(s[0], sel) && key(s[0]) == k then Value(s[0], m) else 0.0) + TotalFor(s[1..], sel, m, key, k)
  }

  /** The group sums for each key of `ks`, added up. */
  function TotalAcross<K(==)>(s: seq<Annotated>, sel: Sel, m: Measure, key: Annotated -> K, ks: seq<K>): real {
    if |ks| == 0 then 0.0 else TotalFor(s, sel, m, key, ks[0]) + TotalAcross(s, sel, m, key, ks[1..])
  }

  function DayOf(a: Annotated): Date {
    a.reading.at.date
  }

  function MonthOf(a: Annotated): Date {
    MonthStart(a.reading.at.date)
  }

  function HourOf(a: Annotated): int {
    a.reading.at.hour
  }

  /** Sunlight and night readings partition every sum. */
  lemma {:induction false} SunlightNightSplit(s: seq<Annotated>, m: Measure)
    ensures Total(s, Sunlight, m) + Total(s, Night, m) == Total(s, AllReadings, m)
  {
    if |s| > 0 {
      SunlightNightSplit(s[1..], m);
    }
  }

  /** Narrowing the selection cannot increase a sum of non-negative values. */
  lemma {:induction false} NarrowerSelectionIsSmaller(s: seq<Annotated>, narrow: Sel, wide: Sel, m: Measure)
    requires forall i :: 0 <= i < |s| ==> Selected(s[i], narrow) ==> Selected(s[i], wide)
    requires m == Energy ==> NonNegative(s)
    ensures 0.0 <= Total(s, narrow, m) <= Total(s, wide, m)
  {
    if |s| > 0 {
      NarrowerSelectionIsSmaller(s[1..], narrow, wide, m);
    }
  }

  /** A group with no readings sums to zero. */
  lemma {:induction false} EmptyGroupIsZero<K>(s: seq<Annotated>, sel: Sel, key: Annotated -> K, k: K)
    requires TotalFor(s, sel, Intervals, key, k) == 0.0
    ensures TotalFor(s, sel, Energy, key, k) == 0.0
  {
    if |s| > 0 {
      TotalForNonNegativeCount(s[1..], sel, key, k);
      EmptyGroupIsZero(s[1..], sel, key, k);
    }
  }

  lemma {:induction false} TotalForNonNegativeCount<K>(s: seq<Annotated>, sel: Sel, key: Annotated -> K, k: K)
    ensures TotalFor(s, sel, Intervals, key, k) >= 0.0
  {
    if |s| > 0 {
      TotalForNonNegativeCount(s[1..], sel, key, k);
    }
  }

  lemma {:induction false} AcrossNothing<K>(sel: Sel, m: Measure, key: Annotated -> K, ks: seq<K>)
    ensures TotalAcross([], sel, m, key, ks) == 0.0
  {
    if |ks| > 0 {
      AcrossNothing(sel, m, key, ks[1..]);
    }
  }

  /** Peeling the first reading off every group of distinct keys. */
  lemma {:induction false} AcrossFirst<K>(s: seq<Annotated>, sel: Sel, m: Measure, key: Annotated -> K, ks: seq<K>)
    requires |s| > 0
    requires forall i, j :: 0 <= i < j < |ks| ==> ks[i] != ks[j]
    ensures TotalAcross(s, sel, m, key, ks) ==
      TotalAcross(s[1..], sel, m, key, ks) + (if Selected(s[0], sel) && key(s[0]) in ks then Value(s[0], m) else 0.0)
  {
    if |ks| > 0 {
      AcrossFirst(s, sel, m, key, ks[1..]);
      assert key(s[0]) in ks <==> key(s[0]) == ks[0] || key(s[0]) in ks[1..];
      assert key(s[0]) == ks[0] ==> key(s[0]) !in ks[1..];
    }
  }

  /**
   * Summing the groups of all keys that occur gives the total: a group-by loses
   * and duplicates nothing.
   */
  lemma {:induction false} PartitionByKey<K>(s: seq<Annotated>, sel: Sel, m: Measure, key: Annotated -> K, ks: seq<K>)
    requires forall i, j :: 0 <= i < j < |ks| ==> ks[i] != ks[j]
    requires forall i :: 0 <= i < |s| && Selected(s[i], sel) ==> key(s[i]) in ks
    ensures TotalAcross(s, sel, m, key, ks) == Total(s, sel, m)
  {
    if |s| == 0 {
      AcrossNothing(sel, m, key, ks);
    } else {
      AcrossFirst(s, sel, m, key, ks);
      PartitionByKey(s[1..], sel, m, key, ks);
    }
  }

  /** The keys of the selected readings, in reading order (with repeats). */
  function KeysOf<K(!new,==)>(s: seq<Annotated>, sel: Sel, key: Annotated -> K): (r: seq<K>)
    ensures forall k :: k in r <==> exists i :: 0 <= i < |s| && Selected(s[i], sel) && key(s[i]) == k
  {
    if |s| == 0 then []
    else
      var rest := KeysOf(s[1..], sel, key);
      assert forall i :: 1 <= i < |s| ==> s[i] == s[1..][i - 1];
      if Selected(s[0], sel) then [key(s[0])] + rest else rest
  }

  /** The group sum of each key of `ks`, in the order of `ks`. */
  function Groups<K(==)>(s: seq<Annotated>, sel: Sel, m: Measure, key: Annotated -> K, ks: seq<K>): (r: seq<real>)
    ensures |r| == |ks|
    ensures forall i :: 0 <= i < |ks| ==> r[i] == TotalFor(s, sel, m, key, ks[i])
  {
    if |ks| == 0 then [] else [TotalFor(s, sel, m, key, ks[0])] + Groups(s, sel, m, key, ks[1..])
  }

  function SumReals(xs: seq<real>): real {
    if |xs| == 0 then 0.0 else xs[0] + SumReals(xs[1..])
  }

  lemma {:induction false} SumOfGroups<K>(s: seq<Annotated>, sel: Sel, m: Measure, key: Annotated -> K, ks: seq<K>)
    ensures SumReals(Groups(s, sel, m, key, ks)) == TotalAcross(s, sel, m, key, ks)
  {
    if |ks| > 0 {
      assert Groups(s, sel, m, key, ks)[1..] == Groups(s, sel, m, key, ks[1..]);
      SumOfGroups(s, sel, m, key, ks[1..]);
    }
  }

  /**
   * The days of one month partition that month: adding up the day groups of a
   * month's days gives the month's group.
   */
  lemma {:induction false} MonthFromDays(s: seq<Annotated>, sel: Sel, m: Measure, month: Date, days: seq<Date>)
    requires forall i, j :: 0 <= i < j < |days| ==> days[i] != days[j]
    requires forall i :: 0 <= i < |days| ==> MonthStart(days[i]) == month
    requires forall i :: 0 <= i < |s| && Selected(s[i], sel) && MonthOf(s[i]) == month ==> DayOf(s[i]) in days
    ensures TotalAcross(s, sel, m, DayOf, days) == TotalFor(s, sel, m, MonthOf, month)
  {
    if |s| == 0 {
      AcrossNothing(sel, m, DayOf, days);
    } else {
      AcrossFirst(s, sel, m, DayOf, days);
      MonthFromDays(s[1..], sel, m, month, days);
    }
  }

  /** The sum over the selected readings whose date satisfies `p`. */
  function TotalWhere(s: seq<Annotated>, sel: Sel, m: Measure, p: Date -> bool): real {
    if |s| == 0 then 0.0
    else (if Selected(s[0], sel) && p(DayOf(s[0])) then Value(s[0], m) else 0.0) + TotalWhere(s[1..], sel, m, p)
  }

  /**
   * Summing the daily groups of distinct dates that satisfy `p` and cover every
   * selected reading whose date does gives the total over those readings.
   */
  lemma {:induction false} DatesFromDays(s: seq<Annotated>, sel: Sel, m: Measure, p: Date -> bool, days: seq<Date>)
    requires forall i, j :: 0 <= i < j < |days| ==> days[i] != days[j]
    requires forall i :: 0 <= i < |days| ==> p(days[i])
    requires forall i :: 0 <= i < |s| && Selected(s[i], sel) && p(DayOf(s[i])) ==> DayOf(s[i]) in days
    ensures TotalAcross(s, sel, m, DayOf, days) == TotalWhere(s, sel, m, p)
  {
    if |s| == 0 {
      AcrossNothing(sel, m, DayOf, days);
    } else {
      AcrossFirst(s, sel, m, DayOf, days);
      DatesFromDays(s[1..], sel, m, p, days);
    }
  }

  /** The arithmetic mean of `n` values summing to `total`. */
  function Mean(total: real, n: nat): (r: real)
    requires n > 0
    ensures r * n as real == total
  {
    total / n as real
  }
}

=== FILE: text.dfy ===
/**
 * The few Python string operations the core relies on, restricted to ASCII:
 * `str.strip`, `str.lower`, `str.isdigit`, `str.zfill`, the `in` substring test
 * and `int()` on a decimal literal.
 */
module Text {
  import opened Wrappers

  /** The ASCII characters for which Python's `str.isspace()` holds. */
  predicate IsSpace(c: char) {
    c == ' ' || ('\t' <= c <= '\r') || ('\U{1C}' <= c <= '\U{1F}')
  }

  predicate IsDigit(c: char) {
    '0' <= c <= '9'
  }

  /** `s.lstrip()`: drops leading white space. */
  function StripLeft(s: string): (r: string)
    ensures |r| <= |s| && r == s[|s| - |r|..]
    ensures forall i :: 0 <= i < |s| - |r| ==> IsSpace(s[i])
    ensures |r| == 0 || !IsSpace(r[0])
  {
    if |s| > 0 && IsSpace(s[0]) then StripLeft(s[1..]) else s
  }

  /** `s.rstrip()`: drops trailing white space. */
  function StripRight(s: string): (r: string)
    ensures |r| <= |s| && r == s[..|r|]
    ensures forall i :: |r| <= i < |s| ==> IsSpace(s[i])
    ensures |r| == 0 || !IsSpace(r[|r| - 1])
  {
    if |s| > 0 && IsSpace(s[|s| - 1]) then StripRight(s[..|s| - 1]) else s
  }

  /** `s.strip()`. */
  function Strip(s: string): (r: string)
    ensures |r| == 0 || (!IsSpace(r[0]) && !IsSpace(r[|r| - 1]))
  {
    StripRight(StripLeft(s))
  }

  /** Stripping keeps a middle slice of `s` and removes only white space on either side of it. */
  lemma StripTrims(s: string)
    ensures exists i, j ::
      && 0 <= i <= j <= |s| && Strip(s) == s[i..j]
      && (forall k :: 0 <= k < i ==> IsSpace(s[k]))
      && (forall k :: j <= k < |s| ==> IsSpace(s[k]))
  {
    var left := StripLeft(s);
    var r := StripRight(left);
    var i := |s| - |left|;
    assert left == s[i..];
    assert r == s[i..i + |r|];
    assert forall k :: i + |r| <= k < |s| ==> s[k] == left[k - i];
  }

  /** Stripping a string with no white space at either end changes nothing. */
  lemma StripUnchanged(s: string)
    requires |s| == 0 || (!IsSpace(s[0]) && !IsSpace(s[|s| - 1]))
    ensures Strip(s) == s
  {
  }

  lemma StripIdempotent(s: string)
    ensures Strip(Strip(s)) == Strip(s)
  {
    StripUnchanged(Strip(s));
  }

  function LowerChar(c: char): char {
    if 'A' <= c <= 'Z' then (c as int + 32) as char else c
  }

  /** `s.lower()` on ASCII letters. */
  function Lower(s: string): (r: string)
    ensures |r| == |s|
    ensures forall i :: 0 <= i < |s| ==> r[i] == LowerChar(s[i])
  {
    if |s| == 0 then [] else [LowerChar(s[0])] + Lower(s[1..])
  }

  /** `s.isdigit()`: non-empty and every character a decimal digit. */
  predicate IsDigits(s: string) {
    |s| > 0 && forall i :: 0 <= i < |s| ==> IsDigit(s[i])
  }

  function Zeros(n: nat): (r: string)
    ensures |r| == n
    ensures forall i :: 0 <= i < n ==> r[i] == '0'
  {
    if n == 0 then [] else ['0'] + Zeros(n - 1)
  }

  /**
   * `s.zfill(width)`: pads with '0' on the left to `width` characters, placing the
   * zeros after a leading sign.
   */
  function ZFill(s: string, width: nat): (r: string)
    ensures |r| == if |s| >= width then |s| else width
    ensures |s| >= width ==> r == s
    ensures |s| < width && (|s| == 0 || (s[0] != '+' && s[0] != '-')) ==> r == Zeros(width - |s|) + s
    ensures |s| < width && |s| > 0 && (s[0] == '+' || s[0] == '-') ==> r[0] == s[0] && r[1..] == Zeros(width - |s|) + s[1..]
  {
    if |s| >= width then s
    else if |s| > 0 && (s[0] == '+' || s[0] == '-') then [s[0]] + Zeros(width - |s|) + s[1..]
    else Zeros(width - |s|) + s
  }

  /** A sign stays in front of the padding: `"-1"` padded to four is `"-001"`. */
  lemma ZFillKeepsSign()
    ensures ZFill("-1", 4) == "-001"
  {
    assert Zeros(2) == "00";
  }

  /** Padding to a width the string already has is the identity. */
  lemma ZFillIdempotent(s: string, width: nat)
    ensures ZFill(ZFill(s, width), width) == ZFill(s, width)
  {
  }

  /** Zero-filling puts no white space at either end of a string that had none there. */
  lemma ZFillNoSpaceEnds(s: string, width: nat)
    requires |s| == 0 || (!IsSpace(s[0]) && !IsSpace(s[|s| - 1]))
    ensures var z := ZFill(s, width);
      |z| == 0 || (!IsSpace(z[0]) && !IsSpace(z[|z| - 1]))
  {
    var z := ZFill(s, width);
    if |s| < width {
      var zeros := Zeros(width - |s|);
      if |s| > 0 && (s[0] == '+' || s[0] == '-') {
        assert z == [s[0]] + zeros + s[1..];
        assert z[|z| - 1] == if |s| > 1 then s[|s| - 1] else zeros[|zeros| - 1];
      } else {
        assert z == zeros + s;
        assert z[0] == zeros[0];
        assert z[|z| - 1] == if |s| > 0 then s[|s| - 1] else zeros[|zeros| - 1];
      }
    }
  }

  /** `needle in hay` for strings: `needle` occurs at `at` in `hay`. */
  predicate OccursAt(needle: string, hay: string, at: int) {
    0 <= at && at + |needle| <= |hay| && hay[at..at + |needle|] == needle
  }

  /** Python's substring test `needle in hay`. */
  function Contains(hay: string, needle: string): (r: bool)
    ensures r <==> exists at :: OccursAt(needle, hay, at)
    decreases |hay|
  {
    if |needle| > |hay| then false
    else if hay[..|needle|] == needle then
      assert OccursAt(needle, hay, 0);
      true
    else
      var rest := Contains(hay[1..], needle);
      assert forall at :: OccursAt(needle, hay[1..], at) ==> OccursAt(needle, hay, at + 1) by {
        forall at | OccursAt(needle, hay[1..], at)
          ensures OccursAt(needle, hay, at + 1)
        {
          assert hay[1..][at..at + |needle|] == hay[at + 1..at + 1 + |needle|];
        }
      }
      assert forall at :: OccursAt(needle, hay, at) && at > 0 ==> OccursAt(needle, hay[1..], at - 1) by {
        forall at | OccursAt(needle, hay, at) && at > 0
          ensures OccursAt(needle, hay[1..], at - 1)
        {
          assert hay[1..][at - 1..at - 1 + |needle|] == hay[at..at + |needle|];
        }
      }
      rest
  }

  function DigitValue(c: char): int
    requires IsDigit(c)
  {
    c as int - '0' as int
  }

  /**
   * Digits with single underscores between them, the body of a decimal
   * literal `int()` accepts.
   */
  predicate IsDigitGroups(s: string) {
    && |s| > 0
    && IsDigit(s[0]) && IsDigit(s[|s| - 1])
    && (forall i :: 0 <= i < |s| ==> IsDigit(s[i]) || s[i] == '_')
    && (forall i :: 0 <= i < |s| - 1 ==> s[i] == '_' ==> s[i + 1] != '_')
  }

  /** The number written by the digits of `s`, underscores ignored. */
  function DigitsValue(s: string): (n: nat)
    requires forall i :: 0 <= i < |s| ==> IsDigit(s[i]) || s[i] == '_'
  {
    if |s| == 0 then 0
    else
      var last := s[|s| - 1];
      if last == '_' then DigitsValue(s[..|s| - 1])
      else 10 * DigitsValue(s[..|s| - 1]) + DigitValue(last)
  }

  /** `int(s)` for base 10: `None` where Python raises `ValueError`. */
  function ParseInt(s: string): (r: Option<int>)
    ensures r.Some? ==> |Strip(s)| > 0
    ensures IsDigits(Strip(s)) ==> r == Some(DigitsValue(Strip(s)))
  {
    var t := Strip(s);
    if |t| > 0 && (t[0] == '+' || t[0] == '-') then
      var body := t[1..];
      if IsDigitGroups(body) then
        var n: int := DigitsValue(body);
        Some(if t[0] == '-' then -n else n)
      else None
    else if IsDigitGroups(t) then Some(DigitsValue(t))
    else None
  }
}

=== FILE: timezones.dfy ===
/** The time zone the sunrise and sunset calculation uses for a location's state. */
module Timezones {
  import opened Postcodes

  const DefaultTimezone: string := "Australia/Melbourne"

  /** The IANA zone of each state and territory code. */
  const Zones: map<string, string> := map[
    "NSW" := "Australia/Sydney",
    "VIC" := "Australia/Melbourne",
    "QLD" := "Australia/Brisbane",
    "SA" := "Australia/Adelaide",
    "WA" := "Australia/Perth",
    "TAS" := "Australia/Hobart",
    "NT" := "Australia/Darwin",
    "ACT" := "Australia/Sydney"]

  /** The zone for `state`, Melbourne's for a code the table does not know. */
  function TimezoneFor(state: string): (r: string)
    ensures state in Zones ==> r == Zones[state]
    ensures state !in Zones ==> r == DefaultTimezone
  {
    if state in Zones then Zones[state] else DefaultTimezone
  }

  /** Every state code the postcode table offers has its own entry, so none falls back. */
  lemma EveryStateHasAZone()
    ensures forall i :: 0 <= i < |States()| ==> States()[i] in Zones
    ensures forall s :: s in Zones <==> s in States()
  {
  }

  /** The capital territory shares New South Wales' zone. */
  lemma CanberraUsesSydneyTime()
    ensures TimezoneFor("ACT") == TimezoneFor("NSW") == "Australia/Sydney"
  {
  }
}

=== FILE: uploads.dfy ===
/** The upload form's file-name check. */
module Uploads {
  import opened Wrappers
  import opened Text

  /** The extensions an upload may have, compared in lower case. */
  const AllowedExtensions: set<string> := {"csv"}

  /** The position of the last '.' in `s`, if any. */
  function LastDot(s: string): (r: Option<nat>)
    ensures r.None? <==> '.' !in s
    ensures r.Some? ==> r.value < |s| && s[r.value] == '.' && forall i :: r.value < i < |s| ==> s[i] != '.'
  {
    if |s| == 0 then None
    else if s[|s| - 1] == '.' then Some(|s| - 1)
    else
      assert s == s[..|s| - 1] + [s[|s| - 1]];
      LastDot(s[..|s| - 1])
  }

  /**
   * `allowed_file`: the name contains a '.' and the text after the last one,
   * lower-cased, is an allowed extension.
   */
  function AllowedFile(name: string): (r: bool)
    ensures r ==> '.' in name
    ensures '.' in name ==> (r <==> Lower(name[LastDot(name).value + 1..]) in AllowedExtensions)
  {
    match LastDot(name)
    case None => false
    case Some(dot) => Lower(name[dot + 1..]) in AllowedExtensions
  }

  /** A name is accepted exactly when it ends in '.' and three letters spelling "csv" in any case. */
  lemma AllowedFileIsCsvSuffix(name: string)
    ensures AllowedFile(name) <==> |name| >= 4 && name[|name| - 4] == '.' && Lower(name[|name| - 3..]) == "csv"
  {
    if AllowedFile(name) {
      var dot := LastDot(name).value;
      assert |Lower(name[dot + 1..])| == 3;
    }
    if |name| >= 4 && name[|name| - 4] == '.' && Lower(name[|name| - 3..]) == "csv" {
      var tail := name[|name| - 3..];
      forall i | |name| - 4 < i < |name|
        ensures name[i] != '.'
      {
        assert LowerChar(tail[i - (|name| - 3)]) == "csv"[i - (|name| - 3)];
      }
      assert name[|name| - 4] in name;
      var dot := LastDot(name).value;
      assert dot == |name| - 4;
    }
  }

  /** An upper-case extension is accepted. */
  lemma UpperCaseAccepted()
    ensures AllowedFile("usage.CSV")
  {
    var name := "usage.CSV";
    assert name[|name| - 3..] == "CSV";
    assert Lower("CSV") == "csv";
    AllowedFileIsCsvSuffix(name);
  }

  /** Only the text after the last '.' counts. */
  lemma OtherExtensionRejected()
    ensures !AllowedFile("usage.csv.txt")
  {
    var name := "usage.csv.txt";
    assert name[|name| - 3..] == "txt";
    assert Lower("txt")[0] == 't';
    AllowedFileIsCsvSuffix(name);
  }

  /** A name without a '.' is rejected, even when it spells the extension. */
  lemma BareNameRejected()
    ensures !AllowedFile("csv")
  {
    AllowedFileIsCsvSuffix("csv");
  }
}

=== FILE: wrappers.dfy ===
/** Failure-compatible result types shared by the whole model. */
module Wrappers {

  /** A value that may be absent: Python's `None` or a missing dictionary entry. */
  datatype Option<+T> = None | Some(value: T) {
    /** The carried value, or `default` when there is none. */
    function GetOr(default: T): T {
      match this
      case Some(v) => v
      case None => default
    }
  }

  /** The outcome of an operation that can raise: a value or the error raised. */
  datatype Result<+R, +E> = Success(value: R) | Failure(error: E)
}
